=== FILE: README.md ===
# LazyCraft workflow graph engine, in Dafny

This project models the workflow canvas of LazyCraft, a low-code application builder. The canvas is a list of nodes and a list of edges. The model covers the pure logic the editor runs over them:

- the three-colour depth-first cycle detector, and the edge and node normalisers that prepare a loaded graph;
- the incremental connection tracker that keeps each node's connected handle ids;
- the entry-rooted tree analyser, which splits the nodes into reachable and orphaned ones;
- the connection check, the branch queries (descendants, ancestors, leaves) and the per-rank layout representative of the flow hooks;
- the read-only rule and its warning text;
- smaller rules: the tool validator, keyboard names, the position analyser, the layout's input boxes, the input-history list and summary, the draft sanitiser, the component-palette filter and the `{` variable trigger.

The React store is replaced by an explicit `(nodes, edges)` snapshot. Every operation is a pure function over immutable datatypes.

The `reactflow` helpers are library code, so `Graph` defines them explicitly:
- `Outgoers`: the nodes, in node order, that some edge from `n` enters;
- `Incomers`: the same for the edges into `n`;
- `ConnectedEdges`: the edges with `n` at either end.

Reachability (`Reaches`, `ReachesPlus`) and cycles (`HasCycle`, `IsCycle`) are defined over walks whose vertices are node ids.

Constants that live in files outside the model are fields of `Config.Constants`, so no value is guessed. These are the entry block type, the custom node type, the note type, the start position and step, the built-in and custom provider names, the independent block types and the output-variable block types. The block type enum and the fixed-value modules are not part of this model.

Module layout: `Wrappers`, `Seqs`, `Json` (ordered JavaScript objects and object spread), `Graph`, `Config`, then one module per part of the source.

## Model

| member | source | states |
|---|---|---|
| CycleDetector.Visit | front/app/components/taskStream/utils.ts:65-88 | One `performDFS` call on a white node either reports a closed walk along edges, or finishes the node after all its successors while keeping the grey/black colouring well formed. It terminates because the number of white node ids decreases. |
| CycleDetector.VisitNeighbors | front/app/components/taskStream/utils.ts:73-84 | The loop over the adjacency list: a grey neighbour closes a cycle. Otherwise every neighbour that is a node ends finished. |
| CycleDetector.DetectFrom | front/app/components/taskStream/utils.ts:90-101 | The outer loop starts a search at every still-white node. When no cycle is found, every node id is finished after all its successors. |
| CycleDetector.NoCycleUnderFinishOrder | front/app/components/taskStream/utils.ts:90-109 | A finishing order in which every node follows its successors rules out any cycle. This is why an empty report is sound. |
| CycleDetector.DetectCycles | front/app/components/taskStream/utils.ts:90-109 | `hasCycle` holds exactly when the graph has a cycle. The cycle path is then a closed walk with equal first and last ids. The cycle edges are exactly the edges with both ends on that path, in edge order, and there is at least one. With no cycle, the path and the edge list are empty. |
| CycleDetector.SelfLoopDetected | front/app/components/taskStream/utils.ts:73-78 | A node with an edge to itself is reported as a cycle, and `findWorkflowCycleEdges` is then non-empty. |
| EdgeNormalizer.NodeById | front/app/components/taskStream/utils.ts:160-167 | `nodesMap[id]` exists exactly when some node has the id, and then it is a node with that id. |
| EdgeNormalizer.SelectedNode | front/app/components/taskStream/utils.ts:159-167 | The selected node the `reduce` leaves behind is absent exactly when no node is selected. Otherwise it is a selected node of the list. |
| EdgeNormalizer.LaterNodeWins | front/app/components/taskStream/utils.ts:160-167 | A node added later shadows earlier nodes with its id. A later selected node wins the selection, and an unselected one leaves the selection as it was. |
| EdgeNormalizer.NodeByIdIsFind | front/app/components/taskStream/utils.ts:160-167 | With unique ids, the map lookup agrees with `find`. |
| EdgeNormalizer.EnsureEdgeDefaults | front/app/components/taskStream/utils.ts:178-222 | A missing type becomes `workflow-custom`, and null handles become `workflow-source`/`workflow-target`; present values stay. An existing `sourceType`/`targetType` is never overwritten. When it is absent and the endpoint node exists, it takes the node's type and its title (default `Unknown Source`/`Unknown Target`). When the endpoint is missing nothing is added. The selection flag is set exactly when a node is selected. |
| EdgeNormalizer.EnsureEdgeDefaultsIdempotent | front/app/components/taskStream/utils.ts:178-222 | Filling the defaults of an already normalised edge changes nothing. |
| EdgeNormalizer.DropCycleEdgesByKey | front/app/components/taskStream/utils.ts:169-173 | The filter as written: an order-preserving subsequence keeping exactly the edges whose string key (source and target joined by a vertical bar) is not the key of a cycle edge. |
| EdgeNormalizer.DropCycleEdges | front/app/components/taskStream/utils.ts:169-173 | The corrected filter: an order-preserving subsequence keeping exactly the edges that join no cycle edge's (source, target) pair. Parallel edges are dropped too. |
| EdgeNormalizer.KeyFilterDropsPairs | front/app/components/taskStream/utils.ts:169-173 | The string-key filter drops every edge the pair filter drops. |
| EdgeNormalizer.InitializeEdgesAsWritten | front/app/components/taskStream/utils.ts:156-175 | `initializeWorkflowEdges` as written: the result keeps the order of the input, with defaults filled. It holds exactly the filled input edges whose string key is not the key of a cycle edge, and it is no longer than the input. |
| EdgeNormalizer.InitializeEdges | front/app/components/taskStream/utils.ts:156-175 | Corrected `initializeWorkflowEdges`: the same, except that it holds exactly the filled input edges that join no cycle edge's (source, target) pair. |
| EdgeNormalizer.InitializeEdgesAcyclic | front/app/components/taskStream/utils.ts:156-175 | Without a cycle, both the as-written and the corrected normaliser keep every edge in order, each with its defaults filled. |
| EdgeNormalizer.InitializeEdgesCyclic | front/app/components/taskStream/utils.ts:156-175 | With a cycle, both the as-written and the corrected normaliser drop at least one edge. |
| EdgeNormalizer.InitializeEdgesFilter | front/app/components/taskStream/utils.ts:169-174 | Corrected normaliser: no returned edge joins the pair of a cycle edge. Every input edge that does not is returned, with its defaults filled. |
| EdgeNormalizer.AsWrittenDropsCyclePairs | front/app/components/taskStream/utils.ts:169-174 | The as-written normaliser also removes every edge on a cycle pair. |
| EdgeNormalizer.KeyCollisionDropsEdgeOffCycle | front/app/components/taskStream/utils.ts:169-173 | Counterexample, writing X for the vertical bar: the edge `aXb -> c` lies on no cycle, yet the string keys drop it beside the cycle `a -> bXc -> a`. The pair filter keeps it. |
| NodeNormalizer.HandleIdsMatchConnectedEdges | front/app/components/taskStream/utils.ts:145-154 | Filtering the connected edges by source (target) and mapping `sourceHandle ?? 'source'` (`targetHandle ?? 'target'`) gives one handle per leaving (entering) edge, in edge order. |
| NodeNormalizer.HandleIdsCount | front/app/components/taskStream/utils.ts:145-154 | The source list has exactly one entry per edge leaving the node, and the target list one per edge entering it. |
| NodeNormalizer.ParallelEdgesNotDeduplicated | front/app/components/taskStream/utils.ts:147-149 | Two parallel edges on the same handle both appear in the list. |
| NodeNormalizer.SourceHandleMembership | front/app/components/taskStream/utils.ts:147-149 | A handle is listed exactly when some edge leaves the node through it, counting a null handle as `source`. |
| NodeNormalizer.InitializeNodes | front/app/components/taskStream/utils.ts:119-143 | If the first node has no position, node i is placed at START.x + i·step, START.y; otherwise no position changes. A node without a type gets the custom type. Every node gets its handle lists. Every other field is kept: ids, parents, block types, titles, selection, sizes, the iteration-start flag and the payload kind. |
| NodeNormalizer.DefaultRowIsOrdered | front/app/components/taskStream/utils.ts:124-131 | With a positive step, the default placement puts the nodes left to right on one row. |
| ConnectionTracker.UpdateHandles | front/app/components/taskStream/utils.ts:378-414 | Connect appends a handle only when it is absent, so connecting a present handle is idempotent. Disconnect removes exactly the first occurrence, keeping the rest in order, and leaves the list unchanged when the handle is absent. |
| ConnectionTracker.Endpoint | front/app/components/taskStream/utils.ts:359-362 | An endpoint resolves exactly when its id is non-empty and names a node. |
| ConnectionTracker.ProcessChange | front/app/components/taskStream/utils.ts:356-376 | A change without an edge leaves the map unchanged. Otherwise only the resolved endpoints' records are created or updated, and every other record is untouched. |
| ConnectionTracker.ProcessChanges | front/app/components/taskStream/utils.ts:416-426 | Folding the changes keeps every record no change touches, and only adds records for node ids. |
| ConnectionTracker.ConnectionMapKeys | front/app/components/taskStream/utils.ts:429-435 | `computeWorkflowNodeConnectionMap` only holds records for node ids. |
| ConnectionTracker.ProcessChangeUpdatesEndpoints | front/app/components/taskStream/utils.ts:356-414 | Each endpoint a change resolves has its handle list updated from its previous list (or the node's stored one) by the change's kind. So a disconnect cuts out exactly the first occurrence of the edge's handle, and a connect appends it only when absent. |
| ConnectionTracker.ConnectAppliedHandles | front/app/components/taskStream/utils.ts:356-393 | After a connect change, the edge's source handle is on the resolved source's list and its target handle on the resolved target's list. |
| ConnectionTracker.ConnectTwiceKeepsHandles | front/app/components/taskStream/utils.ts:378-393 | Applying the same connect change twice leaves the same handle lists as applying it once. |
| ConnectionTracker.DisconnectAbsentIsNoOp | front/app/components/taskStream/utils.ts:384-392 | Disconnecting a source handle the node does not hold leaves its source list as it was. |
| ConnectionTracker.ProcessChangesSetLike | front/app/components/taskStream/utils.ts:344-426 | When the lists stored on the nodes are duplicate-free, every handle list the tracker produces stays duplicate-free. |
| TreeAnalyzer.Traverse | front/app/components/taskStream/utils.ts:503-531 | `traverseWorkflowTree` records each node once. The visits it adds are reachable from the start, at the given level or deeper, and closed under outgoers. The depth returned is the deepest level the subtree reaches, and every path recorded is a branch through the root that ends at a node without outgoers. |
| TreeAnalyzer.EntryNode | front/app/components/taskStream/utils.ts:493-497 | The entry node is absent exactly when no node has the entry type. Otherwise it is a node of the entry type. |
| TreeAnalyzer.ValidNodes | front/app/components/taskStream/utils.ts:552-554 | The valid nodes are nodes of the list, one per id, and their ids are exactly the visited ids. |
| TreeAnalyzer.AnalyzeTree | front/app/components/taskStream/utils.ts:538-566 | With no entry node: no valid nodes, depth 0, and every node orphaned. Otherwise the entry is recorded first at level 1. The levels are sound and closed, and the orphaned nodes are the nodes whose ids are not valid. |
| TreeAnalyzer.ValidIsReachable | front/app/components/taskStream/utils.ts:503-536 | The valid node ids are exactly the ids reachable from the entry node. |
| TreeAnalyzer.OrphanedAreUnreachable | front/app/components/taskStream/utils.ts:533-548 | The orphaned nodes are exactly the nodes the entry cannot reach, so valid and orphaned nodes partition the list. With no entry node, every node is orphaned. |
| TreeAnalyzer.PathsRunEntryToLeaf | front/app/components/taskStream/utils.ts:503-531 | Every execution path starts at the entry node, follows edges and ends at a node with no outgoers. |
| TreeAnalyzer.LevelsWithinDepth | front/app/components/taskStream/utils.ts:503-531 | Each reachable node appears in exactly one level, between 1 and `maxDepth`. A node with outgoers lies above `maxDepth`. |
| Layout.NormalizeDimension | front/app/components/taskStream/utils.ts:259-261 | A positive size is kept; anything else becomes the fallback. |
| Layout.NormalizeDimensionStable | front/app/components/taskStream/utils.ts:259-261 | A normalised size is positive, and normalising it again changes nothing. |
| Layout.LayoutBoxAsWritten | front/app/components/taskStream/utils.ts:266-271 | The box as the source builds it: width and height both fall back to the default width, and the label is the title or else the id. |
| Layout.AsWrittenHeightIgnoresDefault | front/app/components/taskStream/utils.ts:226-229 | Counterexample: a node without a height is laid out 220 high, not the declared default height of 180. |
| Layout.NodeBox | front/app/components/taskStream/utils.ts:226-229 | The corrected box: each dimension falls back to its own default, so both are positive. |
| Layout.BoxesAgreeWhenSized | front/app/components/taskStream/utils.ts:266-271 | The corrected box and the as-written box differ only in the fallback height. |
| Layout.EligibleNodes | front/app/components/taskStream/utils.ts:250-257 | The nodes handed to the layout are, in order, exactly the top-level nodes of the custom type. |
| Layout.LayoutLinks | front/app/components/taskStream/utils.ts:251-279 | The layout receives the (source, target) pair of exactly the edges not inside an iteration. |
| Layout.LayoutGraph | front/app/components/taskStream/utils.ts:247-280 | `setupLayout` as written: the layout receives the as-written box (220 high when no height is set) of exactly the top-level nodes of the custom type, and the (source, target) pair of exactly the edges not inside an iteration. |
| Layout.LayoutGraphCorrected | front/app/components/taskStream/utils.ts:226-280 | Corrected `setupLayout`: the same nodes and links, each node laid out as the corrected box, so every box has a positive width and height. |
| Layout.LayoutGraphsDifferInFallbackHeight | front/app/components/taskStream/utils.ts:226-280 | The two layouts get the same links, and box by box they differ at most in a fallback height of 220 against 180. When every eligible node has a positive height they are equal. |
| NodeCapability.CanRunIndependently | front/app/components/taskStream/utils.ts:294-318 | Missing or non-object data cannot run on its own. An independent block type, an `independent`/`standalone` execution mode or the legacy flag each make it runnable. |
| NodeCapability.RunnableOnlyFor | front/app/components/taskStream/utils.ts:294-318 | Those three are the only ways to be runnable. |
| Keyboard.KeyName | front/app/components/taskStream/utils.ts:800-808 | Exactly the seven named keys have a non-empty display name on each platform. |
| Keyboard.DisplayName | front/app/components/taskStream/utils.ts:826-828 | A known key, in any case, shows its platform name. Any other key is shown as given. |
| Keyboard.KeyCodeIdempotent | front/app/components/taskStream/utils.ts:809-813 | A key code is its own key code: `getKeyCode` is stable on its results. |
| Keyboard.Shortcut | front/app/components/taskStream/utils.ts:815-836 | An unknown action has no keys. A known one starts with the platform code of the control modifier. |
| Keyboard.FormatShortcut | front/app/components/taskStream/utils.ts:815-841 | An unknown action formats to the empty string. A known one opens with the display name of the platform's control key code followed by ` + `: `meta + ` on macOS, where the code has no display name, and `Ctrl + ` elsewhere. |
| Keyboard.MacSaveShowsRawMeta | front/app/components/taskStream/utils.ts:801-841 | Counterexample: the save shortcut shows as `meta + s` on macOS but `Ctrl + s` elsewhere. |
| Keyboard.DisplayNameFixed | front/app/components/taskStream/utils.ts:826-828 | The corrected name also displays the macOS code `meta` as the control modifier's name. |
| Keyboard.CodeDisplaysAsModifier | front/app/components/taskStream/utils.ts:801-813 | Under the corrected names, every modifier's code shows as the modifier's own name on both platforms. |
| Keyboard.FixedShortcutShowsModifier | front/app/components/taskStream/utils.ts:815-841 | With the corrected names, every shortcut is shown starting with the platform name of the control modifier. |
| PositionAnalyzer.Positioned | front/app/components/taskStream/utils.ts:874-876 | The analyser keeps exactly the nodes with a position, in order. |
| PositionAnalyzer.NodeBounds | front/app/components/taskStream/utils.ts:878-921 | No positioned node gives all zeros. Otherwise the bounds hold every positioned node's box (a missing or zero width counts as 200, a height as 100), and all four sides are reached: some node attains the minimum x, the minimum y, the maximum right edge and the maximum bottom edge. Width and height are the extents' differences. |
| PositionAnalyzer.OptimalViewport | front/app/components/taskStream/utils.ts:923-931 | The viewport's corner is the minimum x and minimum y of the positioned nodes, pulled back by the padding, at zoom 1: it sits the padding above and to the left of every positioned node, and some node lies exactly the padding to its right and some exactly the padding below. With no positioned node it is at minus the padding. |
| PositionAnalyzer.NodesInRegion | front/app/components/taskStream/utils.ts:933-945 | Exactly the positioned nodes whose boxes overlap or touch the region, in order. |
| PositionAnalyzer.BoundsRegionHoldsAll | front/app/components/taskStream/utils.ts:878-945 | With non-negative sizes, the region spanned by the bounds finds every positioned node. |
| ToolValidator.ToolsByType | front/app/components/taskStream/utils.ts:625-634 | Built-in and custom providers select their own inventory. Any other provider type, absent included, selects the workflow tools. |
| ToolValidator.Inventory | front/app/components/taskStream/utils.ts:619-623 | The collection is absent exactly when no collection of that type has the provider id. Otherwise it is one that has it. |
| ToolValidator.TargetTool | front/app/components/taskStream/utils.ts:636-642 | No collection means no tool. Otherwise the tool is absent exactly when no tool of the collection has the tool name. |
| ToolValidator.Failed | front/app/components/taskStream/utils.ts:694-716 | Each candidate error is reported exactly when its check failed, in check order. |
| ToolValidator.ValidateTool | front/app/components/taskStream/utils.ts:694-716 | Each of the five errors is reported exactly when its condition holds: missing provider id, provider type or tool name, collection not found, tool not found. The errors come in check order. |
| ToolValidator.ValidExactlyWhenFound | front/app/components/taskStream/utils.ts:694-716 | A tool passes exactly when all three fields are set and the tool is found. |
| ToolValidator.MissingCollectionMissesTool | front/app/components/taskStream/utils.ts:707-713 | A missing collection is always reported together with a missing tool. |
| ToolValidator.Authorization | front/app/components/taskStream/utils.ts:667-692 | A non-built-in tool is authorised without requirement. Authorisation is required exactly for a built-in tool whose collection allows deletion, and the auth type is `team` exactly then. |
| ToolValidator.UnauthorizedExactly | front/app/components/taskStream/utils.ts:667-692 | A tool is unauthorised exactly when it is built in, its collection allows deletion and the team has not authorised it. |
| ToolValidator.Metadata | front/app/components/taskStream/utils.ts:731-736 | Absent fields read as empty strings, and the version falls back to `1.0.0`. |
| Connection.CycleSearch | front/app/components/taskStream/logicHandlers/flowCore.ts:148-160 | A hit means the source is reachable from the node in one or more steps. A miss leaves every visited node with all its successors visited, none of them the source. |
| Connection.CycleSearchIsReachesPlus | front/app/components/taskStream/logicHandlers/flowCore.ts:148-162 | `hasCycle(targetNode)` holds exactly when the source is reachable from the target along one or more edges. |
| Connection.UpSearch | front/app/components/taskStream/logicHandlers/flowCore.ts:126-139 | A hit means the linked node reaches the start node. A miss leaves the visited set closed under incomers. |
| Connection.UpSearchIsReaches | front/app/components/taskStream/logicHandlers/flowCore.ts:126-143 | The backward walk over incomers finds the linked node exactly when the linked node reaches the source. |
| Connection.LinkCheck | front/app/components/taskStream/logicHandlers/flowCore.ts:114-145 | For a linked aggregator, the source must be the linked node or a node downstream of it, and a missing linked node rejects. Any other target passes. |
| Connection.ValidateConnectionAsWritten | front/app/components/taskStream/logicHandlers/flowCore.ts:81-163 | The check as written accepts exactly when: both endpoints exist; the target is no iteration start; neither endpoint is a note; both type lists exist and allow the pair (the entry type is always an allowed predecessor); the aggregator rule holds; and the source is not reachable from the target in one or more steps. |
| Connection.ValidateConnection | front/app/components/taskStream/logicHandlers/flowCore.ts:81-163 | The corrected check: the same rules, with the source also rejected when the target reaches it in zero steps, that is a self-connection. |
| Connection.AcceptedKeepsAcyclic | front/app/components/taskStream/logicHandlers/flowCore.ts:147-162 | Adding an edge the corrected check accepts never creates a cycle in an acyclic graph. |
| Connection.AsWrittenAcceptsSelfLoop | front/app/components/taskStream/logicHandlers/flowCore.ts:148-162 | Counterexample: the check as written accepts a first self-connection that the other rules allow, the corrected check rejects it, and the resulting graph has a cycle. |
| Fetch.FetchNode | front/app/components/taskStream/logicHandlers/flowCore.ts:165-170 | The node with the given id when there is one, else the first entry node. The result is absent exactly when neither exists. |
| Fetch.IterationChildren | front/app/components/taskStream/logicHandlers/flowCore.ts:319-326 | Exactly the nodes whose parent is the given id, in node order. |
| Fetch.After | front/app/components/taskStream/logicHandlers/flowCore.ts:228-239 | The walk below a node lists every node reachable from it in one or more steps, and only such nodes. |
| Fetch.FetchAfter | front/app/components/taskStream/logicHandlers/flowCore.ts:216-245 | An unknown id yields the empty list. Otherwise the node comes first, followed by its descendants: the ids are exactly those reachable from it, each once. |
| Fetch.LeavesExactly | front/app/components/taskStream/logicHandlers/flowCore.ts:188-202 | `preOrder` collects exactly the leaves reachable from the root without passing through the node itself. |
| Fetch.TreeEntry | front/app/components/taskStream/logicHandlers/flowCore.ts:178-185 | The walk starts at the first entry node, or, for a node inside a container, at the iteration start with the same parent. It is absent exactly when there is no such node. |
| Fetch.FetchTreeLeaves | front/app/components/taskStream/logicHandlers/flowCore.ts:172-214 | With no starting node, the result is empty. Otherwise it lists unique ids of output-variable kinds, each a direct incomer of the node or a leaf reached from the start without passing through the node. |
| Fetch.TreeLeavesComplete | front/app/components/taskStream/logicHandlers/flowCore.ts:172-214 | Every such incomer or leaf of an output-variable kind is returned. |
| Upstream.Gather | front/app/components/taskStream/logicHandlers/flowCore.ts:269-285 | The incomer walk only appends nodes upstream of the node, never repeats an id already listed, and leaves the list closed under incomers. |
| Upstream.ParentBranch | front/app/components/taskStream/logicHandlers/flowCore.ts:260-267 | The parent's list holds unique ids of output-variable kinds, each in the branch of the parent chain. |
| Upstream.FetchBefore | front/app/components/taskStream/logicHandlers/flowCore.ts:247-295 | An unknown id yields the empty list. Otherwise the result has unique ids, only output-variable kinds, only ancestors of the node or of its parent chain, and the whole parent's list. |
| Upstream.BeforeComplete | front/app/components/taskStream/logicHandlers/flowCore.ts:269-292 | Every node of an output-variable kind that reaches the node, without passing an id already taken from the parent, is returned. |
| Upstream.BeforeTopLevel | front/app/components/taskStream/logicHandlers/flowCore.ts:247-295 | For a node without a parent, the result is exactly its ancestors of output-variable kinds. |
| Upstream.StoreParent | front/app/components/taskStream/logicHandlers/flowCore.ts:302-304 | The parent is present exactly when the store has the node and a node with its parent id, and then it is that node. |
| Upstream.FetchBeforeIncludeParent | front/app/components/taskStream/logicHandlers/flowCore.ts:297-309 | The result extends the list before the node by exactly one node, the store's parent container, when there is one. |
| RankMap.Ranks | front/app/components/taskStream/logicHandlers/flowCore.ts:399-413 | The map has a key for exactly the ranks used by eligible nodes (no parent, custom type). Each maps to the eligible node of that rank with the smallest y, the earliest one on ties. |
| RankMap.RepresentativeUnique | front/app/components/taskStream/logicHandlers/flowCore.ts:401-413 | A rank has at most one representative, so the map is fully determined. |
| ReadOnly.WarnText | front/app/components/taskStream/logicHandlers/flowCore.ts:794-810 | The warning is empty exactly when the canvas is not read-only. An app canvas shows the app text. The no-permission text appears exactly for a team lock on a non-app canvas. |
| ReadOnly.AuthorizedNotTeamLocked | front/app/components/taskStream/logicHandlers/flowCore.ts:776-782 | Anyone with authority is never team-locked, and a team lock makes the canvas read-only. |
| ReadOnly.BuiltInIgnoresPermit | front/app/components/taskStream/logicHandlers/flowCore.ts:776-778 | On a built-in draft, only the administrator has authority. |
| ReadOnly.WarnFollowsDebugStatus | front/app/components/taskStream/logicHandlers/flowCore.ts:797-808 | Without an app canvas or a team lock, the debug status picks the text: `start`, then `starting`, then the generic running text. |
| ReadOnly.LiveDebugLocks | front/app/components/taskStream/logicHandlers/flowCore.ts:781-782 | A starting debug session with no history stacks locks the canvas even when nothing else does. |
| InputPanel.SaveHistory | front/app/components/taskStream/board/data-input-panel.tsx:76-102 | Without an app id, with empty inputs, or with inputs equal to a stored item, the list is unchanged. Otherwise the new record is prepended and the list is cut to 10 items. The record has the id `input-<time>`, is named `输入 #n+1`, and carries the inputs, the time and the test-run id. |
| InputPanel.SaveTwiceIsOnce | front/app/components/taskStream/board/data-input-panel.tsx:93-102 | Saving the same inputs a second time changes nothing. |
| InputPanel.SaveKeepsHistoryWellFormed | front/app/components/taskStream/board/data-input-panel.tsx:93-102 | The history never holds two equal inputs and never grows past 10 items. |
| InputPanel.FullHistoryDropsOldest | front/app/components/taskStream/board/data-input-panel.tsx:85-102 | On a full history the oldest item is dropped, and every new record is named `输入 #11`. |
| InputPanel.SelectionAfter | front/app/components/taskStream/board/data-input-panel.tsx:137-143 | A selection survives exactly when some item of the list has its id. Otherwise it is cleared. |
| InputPanel.SelectionSettles | front/app/components/taskStream/board/data-input-panel.tsx:137-143 | The effect is settled after one run, and a selection taken from the list survives it. |
| InputPanel.FirstText | front/app/components/taskStream/board/data-input-panel.tsx:223-228 | The first non-empty string value, in key order. It is absent exactly when there is none. |
| InputPanel.InputSummary | front/app/components/taskStream/board/data-input-panel.tsx:219-236 | Missing or empty inputs give the empty string. Otherwise the first text appears, clipped to 20 characters with `...` when longer. Without text, the summary is `包含: ` followed by the keys joined by `, `. |
| InputPanel.SummaryIsShortForText | front/app/components/taskStream/board/data-input-panel.tsx:227-232 | A summary of inputs that hold text is non-empty and at most 23 characters long. |
| InputPanel.EntryShape | front/app/components/taskStream/board/data-input-panel.tsx:157-179 | The default-file flag is raised exactly when some entry node has exactly one output of type `str`. With no entry node, the fields are unchanged. |
| InputPanel.EntryShapeByLastEntry | front/app/components/taskStream/board/data-input-panel.tsx:161-177 | The fields are those of the last entry node (its outputs, plus the default file when needed), since each entry node overwrites the earlier ones. |
| DraftSync.Sanitize | front/app/components/taskStream/logicHandlers/itemAlignPlan.ts:56-71 | The sanitised data has no `_` key, keeps every other entry in order, and answers every non-private lookup as before. |
| DraftSync.SanitizeResource | front/app/components/taskStream/logicHandlers/itemAlignPlan.ts:72-80 | The same for resources, which also lose `candidate`. |
| DraftSync.SanitizeIdempotent | front/app/components/taskStream/logicHandlers/itemAlignPlan.ts:56-80 | Sanitising twice is sanitising once. |
| DraftSync.BuildRequest | front/app/components/taskStream/logicHandlers/itemAlignPlan.ts:36-112 | No request is built exactly when there is no app id or no entry node. Otherwise the url is `/apps/<id>/workflows/draft`. Every node, edge and resource keeps its id and other fields, and its data loses exactly the private keys. The viewport comes from the transform, and the hash, edge mode and preview url are passed through. |
| DraftSync.SavedGraphRoundTrips | front/app/components/taskStream/logicHandlers/itemAlignPlan.ts:56-99 | A graph that is already sanitised is saved unchanged. |
| DraftSync.Dispatch | front/app/components/taskStream/logicHandlers/itemAlignPlan.ts:222-230 | A read-only canvas never syncs. A forced sync runs at once with its error flag, and any other sync is debounced. |
| DraftSync.ExecuteSync | front/app/components/taskStream/logicHandlers/itemAlignPlan.ts:131-168 | A sync sends a request exactly when the canvas is editable, a token is stored, no other sync is running, a hash is known at the start and just before sending, the initial draft has loaded, and a request can be built. The request sent is the built one stamped with the latest hash. |
| DraftSync.DispatchSendsWhenEditable | front/app/components/taskStream/logicHandlers/itemAlignPlan.ts:131-230 | A dispatched save sends a request exactly when the canvas is editable and every guard of the sync passes, and forcing it changes when it runs but not what it sends. |
| DraftSync.DispatchRefreshesOnStaleHash | front/app/components/taskStream/logicHandlers/itemAlignPlan.ts:175-230 | A failed save reloads the draft exactly when the canvas is editable, the server reports a stale hash, and the save was not a forced one that asked to skip the reload. |
| Palette.Category | front/app/components/taskStream/module-panel/components/index.tsx:35 | `groupBy(...)[cat]` holds exactly the blocks of that category, in menu order. |
| Palette.Listed | front/app/components/taskStream/module-panel/components/index.tsx:35-37 | Exactly the category's blocks whose lower-cased title contains the lower-cased search text. |
| Palette.Partner | front/app/components/taskStream/module-panel/components/index.tsx:39 | The first universe node with the block's name and type; absent exactly when none matches. |
| Palette.Entry | front/app/components/taskStream/module-panel/components/index.tsx:37-46 | With universe nodes, the entry is the spread `{...node, ...block}`: the block's fields win, and the other fields come from the partner node. Without universe nodes, it is the block itself. |
| Palette.UnmatchedBlockUnchanged | front/app/components/taskStream/module-panel/components/index.tsx:39-43 | A block with no partner is listed as an equal copy of itself. |
| Palette.Groups | front/app/components/taskStream/module-panel/components/index.tsx:33-51 | The computation fails exactly when some classification has no block at all. Otherwise it has one key per classification, each holding the filtered and merged list. |
| Palette.EmptySearchListsWholeCategory | front/app/components/taskStream/module-panel/components/index.tsx:35-37 | An empty search lists the whole category, in menu order. |
| Palette.NoUniverseListsBlocks | front/app/components/taskStream/module-panel/components/index.tsx:38-45 | Without universe nodes, the palette lists the filtered blocks themselves. |
| Trigger.VariableTrigger | front/app/components/base/signal-editor/hooks.ts:106-126 | No result exactly when `/(.*)(\{)(.*)$/` cannot match the text. Otherwise the match is the one `exec` picks: the leftmost start, then the longest first group. `leadOffset` is at a `{`, the matching string is the rest of the text (which holds no `{`), and the replaceable string is `{`. |
| Trigger.TriggerWithoutLineBreaks | front/app/components/base/signal-editor/hooks.ts:110-120 | On text without line breaks, the menu opens exactly when the text has a `{`. It opens at the last `{`, and the typed query runs to the end of the text. |
| Json.Spread | front/app/components/taskStream/module-panel/components/index.tsx:40-43 | Object spread has the union of the keys, and each key takes the later object's value when it has one. |

## Left out

- `computeWorkflowLayout` and `dagre.layout` are a foreign library. Only the nodes, boxes and edges handed to them are modelled. The `/2` centring in `organizeLayout` and the bounding-box centre are floating point and left out.
- `Date.now()` and `Math.random()` values are left out: the `_selectionTimestamp`, `_lastModified` and change timestamps are not modelled, and the history clock is a parameter.
- `generateWorkflowNode` is left out, because it builds random ids.
- Operating-system detection reads `navigator`; the `isMac` flag replaces it.
- `argToFormSchema`, the form schemas and `buildToolInputsSchema` of the tool validator are foreign calls and are left out.
- The event-target analyser and the image generator work on the DOM and are left out.
- Storage and network calls are left out, with the data they produce as parameters:
  - `localStorage` reads and writes;
  - `restoreHistory`, `backToCurrent` and `clearHistorySelection`, which only set the selection or read storage;
  - the HTTP call in `syncWorkflowDraft`, the sync lock and the page-close beacon.
- The `features` and `environment_variables` parts of the draft request are copied from other stores unchanged and are left out.
- `toShapeInputs` and the resource-file part of `useInputShape` are left out. The file defining `toShapeInputs` is not part of this model, so an entry node's declared outputs stand for its fields.
- The palette's OCR debug lookups after the `groups` computation only log, and are left out.
- `fetchBeforeNodeById` is a single `getIncomers` call and has no member of its own.
- Fetch.FetchAfter: requires an acyclic graph, because the source walk keeps no visited set and does not terminate on a cycle.
- Fetch.FetchTreeLeaves: requires an acyclic graph, for the same reason.
- Upstream.FetchBefore: the parent-chain recursion takes a ghost fuel bound and requires the chain to end within it. A cyclic `parentId` chain, on which the source recurses forever, is not modelled.
- RankMap.Ranks: the rank function of the dagre layout is a parameter, and every eligible node is required to carry a position, as the source's `position.y` reads assume.
- Palette.Listed: a block without a string `title` makes the source throw inside `toLowerCase`; the model reads its title as the empty string.
- Palette.TitleMatches and Keyboard.DisplayName lower-case ASCII letters only, not the full Unicode case mapping of `toLowerCase`.
- Keyboard.DisplayName, Keyboard.Shortcut and EdgeNormalizer.NodeById: the prototype keys of a plain object (such as `constructor`) are not modelled as table entries. A lookup of such a key is modelled as missing, where the source finds the inherited property.
- DraftSync.RefreshOnError: the debounced save is assumed to call the sync with no `skipRefreshOnError` flag. The store's debouncer that makes this call is not part of this model.
- Trigger.VariableTrigger: `leadOffset` counts characters (code points), not the UTF-16 code units of a JavaScript string index. The two differ on text holding characters outside the Basic Multilingual Plane before the `{`.
- InputPanel.InputSummary: clips by characters, not by UTF-16 code units.
- InputPanel.SaveHistory and Palette.Partner: `JSON.stringify` equality and `===` on names and types are modelled as structural equality of ordered entry lists. Key-order differences and keys dropped because their value is `undefined` are not modelled.
- InputPanel.EntryShape: the `setFlagDefaultFile(true)` state update is modelled as a returned flag.
- Json values carry integers; floating-point numbers are not modelled.
- Json.Spread: keys keep insertion order. JavaScript lists integer-like keys first, in ascending order, and that order is not modelled.

## Findings

| source | as written | input that shows it | evidently intended | confidence | as-written member | corrected member |
|---|---|---|---|---|---|---|
| front/app/components/taskStream/utils.ts:169-173 | Cycle edges are removed by comparing string keys made of the source and target ids joined by a vertical bar. | Writing X for the vertical bar: nodes `a`, `bXc`, `aXb`, `c`; edges `a->bXc`, `bXc->a`, `aXb->c`. The third edge is on no cycle, but its key `aXbXc` equals the first edge's key, so it is dropped. | Remove exactly the edges whose (source, target) pair is the pair of a cycle edge. | medium, not executed | EdgeNormalizer.KeyCollisionDropsEdgeOffCycle | EdgeNormalizer.DropCycleEdges |
| front/app/components/taskStream/utils.ts:259-269 | `normalizeNodeDimensions` falls back to `DEFAULT_NODE_DIMENSIONS.width` for the height too. | A node with no `height` is laid out 220 high; the declared default height 180 is never used. | The height falls back to the default height. | high, not executed | Layout.AsWrittenHeightIgnoresDefault | Layout.NodeBox |
| front/app/components/taskStream/logicHandlers/flowCore.ts:148-162 | `hasCycle(targetNode)` only looks for the source among the target's outgoers, transitively, so it never sees `source == target` without an existing edge. | Connecting a node to itself when the node types allow it: accepted, and the new edge is a cycle. | A connection that would close a cycle, including a self-loop, is rejected. | medium, not executed | Connection.AsWrittenAcceptsSelfLoop | Connection.ValidateConnection |
| front/app/components/taskStream/utils.ts:815-841 | macOS shortcuts are stored as key codes (`meta`), but `formatShortcutDisplay` looks them up in the display-name table, which has no `meta` entry. | `formatShortcutDisplay('workflow.save')` on macOS gives `meta + s`, while other platforms get `Ctrl + s`. | The command modifier shows as its platform name `⌘`. | medium, not executed | Keyboard.MacSaveShowsRawMeta | Keyboard.FixedShortcutShowsModifier |

=== FILE: config.dfy ===
/** Constants the workflow editor imports from modules that are not part of this
    model (`fixed-values.ts`, the block enum in `types.ts`, the note-node
    constant, the tool container types). They are kept as parameters so that no
    value is guessed. */
module Config {
  import opened Graph

  datatype Constants = Constants(
    /** `CUSTOM_NODE_TYPE`, the render type of ordinary workflow nodes. */
    customNodeType: string,
    /** `NOTE_NODE_CUSTOM`, the render type of sticky notes. */
    noteNodeType: string,
    /** `START_INITIAL_POSITION_POINT`. */
    startPoint: Position,
    /** `NODE_WIDTH_AND_X_OFFSET`. */
    nodeWidthAndXOffset: int,
    /** `ExecutionBlockEnum.EntryNode`. */
    entryKind: string,
    /** `ExecutionBlockEnum.Code`. */
    codeKind: string,
    /** `ExecutionBlockEnum.SubModule`. */
    subModuleKind: string,
    /** `SUPPORT_OUTPUT_VARS_NODES`: the block kinds whose outputs can be referenced. */
    outputVarKinds: seq<string>,
    /** `ContainerType.builtin`. */
    builtinProvider: string,
    /** `ContainerType.custom`. */
    customProvider: string)
}

=== FILE: connection.dfy ===
/** `validateConnection`: whether the editor accepts a new edge from `source`
    to `target`. The two depth-first searches of the source (downstream of the
    target, upstream of the source) are modelled as written, with their shared
    visited sets, and proved equal to reachability. */
module Connection {
  import opened Wrappers
  import opened Seqs
  import opened Graph
  import opened Config

  /** The per-block-type entry of `nodesExtraData`. */
  datatype NodeExtra = NodeExtra(availablePrevNodes: Option<seq<string>>, availableNextNodes: Option<seq<string>>)

  /** What a search reports and the visited set it leaves behind. */
  datatype Found = Found(hit: bool, visited: set<Id>)

  /** The last step of a walk of one or more steps. */
  lemma ReachesPlusLastStep(nodes: seq<Node>, edges: seq<Edge>, a: Id, b: Id)
    requires ReachesPlus(nodes, edges, a, b)
    ensures exists x :: Reaches(nodes, edges, a, x) && HasEdge(edges, x, b) && b in NodeIds(nodes)
  {
    var p :| Walk(nodes, edges, p) && |p| >= 2 && p[0] == a && p[|p| - 1] == b;
    var q := p[..|p| - 1];
    assert Walk(nodes, edges, q) && q[0] == a;
    assert HasEdge(edges, q[|q| - 1], b);
  }

  // ---------------------------------------------------------------------
  // `hasCycle(node, visited)`: forward search for an edge back into `src`.

  /** Every node newly visited had all its successors visited, none of them `src`. */
  ghost predicate ForwardDone(nodes: seq<Node>, edges: seq<Edge>, src: Id, added: set<Id>, visited: set<Id>)
  {
    forall x, y :: x in added && HasEdge(edges, x, y) && y in NodeIds(nodes) ==> y in visited && y != src
  }

  lemma ForwardChain(nodes: seq<Node>, edges: seq<Edge>, src: Id, v0: set<Id>, v1: set<Id>, v2: set<Id>)
    requires v0 <= v1 <= v2
    requires ForwardDone(nodes, edges, src, v1 - v0, v1) && ForwardDone(nodes, edges, src, v2 - v1, v2)
    ensures ForwardDone(nodes, edges, src, v2 - v0, v2)
  {
  }

  lemma ForwardRoot(nodes: seq<Node>, edges: seq<Edge>, src: Id, u: Id, visited: set<Id>, after: set<Id>)
    requires visited + {u} <= after
    requires ForwardDone(nodes, edges, src, after - (visited + {u}), after)
    requires forall m :: m in Outgoers(nodes, edges, u) ==> m.id in after && m.id != src
    ensures ForwardDone(nodes, edges, src, after - visited, after)
  {
    forall x, y | x in after - visited && HasEdge(edges, x, y) && y in NodeIds(nodes)
      ensures y in after && y != src
    {
      if x == u {
        var m :| m in nodes && m.id == y;
        assert m in Outgoers(nodes, edges, u);
      }
    }
  }

  function CycleSearch(nodes: seq<Node>, edges: seq<Edge>, src: Id, u: Node, visited: set<Id>): (r: Found)
    requires u in nodes && visited <= NodeIds(nodes)
    decreases |NodeIds(nodes) - visited|, 0
    ensures visited <= r.visited <= NodeIds(nodes)
    ensures r.hit ==> ReachesPlus(nodes, edges, u.id, src)
    ensures !r.hit ==> u.id in r.visited && ForwardDone(nodes, edges, src, r.visited - visited, r.visited)
  {
    if u.id in visited then Found(false, visited)
    else
      var v1 := visited + {u.id};
      Fewer(NodeIds(nodes), visited, v1, u.id);
      var r := CycleLoop(nodes, edges, src, u.id, Outgoers(nodes, edges, u.id), v1);
      if r.hit then r
      else
        ForwardRoot(nodes, edges, src, u.id, visited, r.visited);
        r
  }

  /** The `for … of getOutgoers(node)` loop, returning at the first hit. */
  function CycleLoop(nodes: seq<Node>, edges: seq<Edge>, src: Id, ghost from: Id, outs: seq<Node>, visited: set<Id>): (r: Found)
    requires from in NodeIds(nodes) && visited <= NodeIds(nodes)
    requires forall m :: m in outs ==> m in nodes && HasEdge(edges, from, m.id)
    decreases |NodeIds(nodes) - visited|, 1, |outs|
    ensures visited <= r.visited <= NodeIds(nodes)
    ensures r.hit ==> ReachesPlus(nodes, edges, from, src)
    ensures !r.hit ==> (forall m :: m in outs ==> m.id in r.visited && m.id != src)
    ensures !r.hit ==> ForwardDone(nodes, edges, src, r.visited - visited, r.visited)
  {
    if outs == [] then Found(false, visited)
    else
      var m := outs[0];
      assert m in outs;
      assert forall x :: x in outs[1..] ==> x in outs;
      if m.id == src then
        ReachesRefl(nodes, edges, from);
        ReachesStep(nodes, edges, from, from, src);
        Found(true, visited)
      else
        var r0 := CycleSearch(nodes, edges, src, m, visited);
        if r0.hit then
          PlusToReaches(nodes, edges, m.id, src);
          StepReaches(nodes, edges, from, m.id, src);
          r0
        else
          FewerOrSame(NodeIds(nodes), visited, r0.visited);
          var r1 := CycleLoop(nodes, edges, src, from, outs[1..], r0.visited);
          if r1.hit then r1
          else
            ForwardChain(nodes, edges, src, visited, r0.visited, r1.visited);
            r1
  }

  /** `hasCycle(targetNode)` finds an edge into `src` exactly when `src` is reachable from the
      target in one or more steps. */
  lemma CycleSearchIsReachesPlus(nodes: seq<Node>, edges: seq<Edge>, src: Id, t: Node)
    requires t in nodes
    ensures CycleSearch(nodes, edges, src, t, {}).hit <==> ReachesPlus(nodes, edges, t.id, src)
  {
    var r := CycleSearch(nodes, edges, src, t, {});
    if !r.hit && ReachesPlus(nodes, edges, t.id, src) {
      var v := r.visited;
      assert v - {} == v;
      ReachesPlusLastStep(nodes, edges, t.id, src);
      var x :| Reaches(nodes, edges, t.id, x) && HasEdge(edges, x, src) && src in NodeIds(nodes);
      ClosedHoldsReachable(nodes, edges, v, t.id, x);
      assert false;
    }
  }

  // ---------------------------------------------------------------------
  // `isDownstreamOfLinkedSource(node, visited)`: backward search for `goal`.

  /** Every node newly visited is not `goal` and had all its predecessors visited. */
  ghost predicate BackwardDone(nodes: seq<Node>, edges: seq<Edge>, goal: Id, added: set<Id>, visited: set<Id>)
  {
    && (forall x :: x in added ==> x != goal)
    && (forall x, y :: x in added && HasEdge(edges, y, x) && y in NodeIds(nodes) ==> y in visited)
  }

  lemma BackwardChain(nodes: seq<Node>, edges: seq<Edge>, goal: Id, v0: set<Id>, v1: set<Id>, v2: set<Id>)
    requires v0 <= v1 <= v2
    requires BackwardDone(nodes, edges, goal, v1 - v0, v1) && BackwardDone(nodes, edges, goal, v2 - v1, v2)
    ensures BackwardDone(nodes, edges, goal, v2 - v0, v2)
  {
    forall x | x in v2 - v0
      ensures x != goal
    {
      assert x in v1 - v0 || x in v2 - v1;
    }
  }

  lemma BackwardRoot(nodes: seq<Node>, edges: seq<Edge>, goal: Id, u: Id, visited: set<Id>, after: set<Id>)
    requires visited + {u} <= after && u != goal
    requires BackwardDone(nodes, edges, goal, after - (visited + {u}), after)
    requires forall m :: m in Incomers(nodes, edges, u) ==> m.id in after
    ensures BackwardDone(nodes, edges, goal, after - visited, after)
  {
    forall x | x in after - visited
      ensures x != goal
    {
      assert x == u || x in after - (visited + {u});
    }
    forall x, y | x in after - visited && HasEdge(edges, y, x) && y in NodeIds(nodes)
      ensures y in after
    {
      if x == u {
        var m :| m in nodes && m.id == y;
        assert m in Incomers(nodes, edges, u);
      }
    }
  }

  function UpSearch(nodes: seq<Node>, edges: seq<Edge>, goal: Id, u: Node, visited: set<Id>): (r: Found)
    requires u in nodes && visited <= NodeIds(nodes)
    decreases |NodeIds(nodes) - visited|, 0
    ensures visited <= r.visited <= NodeIds(nodes)
    ensures r.hit ==> Reaches(nodes, edges, goal, u.id)
    ensures !r.hit ==> u.id in r.visited && BackwardDone(nodes, edges, goal, r.visited - visited, r.visited)
  {
    if u.id in visited then Found(false, visited)
    else if u.id == goal then
      ReachesRefl(nodes, edges, goal);
      Found(true, visited + {u.id})
    else
      var v1 := visited + {u.id};
      Fewer(NodeIds(nodes), visited, v1, u.id);
      var r := UpLoop(nodes, edges, goal, u.id, Incomers(nodes, edges, u.id), v1);
      if r.hit then r
      else
        BackwardRoot(nodes, edges, goal, u.id, visited, r.visited);
        r
  }

  /** `incomers.some(...)`, stopping at the first hit. */
  function UpLoop(nodes: seq<Node>, edges: seq<Edge>, goal: Id, ghost to: Id, ins: seq<Node>, visited: set<Id>): (r: Found)
    requires to in NodeIds(nodes) && visited <= NodeIds(nodes)
    requires forall m :: m in ins ==> m in nodes && HasEdge(edges, m.id, to)
    decreases |NodeIds(nodes) - visited|, 1, |ins|
    ensures visited <= r.visited <= NodeIds(nodes)
    ensures r.hit ==> Reaches(nodes, edges, goal, to)
    ensures !r.hit ==> (forall m :: m in ins ==> m.id in r.visited)
    ensures !r.hit ==> BackwardDone(nodes, edges, goal, r.visited - visited, r.visited)
  {
    if ins == [] then Found(false, visited)
    else
      var m := ins[0];
      assert m in ins;
      assert forall x :: x in ins[1..] ==> x in ins;
      var r0 := UpSearch(nodes, edges, goal, m, visited);
      if r0.hit then
        ReachesStep(nodes, edges, goal, m.id, to);
        r0
      else
        FewerOrSame(NodeIds(nodes), visited, r0.visited);
        var r1 := UpLoop(nodes, edges, goal, to, ins[1..], r0.visited);
        if r1.hit then r1
        else
          BackwardChain(nodes, edges, goal, visited, r0.visited, r1.visited);
          r1
  }

  /** A set closed under predecessors holds every node that reaches one of its members. */
  lemma ClosedBackwardHoldsAncestors(nodes: seq<Node>, edges: seq<Edge>, s: set<Id>, a: Id, b: Id)
    requires b in s
    requires forall x, y :: x in s && HasEdge(edges, y, x) && y in NodeIds(nodes) ==> y in s
    requires Reaches(nodes, edges, a, b)
    ensures a in s
  {
    var p :| Walk(nodes, edges, p) && p[0] == a && p[|p| - 1] == b;
    var k := |p| - 1;
    while k > 0
      invariant 0 <= k <= |p| - 1
      invariant p[k] in s
    {
      assert HasEdge(edges, p[k - 1], p[k]) && p[k - 1] in NodeIds(nodes);
      k := k - 1;
    }
  }

  /** The upstream search from `s` finds `goal` exactly when `goal` reaches `s`. */
  lemma UpSearchIsReaches(nodes: seq<Node>, edges: seq<Edge>, goal: Id, s: Node)
    requires s in nodes
    ensures UpSearch(nodes, edges, goal, s, {}).hit <==> Reaches(nodes, edges, goal, s.id)
  {
    var r := UpSearch(nodes, edges, goal, s, {});
    if !r.hit && Reaches(nodes, edges, goal, s.id) {
      var v := r.visited;
      assert v - {} == v;
      ClosedBackwardHoldsAncestors(nodes, edges, v, goal, s.id);
      assert false;
    }
  }

  // ---------------------------------------------------------------------
  // The connection rules.

  /** Neither a note, nor a connection into an iteration's start node. */
  predicate EndpointsAllowed(c: Constants, s: Node, t: Node)
  {
    !t.isIterationStart && s.renderType != Some(c.noteNodeType) && t.renderType != Some(c.noteNodeType)
  }

  /** The type lists of `nodesExtraData` allow the pair; a missing list forbids it. */
  predicate TypesAllowed(c: Constants, extra: map<string, NodeExtra>, s: Node, t: Node)
  {
    var next := if s.kind in extra then extra[s.kind].availableNextNodes else None;
    var prev := if t.kind in extra then extra[t.kind].availablePrevNodes else None;
    next.Some? && prev.Some? && t.kind in next.value && s.kind in prev.value + [c.entryKind]
  }

  /** A linked aggregator: its id contains `_link` and its payload kind is `aggregator`. */
  predicate IsLinkedAggregator(t: Node)
  {
    ContainsSub(t.id, "_link") && t.payloadKind == Some("aggregator")
  }

  /** The id of the node an aggregator was created for. */
  function LinkedSourceId(t: Node): Id
  {
    ReplaceFirst(t.id, "_link", "")
  }

  /** The aggregator rule stated by reachability: the source is the linked node or lies downstream of it. */
  ghost predicate LinkRule(nodes: seq<Node>, edges: seq<Edge>, s: Node, t: Node)
  {
    !IsLinkedAggregator(t) || s.id == LinkedSourceId(t)
      || (LinkedSourceId(t) in NodeIds(nodes) && Reaches(nodes, edges, LinkedSourceId(t), s.id))
  }

  /** The aggregator rule as the source checks it. */
  function LinkCheck(nodes: seq<Node>, edges: seq<Edge>, s: Node, t: Node): (r: bool)
    requires s in nodes
    ensures r <==> LinkRule(nodes, edges, s, t)
  {
    if !IsLinkedAggregator(t) || s.id == LinkedSourceId(t) then true
    else if FindNode(nodes, LinkedSourceId(t)).None? then false
    else
      UpSearchIsReaches(nodes, edges, LinkedSourceId(t), s);
      UpSearch(nodes, edges, LinkedSourceId(t), s, {}).hit
  }

  /** All checks before the cycle check, on the two looked-up endpoints. */
  ghost predicate Prechecks(c: Constants, extra: map<string, NodeExtra>, nodes: seq<Node>, edges: seq<Edge>, s: Node, t: Node)
  {
    EndpointsAllowed(c, s, t) && TypesAllowed(c, extra, s, t) && LinkRule(nodes, edges, s, t)
  }

  /** `validateConnection` as written: the cycle check only looks for paths of one or more edges. */
  function ValidateConnectionAsWritten(c: Constants, extra: map<string, NodeExtra>, nodes: seq<Node>, edges: seq<Edge>,
                                       source: Id, target: Id): (r: bool)
    ensures r <==> (FindNode(nodes, source).Some? && FindNode(nodes, target).Some?
      && Prechecks(c, extra, nodes, edges, FindNode(nodes, source).value, FindNode(nodes, target).value)
      && !ReachesPlus(nodes, edges, target, source))
  {
    match (FindNode(nodes, source), FindNode(nodes, target))
    case (Some(s), Some(t)) =>
      CycleSearchIsReachesPlus(nodes, edges, source, t);
      EndpointsAllowed(c, s, t) && TypesAllowed(c, extra, s, t) && LinkCheck(nodes, edges, s, t)
        && !CycleSearch(nodes, edges, source, t, {}).hit
    case _ => false
  }

  /** `validateConnection` with a connection from a node to itself also counted as a cycle. */
  function ValidateConnection(c: Constants, extra: map<string, NodeExtra>, nodes: seq<Node>, edges: seq<Edge>,
                              source: Id, target: Id): (r: bool)
    ensures r <==> (FindNode(nodes, source).Some? && FindNode(nodes, target).Some?
      && Prechecks(c, extra, nodes, edges, FindNode(nodes, source).value, FindNode(nodes, target).value)
      && !Reaches(nodes, edges, target, source))
  {
    match (FindNode(nodes, source), FindNode(nodes, target))
    case (Some(s), Some(t)) =>
      CycleSearchIsReachesPlus(nodes, edges, source, t);
      ReachesSplit(nodes, edges, target, source);
      EndpointsAllowed(c, s, t) && TypesAllowed(c, extra, s, t) && LinkCheck(nodes, edges, s, t)
        && source != target && !CycleSearch(nodes, edges, source, t, {}).hit
    case _ => false
  }

  /** Adding an edge to the edge list. */
  lemma HasEdgeAppend(edges: seq<Edge>, e: Edge, a: Id, b: Id)
    ensures HasEdge(edges + [e], a, b) <==> HasEdge(edges, a, b) || (a == e.source && b == e.target)
  {
    if HasEdge(edges + [e], a, b) {
      var f :| f in edges + [e] && f.source == a && f.target == b;
      assert f in edges || f == e;
    }
    if HasEdge(edges, a, b) {
      var f :| f in edges && f.source == a && f.target == b;
      assert f in edges + [e];
    }
    if a == e.source && b == e.target {
      assert e in edges + [e];
    }
  }

  /** Along a walk, a set closed under its steps keeps every later vertex. */
  lemma WalkStaysIn(nodes: seq<Node>, edges: seq<Edge>, p: seq<Id>, s: set<Id>, i: int, j: int)
    requires Walk(nodes, edges, p) && 0 <= i <= j < |p| && p[i] in s
    requires forall x, y :: x in s && HasEdge(edges, x, y) && y in NodeIds(nodes) ==> y in s
    ensures p[j] in s
  {
    var k := i;
    while k < j
      invariant i <= k <= j && p[k] in s
    {
      assert HasEdge(edges, p[k], p[k + 1]) && p[k + 1] in NodeIds(nodes);
      k := k + 1;
    }
  }

  /** With `source` unreachable from `target`, what `target` reaches stays closed once the edge is added. */
  lemma ReachClosedUnderNewEdge(nodes: seq<Node>, edges: seq<Edge>, e: Edge, reach: set<Id>)
    requires e.target in NodeIds(nodes) && !Reaches(nodes, edges, e.target, e.source)
    requires reach == set x | x in NodeIds(nodes) && Reaches(nodes, edges, e.target, x)
    ensures e.source !in reach && e.target in reach
    ensures forall x, y :: x in reach && HasEdge(edges + [e], x, y) && y in NodeIds(nodes) ==> y in reach
  {
    ReachesRefl(nodes, edges, e.target);
    forall x, y | x in reach && HasEdge(edges + [e], x, y) && y in NodeIds(nodes)
      ensures y in reach
    {
      HasEdgeAppend(edges, e, x, y);
      if HasEdge(edges, x, y) {
        ReachesStep(nodes, edges, e.target, x, y);
      }
    }
  }

  /** A cycle after adding `e` that does not use `e` was there before. */
  lemma CycleUsesNewEdge(nodes: seq<Node>, edges: seq<Edge>, e: Edge, p: seq<Id>)
    requires IsCycle(nodes, edges + [e], p) && !HasCycle(nodes, edges)
    ensures exists k :: 0 <= k < |p| - 1 && p[k] == e.source && p[k + 1] == e.target
  {
    if forall k :: 0 <= k < |p| - 1 ==> HasEdge(edges, p[k], p[k + 1]) {
      assert IsCycle(nodes, edges, p);
    } else {
      var k :| 0 <= k < |p| - 1 && !HasEdge(edges, p[k], p[k + 1]);
      HasEdgeAppend(edges, e, p[k], p[k + 1]);
    }
  }

  /** Adding an edge whose source the target cannot reach keeps a graph acyclic. */
  lemma NoReachKeepsAcyclic(nodes: seq<Node>, edges: seq<Edge>, e: Edge)
    requires e.target in NodeIds(nodes) && !Reaches(nodes, edges, e.target, e.source)
    requires !HasCycle(nodes, edges)
    ensures !HasCycle(nodes, edges + [e])
  {
    if HasCycle(nodes, edges + [e]) {
      var p :| IsCycle(nodes, edges + [e], p);
      var reach := set x | x in NodeIds(nodes) && Reaches(nodes, edges, e.target, x);
      ReachClosedUnderNewEdge(nodes, edges, e, reach);
      CycleUsesNewEdge(nodes, edges, e, p);
      var k :| 0 <= k < |p| - 1 && p[k] == e.source && p[k + 1] == e.target;
      CycleReturnsInto(nodes, edges + [e], p, reach, k);
    }
  }

  /** A cycle that steps into a set closed under edges comes back to the step's start inside it. */
  lemma CycleReturnsInto(nodes: seq<Node>, edges: seq<Edge>, p: seq<Id>, s: set<Id>, k: int)
    requires IsCycle(nodes, edges, p) && 0 <= k < |p| - 1 && p[k + 1] in s
    requires forall x, y :: x in s && HasEdge(edges, x, y) && y in NodeIds(nodes) ==> y in s
    ensures p[k] in s
  {
    WalkStaysIn(nodes, edges, p, s, k + 1, |p| - 1);
    WalkStaysIn(nodes, edges, p, s, 0, k);
  }

  /** An accepted connection never closes a cycle in an acyclic graph. */
  lemma AcceptedKeepsAcyclic(c: Constants, extra: map<string, NodeExtra>, nodes: seq<Node>, edges: seq<Edge>,
                             source: Id, target: Id, e: Edge)
    requires ValidateConnection(c, extra, nodes, edges, source, target)
    requires !HasCycle(nodes, edges) && e.source == source && e.target == target
    ensures !HasCycle(nodes, edges + [e])
  {
    AcceptedFacts(c, extra, nodes, edges, source, target);
    NoReachKeepsAcyclic(nodes, edges, e);
  }

  lemma AcceptedFacts(c: Constants, extra: map<string, NodeExtra>, nodes: seq<Node>, edges: seq<Edge>,
                      source: Id, target: Id)
    requires ValidateConnection(c, extra, nodes, edges, source, target)
    ensures target in NodeIds(nodes) && source in NodeIds(nodes) && !Reaches(nodes, edges, target, source)
  {
  }

  /** The check as written accepts a first self-loop on any node the other rules allow, and that edge is a cycle. */
  lemma AsWrittenAcceptsSelfLoop(c: Constants, extra: map<string, NodeExtra>, nodes: seq<Node>, edges: seq<Edge>,
                                 n: Node, e: Edge)
    requires n in nodes && FindNode(nodes, n.id) == Some(n)
    requires Prechecks(c, extra, nodes, edges, n, n)
    requires !ReachesPlus(nodes, edges, n.id, n.id)
    requires e.source == n.id && e.target == n.id
    ensures ValidateConnectionAsWritten(c, extra, nodes, edges, n.id, n.id)
    ensures !ValidateConnection(c, extra, nodes, edges, n.id, n.id)
    ensures HasCycle(nodes, edges + [e])
  {
    ReachesRefl(nodes, edges, n.id);
    HasEdgeAppend(edges, e, n.id, n.id);
    assert IsCycle(nodes, edges + [e], [n.id, n.id]);
  }
}

=== FILE: connection_tracker.dfy ===
/** `WorkflowConnectionManager`: per-node lists of connected handle ids, kept up
    to date by a stream of connect and disconnect changes. */
module ConnectionTracker {
  import opened Wrappers
  import opened Seqs
  import opened Graph

  /** Handle ids recorded for an edge whose handle is null or undefined. */
  const DefaultSourceHandle := "default-source"
  const DefaultTargetHandle := "default-target"

  datatype ChangeKind = Connect | Disconnect

  /** A change as it arrives; a falsy `edge` is `None`. The timestamp is not modelled. */
  datatype Change = Change(kind: ChangeKind, edge: Option<Edge>)

  /** One node's entry in the connection map (`_lastModified` is not modelled). */
  datatype Record = Record(sourceHandleIds: seq<string>, targetHandleIds: seq<string>, history: seq<Change>)

  type ConnectionMap = map<Id, Record>

  /** `updateSourceHandleConnection` / `updateTargetHandleConnection` on one handle list:
      connect appends a handle not yet present, disconnect splices out its first occurrence. */
  function UpdateHandles(kind: ChangeKind, handles: seq<string>, h: string): (r: seq<string>)
    ensures kind == Connect ==> h in r && Elems(r) == Elems(handles) + {h}
    ensures kind == Connect && h in handles ==> r == handles
    ensures kind == Connect && h !in handles ==> r == handles + [h]
    ensures kind == Disconnect && h !in handles ==> r == handles
    ensures kind == Disconnect && h in handles ==> multiset(r) + multiset{h} == multiset(handles)
    ensures kind == Disconnect && h in handles ==>
      exists i :: 0 <= i < |handles| && handles[i] == h && h !in handles[..i] && r == handles[..i] + handles[i + 1..]
    ensures kind == Connect ==> handles <= r
    ensures kind == Disconnect ==> IsSubsequence(r, handles)
  {
    match kind
    case Connect => if h in handles then handles else handles + [h]
    case Disconnect =>
      if h in handles then
        var i := IndexOf(handles, h);
        RemoveAtFirst(handles, h, i);
        handles[..i] + handles[i + 1..]
      else
        SubsequenceRefl(handles);
        handles
  }

  /** Cutting out the first occurrence of `h`: one fewer `h`, the rest kept in order. */
  lemma RemoveAtFirst(handles: seq<string>, h: string, i: int)
    requires h in handles && i == IndexOf(handles, h)
    ensures 0 <= i < |handles| && handles[i] == h && h !in handles[..i]
    ensures multiset(handles[..i] + handles[i + 1..]) + multiset{h} == multiset(handles)
    ensures IsSubsequence(handles[..i] + handles[i + 1..], handles)
  {
    assert handles == handles[..i] + [h] + handles[i + 1..];
    SpliceIsSubsequence(handles, i);
  }

  lemma {:induction false} SpliceIsSubsequence<T>(s: seq<T>, i: int)
    requires 0 <= i < |s|
    ensures IsSubsequence(s[..i] + s[i + 1..], s)
    decreases i
  {
    if i == 0 {
      assert s[..0] + s[1..] == s[1..];
      SubsequenceOfTail(s);
    } else {
      var t := s[..i] + s[i + 1..];
      assert t[0] == s[0];
      assert t[1..] == s[1..][..i - 1] + s[1..][i..];
      SpliceIsSubsequence(s[1..], i - 1);
    }
  }

  lemma {:induction false} SubsequenceOfTail<T>(s: seq<T>)
    requires s != []
    ensures IsSubsequence(s[1..], s)
    decreases |s|
  {
    if s[1..] != [] {
      if s[1..][0] != s[0] {
        SubsequenceOfTail(s[1..]);
        assert s[1..][1..] == s[2..];
        SubsequenceRefl(s[1..]);
      } else {
        SubsequenceOfTail(s[1..]);
      }
    }
  }

  lemma {:induction false} SubsequenceRefl<T>(s: seq<T>)
    ensures IsSubsequence(s, s)
    decreases |s|
  {
    if s != [] {
      SubsequenceRefl(s[1..]);
    }
  }

  /** `initializeNodeConnection`: reuse the node's record, or start one from the
      handle lists stored on the node (`|| []` when absent) with an empty history. */
  function RecordFor(m: ConnectionMap, n: Node): Record
  {
    if n.id in m then m[n.id]
    else Record(n.sourceHandleIds.GetOr([]), n.targetHandleIds.GetOr([]), [])
  }

  /** The source handle an edge occupies. */
  function SourceHandleOf(e: Edge): string
  {
    e.sourceHandle.GetOr(DefaultSourceHandle)
  }

  /** The target handle an edge occupies. */
  function TargetHandleOf(e: Edge): string
  {
    e.targetHandle.GetOr(DefaultTargetHandle)
  }

  /** The node an edge endpoint resolves to: none for an empty id, else the first node with that id. */
  function Endpoint(nodes: seq<Node>, id: Id): (r: Option<Node>)
    ensures r.Some? <==> id != "" && id in NodeIds(nodes)
    ensures r.Some? ==> r.value in nodes && r.value.id == id
  {
    if id == "" then None else FindNode(nodes, id)
  }

  /** The ids whose records a change updates. */
  function Touched(nodes: seq<Node>, change: Change): (r: set<Id>)
    ensures r <= NodeIds(nodes)
  {
    match change.edge
    case None => {}
    case Some(e) =>
      (if Endpoint(nodes, e.source).Some? then {e.source} else {})
      + (if Endpoint(nodes, e.target).Some? then {e.target} else {})
  }

  function UpdateSource(m: ConnectionMap, n: Node, change: Change, e: Edge): ConnectionMap
  {
    var rec := RecordFor(m, n);
    m[n.id := rec.(sourceHandleIds := UpdateHandles(change.kind, rec.sourceHandleIds, SourceHandleOf(e)),
                   history := rec.history + [change])]
  }

  function UpdateTarget(m: ConnectionMap, n: Node, change: Change, e: Edge): ConnectionMap
  {
    var rec := RecordFor(m, n);
    m[n.id := rec.(targetHandleIds := UpdateHandles(change.kind, rec.targetHandleIds, TargetHandleOf(e)),
                   history := rec.history + [change])]
  }

  /** One iteration of `processChanges`: the `change.edge` guard, then `processConnectionChange`. */
  function ProcessChange(m: ConnectionMap, nodes: seq<Node>, change: Change): (r: ConnectionMap)
    ensures r.Keys == m.Keys + Touched(nodes, change)
    ensures forall x :: x in m && x !in Touched(nodes, change) ==> r[x] == m[x]
    ensures change.edge.None? ==> r == m
  {
    match change.edge
    case None => m
    case Some(e) =>
      if e.source == "" && e.target == "" then m
      else ApplyToEndpoints(m, Endpoint(nodes, e.source), Endpoint(nodes, e.target), change, e)
  }

  /** `processConnectionChange` once the endpoints are resolved: the source's record, then the target's. */
  function ApplyToEndpoints(m: ConnectionMap, src: Option<Node>, tgt: Option<Node>, change: Change, e: Edge): (r: ConnectionMap)
    ensures r.Keys == m.Keys + (if src.Some? then {src.value.id} else {}) + (if tgt.Some? then {tgt.value.id} else {})
    ensures forall x :: x in m && (src.None? || x != src.value.id) && (tgt.None? || x != tgt.value.id) ==> r[x] == m[x]
  {
    var m1 := if src.Some? then UpdateSource(m, src.value, change, e) else m;
    if tgt.Some? then UpdateTarget(m1, tgt.value, change, e) else m1
  }

  /** `processChanges`, starting from the connection map `m`. */
  function ProcessChanges(m: ConnectionMap, nodes: seq<Node>, changes: seq<Change>): (r: ConnectionMap)
    ensures m.Keys <= r.Keys
    ensures forall x :: x in r.Keys - m.Keys ==> x in NodeIds(nodes)
    ensures forall x :: x in m && (forall c :: c in changes ==> x !in Touched(nodes, c)) ==> r[x] == m[x]
    decreases |changes|
  {
    if changes == [] then m
    else
      var r := ProcessChanges(ProcessChange(m, nodes, changes[0]), nodes, changes[1..]);
      assert forall c :: c in changes[1..] ==> c in changes;
      r
  }

  /** `computeWorkflowNodeConnectionMap`: only nodes that some change touches get a record. */
  lemma ConnectionMapKeys(nodes: seq<Node>, changes: seq<Change>, x: Id)
    requires x in ProcessChanges(map[], nodes, changes)
    ensures x in NodeIds(nodes)
  {
  }

  /** Connecting a handle that is already connected changes no handle list:
      applying the same connect change twice leaves the lists as once. */
  lemma ConnectTwiceKeepsHandles(m: ConnectionMap, nodes: seq<Node>, change: Change, x: Id)
    requires change.kind == Connect
    requires x in ProcessChange(m, nodes, change)
    ensures var once := ProcessChange(m, nodes, change);
      var twice := ProcessChange(once, nodes, change);
      twice[x].sourceHandleIds == once[x].sourceHandleIds && twice[x].targetHandleIds == once[x].targetHandleIds
  {
    var once := ProcessChange(m, nodes, change);
    if change.edge.Some? {
      var e := change.edge.value;
      if !(e.source == "" && e.target == "") {
        var src := Endpoint(nodes, e.source);
        var tgt := Endpoint(nodes, e.target);
        ConnectAppliedHandles(m, nodes, change, e);
        ConnectPresentNoOp(once, src, tgt, change, e);
      }
    }
  }

  /** After a connect change the edge's handles are on every endpoint it resolved. */
  lemma ConnectAppliedHandles(m: ConnectionMap, nodes: seq<Node>, change: Change, e: Edge)
    requires change.kind == Connect && change.edge == Some(e) && !(e.source == "" && e.target == "")
    ensures var once := ProcessChange(m, nodes, change);
            && (Endpoint(nodes, e.source).Some? ==> e.source in once && SourceHandleOf(e) in once[e.source].sourceHandleIds)
            && (Endpoint(nodes, e.target).Some? ==> e.target in once && TargetHandleOf(e) in once[e.target].targetHandleIds)
  {
    var src := Endpoint(nodes, e.source);
    var m1 := if src.Some? then UpdateSource(m, src.value, change, e) else m;
    assert src.Some? ==> SourceHandleOf(e) in m1[e.source].sourceHandleIds;
  }

  /** Repeating a connect whose handles are already present changes no handle list. */
  lemma ConnectPresentNoOp(once: ConnectionMap, src: Option<Node>, tgt: Option<Node>, change: Change, e: Edge)
    requires change.kind == Connect
    requires src.Some? ==> src.value.id == e.source && e.source in once && SourceHandleOf(e) in once[e.source].sourceHandleIds
    requires tgt.Some? ==> tgt.value.id == e.target && e.target in once && TargetHandleOf(e) in once[e.target].targetHandleIds
    ensures var n1 := if src.Some? then UpdateSource(once, src.value, change, e) else once;
            var n2 := if tgt.Some? then UpdateTarget(n1, tgt.value, change, e) else n1;
            forall y :: y in once ==>
              (n2[y].sourceHandleIds == once[y].sourceHandleIds && n2[y].targetHandleIds == once[y].targetHandleIds)
  {
    ConnectedOnce(once, src, tgt, change, e);
  }

  /** After one connect change the edge's handles are present on the endpoints it resolved. */
  lemma ConnectedOnce(once: ConnectionMap, src: Option<Node>, tgt: Option<Node>, change: Change, e: Edge)
    requires change.kind == Connect
    requires src.Some? ==> src.value.id == e.source && e.source in once && SourceHandleOf(e) in once[e.source].sourceHandleIds
    requires tgt.Some? ==> tgt.value.id == e.target && e.target in once && TargetHandleOf(e) in once[e.target].targetHandleIds
    ensures var n1 := if src.Some? then UpdateSource(once, src.value, change, e) else once;
            forall y :: y in once ==>
              (n1[y].sourceHandleIds == once[y].sourceHandleIds && n1[y].targetHandleIds == once[y].targetHandleIds)
  {
  }

  /** Each endpoint a change resolves gets its handle list updated by the change's kind, starting from
      the list it had before (or the one stored on the node): a connect appends an absent handle, and
      a disconnect cuts out the first occurrence. Both ends are updated when they are the same node. */
  lemma ProcessChangeUpdatesEndpoints(m: ConnectionMap, nodes: seq<Node>, change: Change, e: Edge)
    requires change.edge == Some(e)
    ensures Endpoint(nodes, e.source).Some? ==>
      var before := RecordFor(m, Endpoint(nodes, e.source).value).sourceHandleIds;
      ProcessChange(m, nodes, change)[e.source].sourceHandleIds == UpdateHandles(change.kind, before, SourceHandleOf(e))
    ensures Endpoint(nodes, e.target).Some? ==>
      var before := RecordFor(m, Endpoint(nodes, e.target).value).targetHandleIds;
      ProcessChange(m, nodes, change)[e.target].targetHandleIds == UpdateHandles(change.kind, before, TargetHandleOf(e))
  {
    var src := Endpoint(nodes, e.source);
    var m1 := if src.Some? then UpdateSource(m, src.value, change, e) else m;
    var tgt := Endpoint(nodes, e.target);
    if tgt.Some? {
      assert RecordFor(m1, tgt.value).targetHandleIds == RecordFor(m, tgt.value).targetHandleIds;
    }
  }

  /** Disconnecting a source handle the node does not hold leaves its source list as it was. */
  lemma DisconnectAbsentIsNoOp(m: ConnectionMap, nodes: seq<Node>, change: Change, e: Edge)
    requires change.kind == Disconnect && change.edge == Some(e)
    requires e.source in m && SourceHandleOf(e) !in m[e.source].sourceHandleIds
    ensures ProcessChange(m, nodes, change)[e.source].sourceHandleIds == m[e.source].sourceHandleIds
  {
  }

  /** All handle lists of a map are free of duplicates. */
  predicate SetLike(m: ConnectionMap)
  {
    forall x :: x in m ==> NoDup(m[x].sourceHandleIds) && NoDup(m[x].targetHandleIds)
  }

  /** All handle lists stored on the nodes are free of duplicates. */
  predicate NodesSetLike(nodes: seq<Node>)
  {
    forall n :: n in nodes ==> NoDup(n.sourceHandleIds.GetOr([])) && NoDup(n.targetHandleIds.GetOr([]))
  }

  lemma UpdateHandlesKeepsNoDup(kind: ChangeKind, handles: seq<string>, h: string)
    requires NoDup(handles)
    ensures NoDup(UpdateHandles(kind, handles, h))
  {
    if kind == Disconnect && h in handles {
      var i := IndexOf(handles, h);
      assert UpdateHandles(kind, handles, h) == handles[..i] + handles[i + 1..];
      SpliceKeepsNoDup(handles, i);
    }
  }

  lemma SpliceKeepsNoDup<T>(s: seq<T>, i: int)
    requires NoDup(s) && 0 <= i < |s|
    ensures NoDup(s[..i] + s[i + 1..])
  {
    var r := s[..i] + s[i + 1..];
    assert forall k :: 0 <= k < i ==> r[k] == s[k];
    assert forall k :: i <= k < |r| ==> r[k] == s[k + 1];
    forall a, b | 0 <= a < b < |r|
      ensures r[a] != r[b]
    {
      var a' := if a < i then a else a + 1;
      var b' := if b < i then b else b + 1;
      assert r[a] == s[a'] && r[b] == s[b'];
    }
  }

  /** One change keeps every handle list duplicate-free. */
  lemma ProcessChangeSetLike(m: ConnectionMap, nodes: seq<Node>, c: Change)
    requires SetLike(m) && NodesSetLike(nodes)
    ensures SetLike(ProcessChange(m, nodes, c))
  {
    if c.edge.Some? {
      var e := c.edge.value;
      var src := Endpoint(nodes, e.source);
      var ma := if src.Some? then UpdateSource(m, src.value, c, e) else m;
      if src.Some? {
        UpdateSourceSetLike(m, nodes, src.value, c, e);
      }
      var tgt := Endpoint(nodes, e.target);
      if tgt.Some? {
        UpdateTargetSetLike(ma, nodes, tgt.value, c, e);
      }
    }
  }

  lemma UpdateSourceSetLike(m: ConnectionMap, nodes: seq<Node>, n: Node, c: Change, e: Edge)
    requires SetLike(m) && NodesSetLike(nodes) && n in nodes
    ensures SetLike(UpdateSource(m, n, c, e))
  {
    var rec := RecordFor(m, n);
    UpdateHandlesKeepsNoDup(c.kind, rec.sourceHandleIds, SourceHandleOf(e));
  }

  lemma UpdateTargetSetLike(m: ConnectionMap, nodes: seq<Node>, n: Node, c: Change, e: Edge)
    requires SetLike(m) && NodesSetLike(nodes) && n in nodes
    ensures SetLike(UpdateTarget(m, n, c, e))
  {
    var rec := RecordFor(m, n);
    UpdateHandlesKeepsNoDup(c.kind, rec.targetHandleIds, TargetHandleOf(e));
  }

  /** When the stored lists start duplicate-free, the tracker behaves like a set per handle list. */
  lemma {:induction false} ProcessChangesSetLike(m: ConnectionMap, nodes: seq<Node>, changes: seq<Change>)
    requires SetLike(m) && NodesSetLike(nodes)
    ensures SetLike(ProcessChanges(m, nodes, changes))
    decreases |changes|
  {
    if changes != [] {
      var m1 := ProcessChange(m, nodes, changes[0]);
      ProcessChangeSetLike(m, nodes, changes[0]);
      ProcessChangesSetLike(m1, nodes, changes[1..]);
    }
  }
}

=== FILE: cycle_detector.dfy ===
/** The three-colour depth-first cycle detector (`WorkflowCycleDetector` and
    `findWorkflowCycleEdges`). Grey nodes are the ones on the active path
    (`stack`), black nodes the finished ones (`done`, in finishing order), and
    every other node id is white. */
module CycleDetector {
  import opened Wrappers
  import opened Seqs
  import opened Graph

  /** The adjacency-list entry of `u`: the targets of the edges leaving `u`, in edge order. */
  function Neighbors(edges: seq<Edge>, u: Id): (r: seq<Id>)
    ensures forall v :: v in r ==> HasEdge(edges, u, v)
    ensures forall v :: HasEdge(edges, u, v) ==> v in r
  {
    if edges == [] then []
    else
      var rest := Neighbors(edges[1..], u);
      assert forall v :: HasEdge(edges, u, v) ==> (edges[0].source == u && edges[0].target == v) || HasEdge(edges[1..], u, v) by {
        forall v | HasEdge(edges, u, v)
          ensures (edges[0].source == u && edges[0].target == v) || HasEdge(edges[1..], u, v)
        {
          var e :| e in edges && e.source == u && e.target == v;
          if e != edges[0] {
            assert e in edges[1..];
          }
        }
      }
      (if edges[0].source == u then [edges[0].target] else []) + rest
  }

  /** The outcome of a search: the cycle path found, or the finishing order so far. */
  datatype Search = Cycle(path: seq<Id>) | Acyclic(finished: seq<Id>)

  /** Grey or black ids. */
  function Seen(stack: seq<Id>, done: seq<Id>): set<Id>
  {
    Elems(stack) + Elems(done)
  }

  /** Each id on the active path has an edge to the next one. */
  ghost predicate PathOfEdges(edges: seq<Edge>, stack: seq<Id>)
  {
    forall k :: 0 <= k < |stack| - 1 ==> HasEdge(edges, stack[k], stack[k + 1])
  }

  /** `done[i]` finished after every node it has an edge to. */
  ghost predicate FinishedAfterSuccessors(nodes: seq<Node>, edges: seq<Edge>, done: seq<Id>, i: int)
  {
    0 <= i < |done| && forall v :: HasEdge(edges, done[i], v) && v in NodeIds(nodes) ==> v in done[..i]
  }

  /** Well-formed colouring: grey and black ids are node ids and no id is both. */
  ghost predicate Colouring(nodes: seq<Node>, stack: seq<Id>, done: seq<Id>)
  {
    Elems(stack) <= NodeIds(nodes) && Elems(done) <= NodeIds(nodes) && Elems(stack) !! Elems(done)
  }

  lemma FewerWhite(ids: set<Id>, before: set<Id>, after: set<Id>, x: Id)
    requires before <= after && x in ids && x in after && x !in before
    ensures |ids - after| < |ids - before|
  {
    var a, b := ids - after, ids - before;
    assert a <= b;
    assert x in b - a;
    assert b == a + (b - a);
  }

  /** Pushing a white node keeps the colouring and the edge path. */
  lemma Push(nodes: seq<Node>, edges: seq<Edge>, u: Id, stack: seq<Id>, done: seq<Id>)
    requires u in NodeIds(nodes) && u !in stack && u !in done
    requires Colouring(nodes, stack, done)
    requires PathOfEdges(edges, stack)
    requires stack != [] ==> HasEdge(edges, stack[|stack| - 1], u)
    ensures Colouring(nodes, stack + [u], done)
    ensures PathOfEdges(edges, stack + [u])
    ensures |NodeIds(nodes) - Seen(stack + [u], done)| < |NodeIds(nodes) - Seen(stack, done)|
  {
    assert Elems(stack + [u]) == Elems(stack) + {u};
    PushPath(edges, u, stack);
    FewerWhite(NodeIds(nodes), Seen(stack, done), Seen(stack + [u], done), u);
  }

  lemma PushPath(edges: seq<Edge>, u: Id, stack: seq<Id>)
    requires PathOfEdges(edges, stack)
    requires stack != [] ==> HasEdge(edges, stack[|stack| - 1], u)
    ensures PathOfEdges(edges, stack + [u])
  {
    var s := stack + [u];
    forall k | 0 <= k < |s| - 1
      ensures HasEdge(edges, s[k], s[k + 1])
    {
      if k < |stack| - 1 {
        assert s[k] == stack[k] && s[k + 1] == stack[k + 1];
      } else {
        assert s[k] == stack[|stack| - 1] && s[k + 1] == u;
      }
    }
  }

  /** Popping `u` onto the finished list once its neighbours are all finished. */
  lemma Pop(nodes: seq<Node>, edges: seq<Edge>, u: Id, stack: seq<Id>, done: seq<Id>, d: seq<Id>)
    requires u in NodeIds(nodes) && u !in stack
    requires Colouring(nodes, stack + [u], d)
    requires forall v :: HasEdge(edges, u, v) && v in NodeIds(nodes) ==> v in d
    requires forall i :: |done| <= i < |d| ==> FinishedAfterSuccessors(nodes, edges, d, i)
    ensures Colouring(nodes, stack, d + [u])
    ensures forall i :: |done| <= i < |d + [u]| ==> FinishedAfterSuccessors(nodes, edges, d + [u], i)
  {
    assert Elems(stack + [u]) == Elems(stack) + {u};
    assert Elems(d + [u]) == Elems(d) + {u};
    var d' := d + [u];
    forall i | |done| <= i < |d'|
      ensures FinishedAfterSuccessors(nodes, edges, d', i)
    {
      if i < |d| {
        assert d'[i] == d[i] && d'[..i] == d[..i];
        assert FinishedAfterSuccessors(nodes, edges, d, i);
      } else {
        assert d'[..i] == d;
      }
    }
  }

  /** Extending the finishing order keeps the facts about its earlier entries. */
  lemma FinishedPrefix(nodes: seq<Node>, edges: seq<Edge>, lo: nat, a: seq<Id>, b: seq<Id>)
    requires a <= b && lo <= |a|
    requires forall i :: lo <= i < |a| ==> FinishedAfterSuccessors(nodes, edges, a, i)
    requires forall i :: |a| <= i < |b| ==> FinishedAfterSuccessors(nodes, edges, b, i)
    ensures forall i :: lo <= i < |b| ==> FinishedAfterSuccessors(nodes, edges, b, i)
  {
    forall i | lo <= i < |a|
      ensures FinishedAfterSuccessors(nodes, edges, b, i)
    {
      assert b[i] == a[i] && b[..i] == a[..i];
      assert FinishedAfterSuccessors(nodes, edges, a, i);
    }
  }

  /** An edge from the top of the active path back to a grey node closes a cycle. */
  lemma BackEdgeCycle(nodes: seq<Node>, edges: seq<Edge>, stack: seq<Id>, v: Id)
    requires v in stack && Colouring(nodes, stack, [])
    requires PathOfEdges(edges, stack)
    requires HasEdge(edges, stack[|stack| - 1], v)
    ensures IsCycle(nodes, edges, stack[IndexOf(stack, v)..] + [v])
  {
    var i := IndexOf(stack, v);
    var p := stack[i..] + [v];
    assert |p| == |stack| - i + 1 && p[|p| - 1] == v;
    assert forall k :: 0 <= k < |stack| - i ==> p[k] == stack[i + k];
    forall k | 0 <= k < |p|
      ensures p[k] in NodeIds(nodes)
    {
      if k < |stack| - i {
        assert stack[i + k] in Elems(stack);
      }
    }
    forall k | 0 <= k < |p| - 1
      ensures HasEdge(edges, p[k], p[k + 1])
    {
      if k < |stack| - i - 1 {
        assert HasEdge(edges, stack[i + k], stack[i + k + 1]);
      }
    }
  }

  /** `performDFS(u)` for a white node `u`. */
  function Visit(nodes: seq<Node>, edges: seq<Edge>, u: Id, stack: seq<Id>, done: seq<Id>): (r: Search)
    requires u in NodeIds(nodes) && u !in stack && u !in done
    requires Colouring(nodes, stack, done)
    requires PathOfEdges(edges, stack)
    requires stack != [] ==> HasEdge(edges, stack[|stack| - 1], u)
    decreases |NodeIds(nodes) - Seen(stack, done)|, 0
    ensures r.Acyclic? ==> done <= r.finished && u in r.finished
    ensures r.Acyclic? ==> Colouring(nodes, stack, r.finished)
    ensures r.Acyclic? ==> forall i :: |done| <= i < |r.finished| ==> FinishedAfterSuccessors(nodes, edges, r.finished, i)
    ensures r.Cycle? ==> IsCycle(nodes, edges, r.path)
  {
    Push(nodes, edges, u, stack, done);
    var r := VisitNeighbors(nodes, edges, Neighbors(edges, u), stack + [u], done);
    match r
    case Cycle(_) => r
    case Acyclic(d) =>
      Pop(nodes, edges, u, stack, done, d);
      Acyclic(d + [u])
  }

  /** The loop over the neighbours of the grey node on top of `stack`. */
  function VisitNeighbors(nodes: seq<Node>, edges: seq<Edge>, nbrs: seq<Id>, stack: seq<Id>, done: seq<Id>): (r: Search)
    requires stack != []
    requires Colouring(nodes, stack, done)
    requires PathOfEdges(edges, stack)
    requires forall v :: v in nbrs ==> HasEdge(edges, stack[|stack| - 1], v)
    decreases |NodeIds(nodes) - Seen(stack, done)|, 1, |nbrs|
    ensures r.Acyclic? ==> done <= r.finished
    ensures r.Acyclic? ==> Colouring(nodes, stack, r.finished)
    ensures r.Acyclic? ==> forall v :: v in nbrs && v in NodeIds(nodes) ==> v in r.finished
    ensures r.Acyclic? ==> forall i :: |done| <= i < |r.finished| ==> FinishedAfterSuccessors(nodes, edges, r.finished, i)
    ensures r.Cycle? ==> IsCycle(nodes, edges, r.path)
  {
    if nbrs == [] then Acyclic(done)
    else
      var v := nbrs[0];
      assert v in nbrs;
      assert forall w :: w in nbrs[1..] ==> w in nbrs;
      if v in stack then
        BackEdgeCycle(nodes, edges, stack, v);
        Cycle(stack[IndexOf(stack, v)..] + [v])
      else if v in NodeIds(nodes) && v !in done then
        match Visit(nodes, edges, v, stack, done)
        case Cycle(p) => Cycle(p)
        case Acyclic(d) =>
          FewerWhite(NodeIds(nodes), Seen(stack, done), Seen(stack, d), v);
          var r := VisitNeighbors(nodes, edges, nbrs[1..], stack, d);
          ChildThenRest(nodes, edges, nbrs, stack, done, d, r);
          r
      else
        var r := VisitNeighbors(nodes, edges, nbrs[1..], stack, done);
        SkipNeighbor(nodes, nbrs, done, r);
        r
  }

  /** After a finished child search, the rest of the loop finishes the remaining neighbours. */
  lemma ChildThenRest(nodes: seq<Node>, edges: seq<Edge>, nbrs: seq<Id>, stack: seq<Id>, done: seq<Id>, d: seq<Id>, r: Search)
    requires nbrs != [] && done <= d && nbrs[0] in d
    requires forall i :: |done| <= i < |d| ==> FinishedAfterSuccessors(nodes, edges, d, i)
    requires r.Acyclic? ==> d <= r.finished
    requires r.Acyclic? ==> forall v :: v in nbrs[1..] && v in NodeIds(nodes) ==> v in r.finished
    requires r.Acyclic? ==> forall i :: |d| <= i < |r.finished| ==> FinishedAfterSuccessors(nodes, edges, r.finished, i)
    ensures r.Acyclic? ==> done <= r.finished
    ensures r.Acyclic? ==> forall v :: v in nbrs && v in NodeIds(nodes) ==> v in r.finished
    ensures r.Acyclic? ==> forall i :: |done| <= i < |r.finished| ==> FinishedAfterSuccessors(nodes, edges, r.finished, i)
  {
    if r.Acyclic? {
      FinishedPrefix(nodes, edges, |done|, d, r.finished);
      var i := IndexOf(d, nbrs[0]);
      assert r.finished[i] == nbrs[0];
      forall v | v in nbrs && v in NodeIds(nodes)
        ensures v in r.finished
      {
        if v != nbrs[0] {
          assert v in nbrs[1..];
        }
      }
    }
  }

  /** A neighbour that is black or not a node id needs no search. */
  lemma SkipNeighbor(nodes: seq<Node>, nbrs: seq<Id>, done: seq<Id>, r: Search)
    requires nbrs != [] && (nbrs[0] !in NodeIds(nodes) || nbrs[0] in done)
    requires r.Acyclic? ==> done <= r.finished
    requires r.Acyclic? ==> forall v :: v in nbrs[1..] && v in NodeIds(nodes) ==> v in r.finished
    ensures r.Acyclic? ==> forall v :: v in nbrs && v in NodeIds(nodes) ==> v in r.finished
  {
    if r.Acyclic? {
      forall v | v in nbrs && v in NodeIds(nodes)
        ensures v in r.finished
      {
        if v != nbrs[0] {
          assert v in nbrs[1..];
        } else {
          var i := IndexOf(done, v);
          assert r.finished[i] == v;
        }
      }
    }
  }

  /** The outer loop of `detectCycles`: start a search at every still-white node, in node order. */
  function DetectFrom(nodes: seq<Node>, edges: seq<Edge>, k: nat, done: seq<Id>): (r: Search)
    requires k <= |nodes|
    requires Colouring(nodes, [], done)
    requires forall j :: 0 <= j < k ==> nodes[j].id in done
    requires forall i :: 0 <= i < |done| ==> FinishedAfterSuccessors(nodes, edges, done, i)
    decreases |nodes| - k
    ensures r.Acyclic? ==> NodeIds(nodes) <= Elems(r.finished)
    ensures r.Acyclic? ==> forall i :: 0 <= i < |r.finished| ==> FinishedAfterSuccessors(nodes, edges, r.finished, i)
    ensures r.Cycle? ==> IsCycle(nodes, edges, r.path)
  {
    if k == |nodes| then Acyclic(done)
    else if nodes[k].id in done then DetectFrom(nodes, edges, k + 1, done)
    else
      match Visit(nodes, edges, nodes[k].id, [], done)
      case Cycle(p) => Cycle(p)
      case Acyclic(d) =>
        FinishedPrefix(nodes, edges, 0, done, d);
        DetectFrom(nodes, edges, k + 1, d)
  }

  /** A finishing order in which every node finishes after its successors rules out cycles. */
  lemma NoCycleUnderFinishOrder(nodes: seq<Node>, edges: seq<Edge>, d: seq<Id>)
    requires NodeIds(nodes) <= Elems(d)
    requires forall i :: 0 <= i < |d| ==> FinishedAfterSuccessors(nodes, edges, d, i)
    ensures !HasCycle(nodes, edges)
  {
    if HasCycle(nodes, edges) {
      var p :| IsCycle(nodes, edges, p);
      var k := 0;
      while k < |p| - 1
        invariant 0 <= k <= |p| - 1
        invariant 0 <= IndexOf(d, p[k]) <= IndexOf(d, p[0]) - k
      {
        var i := IndexOf(d, p[k]);
        assert HasEdge(edges, p[k], p[k + 1]) && p[k + 1] in NodeIds(nodes);
        assert FinishedAfterSuccessors(nodes, edges, d, i);
        assert p[k + 1] in d[..i];
        k := k + 1;
      }
    }
  }

  /** What `detectCycles` reports. */
  datatype CycleReport = CycleReport(hasCycle: bool, cyclePath: seq<Id>, cycleEdges: seq<Edge>)

  /** `WorkflowCycleDetector.detectCycles`: a cycle is reported exactly when the
      graph over the node ids has one; the reported path is then a closed walk
      and the cycle edges are the edges with both ends on that path. */
  function DetectCycles(nodes: seq<Node>, edges: seq<Edge>): (r: CycleReport)
    ensures r.hasCycle <==> HasCycle(nodes, edges)
    ensures r.hasCycle ==> IsCycle(nodes, edges, r.cyclePath)
    ensures r.hasCycle ==> |r.cyclePath| >= 2 && r.cyclePath[0] == r.cyclePath[|r.cyclePath| - 1]
    ensures !r.hasCycle ==> r.cyclePath == [] && r.cycleEdges == []
    ensures forall e :: e in r.cycleEdges ==> e in edges && e.source in r.cyclePath && e.target in r.cyclePath
    ensures forall e :: e in edges && e.source in r.cyclePath && e.target in r.cyclePath ==> e in r.cycleEdges
    ensures IsSubsequence(r.cycleEdges, edges)
    ensures r.hasCycle ==> r.cycleEdges != []
  {
    var s := DetectFrom(nodes, edges, 0, []);
    match s
    case Acyclic(d) =>
      NoCycleUnderFinishOrder(nodes, edges, d);
      CycleReport(false, [], [])
    case Cycle(p) =>
      var ce := Filter(edges, (e: Edge) => e.source in p && e.target in p);
      CycleHasEdges(nodes, edges, p);
      CycleReport(true, p, ce)
  }

  /** A cycle's first step is an edge with both ends on the cycle. */
  lemma CycleHasEdges(nodes: seq<Node>, edges: seq<Edge>, p: seq<Id>)
    requires IsCycle(nodes, edges, p)
    ensures Filter(edges, (e: Edge) => e.source in p && e.target in p) != []
  {
    assert HasEdge(edges, p[0], p[1]);
    var e :| e in edges && e.source == p[0] && e.target == p[1];
    assert e in Filter(edges, (e: Edge) => e.source in p && e.target in p);
  }

  /** `findWorkflowCycleEdges`. */
  function FindCycleEdges(nodes: seq<Node>, edges: seq<Edge>): seq<Edge>
  {
    DetectCycles(nodes, edges).cycleEdges
  }

  /** A node with an edge to itself is reported as a cycle. */
  lemma SelfLoopDetected(nodes: seq<Node>, edges: seq<Edge>, u: Id)
    requires u in NodeIds(nodes) && HasEdge(edges, u, u)
    ensures DetectCycles(nodes, edges).hasCycle
    ensures FindCycleEdges(nodes, edges) != []
  {
    assert IsCycle(nodes, edges, [u, u]);
  }
}

=== FILE: draft_sync.dfy ===
/**
 * Saving the workflow draft: the request body `buildRequestParameters`
 * assembles from the canvas, with every editor-private (`_`-prefixed) data
 * key removed, and the rule that decides how a save request is dispatched.
 * The network call, the sync lock and the debouncer's timing are not
 * modelled.
 */
module DraftSync {
  import opened Wrappers
  import opened Seqs
  import opened Graph
  import opened Config
  import opened Json

  /** A node, edge or resource as stored: its id, its `data` bag and its other fields. */
  datatype Item = Item(id: string, data: Obj, attrs: Obj)

  datatype Viewport = Viewport(x: real, y: real, zoom: real)

  datatype Request = Request(
    url: string,
    nodes: seq<Item>,
    edges: seq<Item>,
    resources: seq<Item>,
    edgeMode: string,
    previewUrl: Option<string>,
    viewport: Viewport,
    hash: Option<string>)

  /** A key the editor keeps for itself and never saves. */
  predicate IsPrivate(k: string)
  {
    |k| > 0 && k[0] == '_'
  }

  predicate NoPrivateKeys(o: Obj)
  {
    forall i :: 0 <= i < |o| ==> !IsPrivate(o[i].0)
  }

  /** An entry the node and edge sanitiser keeps. */
  predicate Saved(e: (string, Value))
  {
    !IsPrivate(e.0)
  }

  /** An entry the resource sanitiser keeps. */
  predicate SavedResource(e: (string, Value))
  {
    !IsPrivate(e.0) && e.0 != "candidate"
  }

  /** The node and edge sanitiser: delete every key that starts with `_`. */
  function Sanitize(o: Obj): (r: Obj)
    ensures NoPrivateKeys(r)
    ensures IsSubsequence(r, o)
    ensures forall e :: e in r <==> e in o && !IsPrivate(e.0)
    ensures forall k :: !IsPrivate(k) ==> Get(r, k) == Get(o, k)
  {
    var r := Filter(o, Saved);
    FilterFacts(o, Saved, k => !IsPrivate(k));
    assert forall i :: 0 <= i < |r| ==> r[i] in r;
    r
  }

  /** The resource sanitiser: the private keys go, and so does `candidate`. */
  function SanitizeResource(o: Obj): (r: Obj)
    ensures NoPrivateKeys(r) && !HasField(r, "candidate")
    ensures IsSubsequence(r, o)
    ensures forall e :: e in r <==> e in o && !IsPrivate(e.0) && e.0 != "candidate"
    ensures forall k :: !IsPrivate(k) && k != "candidate" ==> Get(r, k) == Get(o, k)
  {
    var r := Filter(o, SavedResource);
    FilterFacts(o, SavedResource, k => !IsPrivate(k) && k != "candidate");
    assert forall i :: 0 <= i < |r| ==> r[i] in r;
    r
  }

  /** Filtering entries by a test on the key keeps the lookup of every key that passes. */
  lemma {:induction false} FilterFacts(o: Obj, p: ((string, Value)) -> bool, keep: string -> bool)
    requires forall e :: p(e) == keep(e.0)
    ensures forall k :: keep(k) ==> Get(Filter(o, p), k) == Get(o, k)
  {
    if o != [] {
      FilterFacts(o[1..], p, keep);
      var rest := Filter(o[1..], p);
      assert o == [o[0]] + o[1..];
      forall k | keep(k)
        ensures Get(Filter(o, p), k) == Get(o, k)
      {
        GetAppend([o[0]], o[1..], k);
        if p(o[0]) {
          assert Filter(o, p) == [o[0]] + rest;
          GetAppend([o[0]], rest, k);
        } else {
          assert o[0].0 != k;
          assert Filter(o, p) == rest;
        }
      }
    }
  }

  /** Sanitising twice is sanitising once: a saved draft sanitises to itself. */
  lemma SanitizeIdempotent(o: Obj)
    ensures Sanitize(Sanitize(o)) == Sanitize(o)
    ensures SanitizeResource(SanitizeResource(o)) == SanitizeResource(o)
  {
    FilterAll(Sanitize(o), Saved);
    FilterAll(SanitizeResource(o), SavedResource);
  }

  function SanitizeItem(it: Item): Item
  {
    it.(data := Sanitize(it.data))
  }

  function SanitizeResourceItem(it: Item): Item
  {
    it.(data := SanitizeResource(it.data))
  }

  /** `node.data.type === EntryNode`. */
  predicate IsEntryItem(c: Constants, it: Item)
  {
    Get(it.data, "type") == Some(Str(c.entryKind))
  }

  /**
   * `buildRequestParameters`: nothing without an app id or an entry node;
   * otherwise the sanitised graph, the viewport taken from `transform`, and
   * the current hash. `transform` is the `[x, y, zoom]` triple of the canvas.
   */
  function BuildRequest(c: Constants, appId: Option<string>, transform: (real, real, real),
                        nodes: seq<Item>, edges: seq<Item>, resources: seq<Item>,
                        edgeMode: string, previewUrl: Option<string>, hash: Option<string>)
    : (r: Option<Request>)
    ensures r.None? <==> !Truthy(appId) || forall i :: 0 <= i < |nodes| ==> !IsEntryItem(c, nodes[i])
    ensures r.Some? ==> r.value.url == "/apps/" + appId.value + "/workflows/draft"
    ensures r.Some? ==> |r.value.nodes| == |nodes| && |r.value.edges| == |edges| && |r.value.resources| == |resources|
    ensures r.Some? ==> forall i :: 0 <= i < |nodes| ==>
              var n := r.value.nodes[i];
              && n.id == nodes[i].id && n.attrs == nodes[i].attrs
              && NoPrivateKeys(n.data)
              && (forall k :: !IsPrivate(k) ==> Get(n.data, k) == Get(nodes[i].data, k))
    ensures r.Some? ==> forall i :: 0 <= i < |edges| ==>
              var e := r.value.edges[i];
              && e.id == edges[i].id && e.attrs == edges[i].attrs
              && NoPrivateKeys(e.data)
              && (forall k :: !IsPrivate(k) ==> Get(e.data, k) == Get(edges[i].data, k))
    ensures r.Some? ==> forall i :: 0 <= i < |resources| ==>
              var s := r.value.resources[i];
              && s.id == resources[i].id && s.attrs == resources[i].attrs
              && NoPrivateKeys(s.data) && !HasField(s.data, "candidate")
              && (forall k :: !IsPrivate(k) && k != "candidate" ==> Get(s.data, k) == Get(resources[i].data, k))
    ensures r.Some? ==> r.value.viewport == Viewport(transform.0, transform.1, transform.2)
    ensures r.Some? ==> r.value.hash == hash && r.value.edgeMode == edgeMode && r.value.previewUrl == previewUrl
  {
    assert forall i :: 0 <= i < |nodes| ==> nodes[i] in nodes;
    if !Truthy(appId) then None
    else if Find(nodes, n => IsEntryItem(c, n)).None? then None
    else
      Some(Request(
        "/apps/" + appId.value + "/workflows/draft",
        Map(nodes, SanitizeItem),
        Map(edges, SanitizeItem),
        Map(resources, SanitizeResourceItem),
        edgeMode,
        previewUrl,
        Viewport(transform.0, transform.1, transform.2),
        hash))
  }

  /** A request built from an already saved (sanitised) graph carries that graph unchanged. */
  lemma SavedGraphRoundTrips(c: Constants, appId: Option<string>, transform: (real, real, real),
                             nodes: seq<Item>, edges: seq<Item>, resources: seq<Item>,
                             edgeMode: string, previewUrl: Option<string>, hash: Option<string>)
    requires forall i :: 0 <= i < |nodes| ==> SanitizeItem(nodes[i]) == nodes[i]
    requires forall i :: 0 <= i < |edges| ==> SanitizeItem(edges[i]) == edges[i]
    requires forall i :: 0 <= i < |resources| ==> SanitizeResourceItem(resources[i]) == resources[i]
    ensures var r := BuildRequest(c, appId, transform, nodes, edges, resources, edgeMode, previewUrl, hash);
            r.Some? ==> r.value.nodes == nodes && r.value.edges == edges && r.value.resources == resources
  {
    var r := BuildRequest(c, appId, transform, nodes, edges, resources, edgeMode, previewUrl, hash);
    if r.Some? {
      assert r.value.nodes == Map(nodes, SanitizeItem);
      assert r.value.edges == Map(edges, SanitizeItem);
      assert r.value.resources == Map(resources, SanitizeResourceItem);
      SanitizedFixed(nodes, SanitizeItem);
      SanitizedFixed(edges, SanitizeItem);
      SanitizedFixed(resources, SanitizeResourceItem);
    }
  }

  lemma SanitizedFixed(items: seq<Item>, f: Item -> Item)
    requires forall i :: 0 <= i < |items| ==> f(items[i]) == items[i]
    ensures Map(items, f) == items
  {
  }

  datatype SyncAction = Skip | SyncNow(skipRefreshOnError: bool) | Debounced

  /** `handleDraftWorkflowSync`: read-only canvases never save; a forced save bypasses the debouncer. */
  function Dispatch(readOnly: bool, forceSync: bool, skipRefreshOnError: bool): (r: SyncAction)
    ensures r.Skip? <==> readOnly
    ensures r.SyncNow? <==> !readOnly && forceSync
    ensures r.SyncNow? ==> r.skipRefreshOnError == skipRefreshOnError
    ensures r.Debounced? <==> !readOnly && !forceSync
  {
    if readOnly then Skip
    else if forceSync then SyncNow(skipRefreshOnError)
    else Debounced
  }

  /** The state `executeWorkflowDraftSync` reads when it runs. */
  datatype SyncState = SyncState(
    readOnly: bool,
    token: Option<string>,
    syncRunning: bool,
    hashAtStart: Option<string>,
    initDraftLoaded: bool,
    request: Option<Request>,
    latestHash: Option<string>)

  /**
   * `executeWorkflowDraftSync` up to the network call: the request it sends,
   * if any. A running sync makes the call wait for it and send nothing of its
   * own; the request goes out with the hash read just before sending.
   */
  function ExecuteSync(st: SyncState): (r: Option<Request>)
    ensures r.Some? <==>
      !st.readOnly && Truthy(st.token) && !st.syncRunning && Truthy(st.hashAtStart)
      && st.initDraftLoaded && st.request.Some? && Truthy(st.latestHash)
    ensures r.Some? ==> r.value == st.request.value.(hash := st.latestHash)
  {
    if st.readOnly || !Truthy(st.token) then None
    else if st.syncRunning then None
    else if !Truthy(st.hashAtStart) then None
    else if !st.initDraftLoaded then None
    else if st.request.None? then None
    else if !Truthy(st.latestHash) then None
    else Some(st.request.value.(hash := st.latestHash))
  }

  /** What a dispatched save sends once it runs (at once, or when the debouncer fires, against the state it then reads). */
  function Sent(a: SyncAction, st: SyncState): Option<Request>
  {
    match a
    case Skip => None
    case SyncNow(_) => ExecuteSync(st)
    case Debounced => ExecuteSync(st)
  }

  /** A save sends a request exactly when the canvas is editable and every
      guard of the sync passes, whether it was forced or debounced; the request
      is the built one stamped with the latest hash. */
  lemma DispatchSendsWhenEditable(forceSync: bool, skipRefreshOnError: bool, st: SyncState)
    ensures var sent := Sent(Dispatch(st.readOnly, forceSync, skipRefreshOnError), st);
      && (sent.Some? <==>
            !st.readOnly && Truthy(st.token) && !st.syncRunning && Truthy(st.hashAtStart)
            && st.initDraftLoaded && st.request.Some? && Truthy(st.latestHash))
      && (sent.Some? ==> sent.value == st.request.value.(hash := st.latestHash))
    ensures Sent(Dispatch(st.readOnly, true, skipRefreshOnError), st) == Sent(Dispatch(st.readOnly, false, skipRefreshOnError), st)
  {
  }

  /** The server's answer when the draft's hash is stale. */
  const NotSyncCode := "draft_workflow_not_sync"

  /** Whether a failed save reloads the draft: on a stale hash, unless the caller asked to skip it.
      The debouncer is taken to call the sync with no flag, so a debounced save always reloads on a stale hash. */
  function RefreshOnError(a: SyncAction, code: string): bool
  {
    match a
    case Skip => false
    case SyncNow(skip) => code == NotSyncCode && !skip
    case Debounced => code == NotSyncCode
  }

  /** A failed save reloads the draft exactly when the canvas is editable, the
      hash was stale, and the save was not a forced one that asked to skip it. */
  lemma DispatchRefreshesOnStaleHash(readOnly: bool, forceSync: bool, skipRefreshOnError: bool, code: string)
    ensures RefreshOnError(Dispatch(readOnly, forceSync, skipRefreshOnError), code) <==>
      !readOnly && code == NotSyncCode && !(forceSync && skipRefreshOnError)
  {
  }
}

=== FILE: edge_normalizer.dfy ===
/** `initializeWorkflowEdges` and `ensureWorkflowEdgeDefaults`: drop the edges of
    the detected cycle, then give every remaining edge its default type and
    handles, endpoint metadata and the selection flag. */
module EdgeNormalizer {
  import opened Wrappers
  import opened Seqs
  import opened Graph
  import opened CycleDetector

  const DefaultEdgeType := "workflow-custom"
  const DefaultSourceHandle := "workflow-source"
  const DefaultTargetHandle := "workflow-target"
  const UnknownSource := "Unknown Source"
  const UnknownTarget := "Unknown Target"

  /** `nodesMap[id]` for the map built by `reduce`: a later node with the same id replaces an earlier one. */
  function NodeById(nodes: seq<Node>, id: Id): (r: Option<Node>)
    ensures r.None? <==> id !in NodeIds(nodes)
    ensures r.Some? ==> r.value in nodes && r.value.id == id
  {
    Last(nodes, (n: Node) => n.id == id)
  }

  /** The `selectedNode` the same `reduce` leaves behind: the last selected node. */
  function SelectedNode(nodes: seq<Node>): (r: Option<Node>)
    ensures r.None? <==> forall n :: n in nodes ==> !n.selected
    ensures r.Some? ==> r.value in nodes && r.value.selected
  {
    Last(nodes, (n: Node) => n.selected)
  }

  /** A node appended after the others shadows earlier nodes with its id, and wins the selection when selected. */
  lemma LaterNodeWins(nodes: seq<Node>, n: Node)
    ensures NodeById(nodes + [n], n.id) == Some(n)
    ensures n.selected ==> SelectedNode(nodes + [n]) == Some(n)
    ensures !n.selected ==> SelectedNode(nodes + [n]) == SelectedNode(nodes)
  {
    LastAppend(nodes, n, (m: Node) => m.id == n.id);
    LastAppend(nodes, n, (m: Node) => m.selected);
  }

  /** With unique ids the map lookup agrees with `find`. */
  lemma NodeByIdIsFind(nodes: seq<Node>, id: Id)
    requires UniqueIds(nodes)
    ensures NodeById(nodes, id) == FindNode(nodes, id)
  {
    var a, b := NodeById(nodes, id), FindNode(nodes, id);
    if a.Some? {
      var i :| 0 <= i < |nodes| && nodes[i] == a.value;
      var j :| 0 <= j < |nodes| && nodes[j] == b.value;
      assert nodes[i].id == nodes[j].id;
    }
  }

  /** `data.title || fallback`. */
  function TitleOr(n: Node, fallback: string): string
  {
    if n.title != "" then n.title else fallback
  }

  /** The source half of the data defaults: a missing source type and title come from the source node. */
  function FillSource(d: EdgeData, nodes: seq<Node>, source: Id): (r: EdgeData)
    ensures r.targetType == d.targetType && r.targetNodeTitle == d.targetNodeTitle
    ensures r.isLinkedNodeSelected == d.isLinkedNodeSelected && r.isInIteration == d.isInIteration
    ensures Truthy(d.sourceType) || source == "" || source !in NodeIds(nodes) ==> r == d
    ensures !Truthy(d.sourceType) && source != "" && source in NodeIds(nodes) ==>
      var n := NodeById(nodes, source).value;
      r.sourceType == Some(n.kind) && r.sourceNodeTitle == Some(TitleOr(n, UnknownSource))
  {
    var src := NodeById(nodes, source);
    if !Truthy(d.sourceType) && source != "" && src.Some? then
      d.(sourceType := Some(src.value.kind), sourceNodeTitle := Some(TitleOr(src.value, UnknownSource)))
    else d
  }

  /** The target half of the data defaults. */
  function FillTarget(d: EdgeData, nodes: seq<Node>, target: Id): (r: EdgeData)
    ensures r.sourceType == d.sourceType && r.sourceNodeTitle == d.sourceNodeTitle
    ensures r.isLinkedNodeSelected == d.isLinkedNodeSelected && r.isInIteration == d.isInIteration
    ensures Truthy(d.targetType) || target == "" || target !in NodeIds(nodes) ==> r == d
    ensures !Truthy(d.targetType) && target != "" && target in NodeIds(nodes) ==>
      var n := NodeById(nodes, target).value;
      r.targetType == Some(n.kind) && r.targetNodeTitle == Some(TitleOr(n, UnknownTarget))
  {
    var tgt := NodeById(nodes, target);
    if !Truthy(d.targetType) && target != "" && tgt.Some? then
      d.(targetType := Some(tgt.value.kind), targetNodeTitle := Some(TitleOr(tgt.value, UnknownTarget)))
    else d
  }

  /** `ensureWorkflowEdgeDefaults` (without the `_selectionTimestamp` clock value). */
  function EnsureEdgeDefaults(edge: Edge, nodes: seq<Node>, selected: Option<Node>): (r: Edge)
    ensures r.id == edge.id && r.source == edge.source && r.target == edge.target
    ensures Truthy(r.edgeType)
    ensures Truthy(edge.edgeType) ==> r.edgeType == edge.edgeType
    ensures !Truthy(edge.edgeType) ==> r.edgeType == Some(DefaultEdgeType)
    ensures edge.sourceHandle.Some? ==> r.sourceHandle == edge.sourceHandle
    ensures edge.sourceHandle.None? ==> r.sourceHandle == Some(DefaultSourceHandle)
    ensures edge.targetHandle.Some? ==> r.targetHandle == edge.targetHandle
    ensures edge.targetHandle.None? ==> r.targetHandle == Some(DefaultTargetHandle)
    ensures Truthy(edge.data.sourceType) || edge.source == "" || edge.source !in NodeIds(nodes) ==>
      r.data.sourceType == edge.data.sourceType && r.data.sourceNodeTitle == edge.data.sourceNodeTitle
    ensures !Truthy(edge.data.sourceType) && edge.source != "" && edge.source in NodeIds(nodes) ==>
      var n := NodeById(nodes, edge.source).value;
      r.data.sourceType == Some(n.kind) && r.data.sourceNodeTitle == Some(TitleOr(n, UnknownSource))
    ensures Truthy(edge.data.targetType) || edge.target == "" || edge.target !in NodeIds(nodes) ==>
      r.data.targetType == edge.data.targetType && r.data.targetNodeTitle == edge.data.targetNodeTitle
    ensures !Truthy(edge.data.targetType) && edge.target != "" && edge.target in NodeIds(nodes) ==>
      var n := NodeById(nodes, edge.target).value;
      r.data.targetType == Some(n.kind) && r.data.targetNodeTitle == Some(TitleOr(n, UnknownTarget))
    ensures selected.None? ==> r.data.isLinkedNodeSelected == edge.data.isLinkedNodeSelected
    ensures selected.Some? ==>
      r.data.isLinkedNodeSelected == Some(edge.source == selected.value.id || edge.target == selected.value.id)
    ensures r.data.isInIteration == edge.data.isInIteration
  {
    var d1 := FillSource(edge.data, nodes, edge.source);
    var d2 := FillTarget(d1, nodes, edge.target);
    var d3 :=
      if selected.Some? then d2.(isLinkedNodeSelected := Some(edge.source == selected.value.id || edge.target == selected.value.id))
      else d2;
    edge.(
      edgeType := if Truthy(edge.edgeType) then edge.edgeType else Some(DefaultEdgeType),
      sourceHandle := Some(edge.sourceHandle.GetOr(DefaultSourceHandle)),
      targetHandle := Some(edge.targetHandle.GetOr(DefaultTargetHandle)),
      data := d3)
  }

  /** Filling defaults twice changes nothing the first pass did not. */
  lemma EnsureEdgeDefaultsIdempotent(edge: Edge, nodes: seq<Node>, selected: Option<Node>)
    ensures EnsureEdgeDefaults(EnsureEdgeDefaults(edge, nodes, selected), nodes, selected)
         == EnsureEdgeDefaults(edge, nodes, selected)
  {
  }

  /** The edge key `${source}|${target}` of the cycle filter. */
  function PairKey(e: Edge): string
  {
    e.source + "|" + e.target
  }

  /** Some cycle edge joins the same two ids as `e` (parallel edges included). */
  predicate OnCyclePair(cycleEdges: seq<Edge>, e: Edge)
  {
    exists c :: c in cycleEdges && c.source == e.source && c.target == e.target
  }

  /** The keys of the cycle edges, as the string-key filter collects them. */
  function CycleKeys(cycleEdges: seq<Edge>): set<string>
  {
    Elems(Map(cycleEdges, PairKey))
  }

  /** The cycle filter as written: compare string keys. */
  function DropCycleEdgesByKey(edges: seq<Edge>, cycleEdges: seq<Edge>): (r: seq<Edge>)
    ensures IsSubsequence(r, edges)
    ensures forall e :: e in r ==> e in edges && PairKey(e) !in CycleKeys(cycleEdges)
    ensures forall e :: e in edges && PairKey(e) !in CycleKeys(cycleEdges) ==> e in r
  {
    Filter(edges, (e: Edge) => PairKey(e) !in CycleKeys(cycleEdges))
  }

  /** The cycle filter as intended: compare the (source, target) pairs themselves. */
  function DropCycleEdges(edges: seq<Edge>, cycleEdges: seq<Edge>): (r: seq<Edge>)
    ensures IsSubsequence(r, edges)
    ensures forall e :: e in r ==> e in edges && !OnCyclePair(cycleEdges, e)
    ensures forall e :: e in edges && !OnCyclePair(cycleEdges, e) ==> e in r
  {
    Filter(edges, (e: Edge) => !OnCyclePair(cycleEdges, e))
  }

  /** The string-key filter drops at least what the pair filter drops. */
  lemma KeyFilterDropsPairs(edges: seq<Edge>, cycleEdges: seq<Edge>, e: Edge)
    requires e in edges && OnCyclePair(cycleEdges, e)
    ensures e !in DropCycleEdgesByKey(edges, cycleEdges)
  {
    var c :| c in cycleEdges && c.source == e.source && c.target == e.target;
    var i :| 0 <= i < |cycleEdges| && cycleEdges[i] == c;
    assert Map(cycleEdges, PairKey)[i] == PairKey(e);
  }

  /** The per-edge step of `initializeWorkflowEdges`, for one list of nodes. */
  function DefaultsFor(nodes: seq<Node>): Edge -> Edge
  {
    (e: Edge) => EnsureEdgeDefaults(e, nodes, SelectedNode(nodes))
  }

  /** Filling defaults after the pair filter: the result embeds in the filled
      input and holds exactly its edges that join no cycle pair. */
  lemma PairFilterThenDefaults(nodes: seq<Node>, edges: seq<Edge>, cycle: seq<Edge>)
    ensures var all, r := Map(edges, DefaultsFor(nodes)), Map(DropCycleEdges(edges, cycle), DefaultsFor(nodes));
      IsSubsequence(r, all) && forall x :: x in r <==> x in all && !OnCyclePair(cycle, x)
  {
    var f := DefaultsFor(nodes);
    var kept := DropCycleEdges(edges, cycle);
    MapSubsequence(kept, edges, f);
    MapMembership(kept, f);
    MapMembership(edges, f);
  }

  /** Filling defaults after the string-key filter: the result embeds in the
      filled input and holds exactly its edges whose key is no cycle key. */
  lemma KeyFilterThenDefaults(nodes: seq<Node>, edges: seq<Edge>, cycle: seq<Edge>)
    ensures var all, r := Map(edges, DefaultsFor(nodes)), Map(DropCycleEdgesByKey(edges, cycle), DefaultsFor(nodes));
      IsSubsequence(r, all) && forall x :: x in r <==> x in all && PairKey(x) !in CycleKeys(cycle)
  {
    var f := DefaultsFor(nodes);
    var kept := DropCycleEdgesByKey(edges, cycle);
    MapSubsequence(kept, edges, f);
    MapMembership(kept, f);
    MapMembership(edges, f);
  }

  /** `initializeWorkflowEdges`, with the cycle filter corrected to compare pairs. */
  function InitializeEdges(edges: seq<Edge>, nodes: seq<Node>): (r: seq<Edge>)
    ensures |r| <= |edges|
    ensures IsSubsequence(r, Map(edges, DefaultsFor(nodes)))
    ensures forall x :: x in r <==>
      x in Map(edges, DefaultsFor(nodes)) && !OnCyclePair(FindCycleEdges(nodes, edges), x)
  {
    var cycle := FindCycleEdges(nodes, edges);
    var kept := DropCycleEdges(edges, cycle);
    IsSubsequenceLength(kept, edges);
    PairFilterThenDefaults(nodes, edges, cycle);
    Map(kept, DefaultsFor(nodes))
  }

  /** `initializeWorkflowEdges` exactly as written, with the string-key cycle filter. */
  function InitializeEdgesAsWritten(edges: seq<Edge>, nodes: seq<Node>): (r: seq<Edge>)
    ensures |r| <= |edges|
    ensures IsSubsequence(r, Map(edges, DefaultsFor(nodes)))
    ensures forall x :: x in r <==>
      x in Map(edges, DefaultsFor(nodes)) && PairKey(x) !in CycleKeys(FindCycleEdges(nodes, edges))
  {
    var cycle := FindCycleEdges(nodes, edges);
    var kept := DropCycleEdgesByKey(edges, cycle);
    IsSubsequenceLength(kept, edges);
    KeyFilterThenDefaults(nodes, edges, cycle);
    Map(kept, DefaultsFor(nodes))
  }

  /** Without a cycle every edge is kept, in order, with its defaults filled,
      by both the as-written and the corrected filter. */
  lemma InitializeEdgesAcyclic(edges: seq<Edge>, nodes: seq<Node>)
    requires !HasCycle(nodes, edges)
    ensures var r := InitializeEdgesAsWritten(edges, nodes);
      |r| == |edges| && forall i :: 0 <= i < |edges| ==> r[i] == EnsureEdgeDefaults(edges[i], nodes, SelectedNode(nodes))
    ensures var r := InitializeEdges(edges, nodes);
      |r| == |edges| && forall i :: 0 <= i < |edges| ==> r[i] == EnsureEdgeDefaults(edges[i], nodes, SelectedNode(nodes))
  {
    var cycle := FindCycleEdges(nodes, edges);
    assert cycle == [];
    assert CycleKeys(cycle) == {};
    FilterAll(edges, (e: Edge) => PairKey(e) !in CycleKeys(cycle));
    FilterAll(edges, (e: Edge) => !OnCyclePair(cycle, e));
  }

  /** With a cycle at least one edge is dropped, by both filters. */
  lemma InitializeEdgesCyclic(edges: seq<Edge>, nodes: seq<Node>)
    requires HasCycle(nodes, edges)
    ensures |InitializeEdgesAsWritten(edges, nodes)| < |edges|
    ensures |InitializeEdges(edges, nodes)| < |edges|
  {
    var cycle := FindCycleEdges(nodes, edges);
    var c := cycle[0];
    assert OnCyclePair(cycle, c);
    assert Map(cycle, PairKey)[0] == PairKey(c);
    FilterDrops(edges, (e: Edge) => PairKey(e) !in CycleKeys(cycle), c);
    FilterDrops(edges, (e: Edge) => !OnCyclePair(cycle, e), c);
  }

  /** No returned edge joins the two ids of a cycle edge, and every edge that
      does not is returned with its defaults filled. */
  lemma InitializeEdgesFilter(edges: seq<Edge>, nodes: seq<Node>)
    ensures forall x :: x in InitializeEdges(edges, nodes) ==> !OnCyclePair(FindCycleEdges(nodes, edges), x)
    ensures forall e :: e in edges && !OnCyclePair(FindCycleEdges(nodes, edges), e) ==>
      EnsureEdgeDefaults(e, nodes, SelectedNode(nodes)) in InitializeEdges(edges, nodes)
  {
    var sel := SelectedNode(nodes);
    var cycle := FindCycleEdges(nodes, edges);
    var kept := DropCycleEdges(edges, cycle);
    var r := InitializeEdges(edges, nodes);
    forall x | x in r
      ensures !OnCyclePair(cycle, x)
    {
      var i :| 0 <= i < |r| && r[i] == x;
      assert kept[i] in kept;
    }
    forall e | e in edges && !OnCyclePair(cycle, e)
      ensures EnsureEdgeDefaults(e, nodes, sel) in r
    {
      var i :| 0 <= i < |kept| && kept[i] == e;
      assert r[i] == EnsureEdgeDefaults(e, nodes, sel);
    }
  }

  /** The as-written filter also drops every edge on a cycle pair. */
  lemma AsWrittenDropsCyclePairs(edges: seq<Edge>, nodes: seq<Node>)
    ensures forall x :: x in InitializeEdgesAsWritten(edges, nodes) ==> !OnCyclePair(FindCycleEdges(nodes, edges), x)
  {
    var cycle := FindCycleEdges(nodes, edges);
    var kept := DropCycleEdgesByKey(edges, cycle);
    var r := InitializeEdgesAsWritten(edges, nodes);
    forall x | x in r
      ensures !OnCyclePair(cycle, x)
    {
      var i :| 0 <= i < |r| && r[i] == x;
      assert kept[i] in kept;
      if OnCyclePair(cycle, kept[i]) {
        KeyFilterDropsPairs(edges, cycle, kept[i]);
      }
    }
  }

  /** A node with only an id. */
  function BareNode(id: Id): Node
  {
    Node(id, None, None, "", "", false, false, None, None, None, None, None, None)
  }

  /** An edge with only its id and endpoints. */
  function BareEdge(id: Id, source: Id, target: Id): Edge
  {
    Edge(id, source, target, None, None, None, EdgeData(None, None, None, None, None, false))
  }

  /** Four nodes whose ids put `|` in the cycle keys. */
  const CollisionNodes := [BareNode("a"), BareNode("b|c"), BareNode("a|b"), BareNode("c")]

  /** The cycle `a -> b|c -> a` and the edge `a|b -> c` beside it. */
  const CollisionEdges := [BareEdge("e1", "a", "b|c"), BareEdge("e2", "b|c", "a"), BareEdge("e3", "a|b", "c")]

  lemma CollisionEdgesOnly(x: Id, y: Id)
    requires HasEdge(CollisionEdges, x, y)
    ensures (x == "a" && y == "b|c") || (x == "b|c" && y == "a") || (x == "a|b" && y == "c")
  {
    var e :| e in CollisionEdges && e.source == x && e.target == y;
    assert e == CollisionEdges[0] || e == CollisionEdges[1] || e == CollisionEdges[2];
  }

  /** Every cycle of the example runs through `a` and `b|c` and avoids `a|b`. */
  lemma CollisionCycleVertices(p: seq<Id>)
    requires IsCycle(CollisionNodes, CollisionEdges, p)
    ensures "a" in p && "b|c" in p && "a|b" !in p
  {
    CycleVertexHasEdges(CollisionNodes, CollisionEdges, p, 0);
    var y :| HasEdge(CollisionEdges, y, p[0]);
    CollisionEdgesOnly(y, p[0]);
    var z :| HasEdge(CollisionEdges, p[0], z);
    CollisionEdgesOnly(p[0], z);
    assert HasEdge(CollisionEdges, p[0], p[1]);
    CollisionEdgesOnly(p[0], p[1]);
    if "a|b" in p {
      var k := IndexOf(p, "a|b");
      CycleVertexHasEdges(CollisionNodes, CollisionEdges, p, k);
      var w :| HasEdge(CollisionEdges, w, p[k]);
      CollisionEdgesOnly(w, p[k]);
    }
  }

  /** The reported cycle of the example contains the edge `a -> b|c`. */
  lemma CollisionCycleHasFirstEdge(nodes: seq<Node>, edges: seq<Edge>)
    requires nodes == CollisionNodes && edges == CollisionEdges
    ensures edges[0] in FindCycleEdges(nodes, edges)
  {
    assert IsCycle(nodes, edges, ["a", "b|c", "a"]);
    CollisionCycleVertices(DetectCycles(nodes, edges).cyclePath);
  }

  /** The edge `a|b -> c` joins no pair of the reported cycle. */
  lemma CollisionThirdEdgeOffCycle(nodes: seq<Node>, edges: seq<Edge>)
    requires nodes == CollisionNodes && edges == CollisionEdges
    ensures !OnCyclePair(FindCycleEdges(nodes, edges), edges[2])
  {
    var rep := DetectCycles(nodes, edges);
    if rep.hasCycle {
      CollisionCycleVertices(rep.cyclePath);
    }
  }

  /** Ids containing `|` make the string keys collide: the edge `a|b -> c` is on
      no cycle, yet its key `a|b|c` equals that of the cycle edge `a -> b|c`, so
      the as-written filter drops it while the pair filter keeps it. */
  lemma KeyCollisionDropsEdgeOffCycle(nodes: seq<Node>, edges: seq<Edge>)
    requires nodes == CollisionNodes && edges == CollisionEdges
    ensures var cycle := FindCycleEdges(nodes, edges);
      edges[2] !in DropCycleEdgesByKey(edges, cycle) && edges[2] in DropCycleEdges(edges, cycle)
  {
    var cycle := FindCycleEdges(nodes, edges);
    CollisionCycleHasFirstEdge(nodes, edges);
    CollisionThirdEdgeOffCycle(nodes, edges);
    CollidingKeys();
    SharedKeyDropped(edges, cycle, edges[0], edges[2]);
    UnpairedKept(edges, cycle, edges[2]);
  }

  /** The keys of `a -> b|c` and `a|b -> c` are the same string. */
  lemma CollidingKeys()
    ensures PairKey(CollisionEdges[0]) == PairKey(CollisionEdges[2])
  {
    assert PairKey(CollisionEdges[0]) == "a|b|c";
    assert PairKey(CollisionEdges[2]) == "a|b|c";
  }

  /** An edge whose key equals that of a cycle edge is dropped by the string-key filter. */
  lemma SharedKeyDropped(edges: seq<Edge>, cycle: seq<Edge>, c: Edge, e: Edge)
    requires c in cycle && PairKey(c) == PairKey(e)
    ensures e !in DropCycleEdgesByKey(edges, cycle)
  {
    assert Map(cycle, PairKey)[IndexOf(cycle, c)] == PairKey(e);
  }

  /** An edge that joins no cycle pair survives the pair filter. */
  lemma UnpairedKept(edges: seq<Edge>, cycle: seq<Edge>, e: Edge)
    requires e in edges && !OnCyclePair(cycle, e)
    ensures e in DropCycleEdges(edges, cycle)
  {
  }
}

=== FILE: fetch.dfy ===
/**
 * Forward branch queries of the flow editor, over an explicit snapshot of
 * nodes and edges: the node a panel opens on, a container's children, the
 * nodes after a node in its branch, and the leaves that feed a node.
 *
 * The descendant and leaf walks keep no visited set, so they terminate only
 * on acyclic graphs; they require `!HasCycle` and decrease the number of ids
 * reachable from the current node.
 */
module Fetch {
  import opened Wrappers
  import opened Seqs
  import opened Graph
  import opened Config

  /** The ids reachable from `a` in zero or more steps. */
  ghost function Descendants(nodes: seq<Node>, edges: seq<Edge>, a: Id): set<Id>
  {
    set x | x in NodeIds(nodes) && Reaches(nodes, edges, a, x)
  }

  /** On an acyclic graph a successor reaches strictly fewer ids. */
  lemma DescendantsShrink(nodes: seq<Node>, edges: seq<Edge>, a: Id, b: Id)
    requires !HasCycle(nodes, edges)
    requires a in NodeIds(nodes) && b in NodeIds(nodes) && HasEdge(edges, a, b)
    ensures |Descendants(nodes, edges, b)| < |Descendants(nodes, edges, a)|
  {
    var da, db := Descendants(nodes, edges, a), Descendants(nodes, edges, b);
    forall x | x in db
      ensures x in da
    {
      StepReaches(nodes, edges, a, b, x);
      PlusToReaches(nodes, edges, a, x);
    }
    ReachesRefl(nodes, edges, a);
    assert a in da;
    if a in db {
      StepReaches(nodes, edges, a, b, a);
      var p :| Walk(nodes, edges, p) && |p| >= 2 && p[0] == a && p[|p| - 1] == a;
      assert IsCycle(nodes, edges, p);
      assert false;
    }
    assert da == db + (da - db);
  }

  /** Two nodes of a list with unique ids that share an id are the same node. */
  lemma SameId(nodes: seq<Node>, a: Node, b: Node)
    requires UniqueIds(nodes) && a in nodes && b in nodes && a.id == b.id
    ensures a == b
  {
    var i :| 0 <= i < |nodes| && nodes[i] == a;
    var j :| 0 <= j < |nodes| && nodes[j] == b;
    assert i == j;
  }

  lemma {:induction false} FilterKeepsUniqueIds(s: seq<Node>, p: Node -> bool)
    requires UniqueIds(s)
    ensures UniqueIds(Filter(s, p))
  {
    if s != [] {
      var t := s[1..];
      UniqueIdsTail(s);
      FilterKeepsUniqueIds(t, p);
      var f := Filter(t, p);
      if p(s[0]) {
        UniqueIdsCons(s[0], f);
      }
    }
  }

  /** The tail of a list with unique ids has unique ids, none of them the head's. */
  lemma UniqueIdsTail(s: seq<Node>)
    requires UniqueIds(s) && s != []
    ensures UniqueIds(s[1..])
    ensures forall x :: x in s[1..] ==> x.id != s[0].id
  {
    var t := s[1..];
    assert forall i :: 0 <= i < |t| ==> t[i] == s[i + 1];
  }

  /** A head whose id no element of a unique-id list has keeps the ids unique. */
  lemma UniqueIdsCons(h: Node, f: seq<Node>)
    requires UniqueIds(f) && forall x :: x in f ==> x.id != h.id
    ensures UniqueIds([h] + f)
  {
    var r := [h] + f;
    forall i, j | 0 <= i < j < |r|
      ensures r[i].id != r[j].id
    {
      assert r[j] == f[j - 1] && r[j] in f;
      if i > 0 {
        assert r[i] == f[i - 1];
      }
    }
  }

  // ---------------------------------------------------------------------
  // `fetchNode` and `fetchIterationNodeChildren`

  /** `fetchNode`: the node with the given id, falling back to the first entry node. */
  function FetchNode(c: Constants, nodes: seq<Node>, nodeId: Option<Id>): (r: Option<Node>)
    ensures r.Some? ==> r.value in nodes
    ensures nodeId.Some? && nodeId.value in NodeIds(nodes) ==> r.Some? && r.value.id == nodeId.value
    ensures (nodeId.None? || nodeId.value !in NodeIds(nodes)) && r.Some? ==> r.value.kind == c.entryKind
    ensures r.None? <==> ((nodeId.None? || nodeId.value !in NodeIds(nodes)) &&
                          forall n :: n in nodes ==> n.kind != c.entryKind)
  {
    var hit := if nodeId.Some? then FindNode(nodes, nodeId.value) else None;
    if hit.Some? then hit else Find(nodes, (n: Node) => n.kind == c.entryKind)
  }

  /** `fetchIterationNodeChildren`: the nodes whose parent is `id`, in node order. */
  function IterationChildren(nodes: seq<Node>, id: Id): (r: seq<Node>)
    ensures forall n :: n in r <==> n in nodes && n.parentId == Some(id)
    ensures IsSubsequence(r, nodes)
  {
    Filter(nodes, (n: Node) => n.parentId == Some(id))
  }

  // ---------------------------------------------------------------------
  // `fetchAfterNodesInSameBranch`

  /** Every member of `s` that `b` reaches in one step or more is reached from `a` too. */
  lemma PlusPrepend(nodes: seq<Node>, edges: seq<Edge>, a: Id, m: Node, s: seq<Node>)
    requires a in NodeIds(nodes) && m in nodes && HasEdge(edges, a, m.id)
    requires forall n :: n in s ==> ReachesPlus(nodes, edges, m.id, n.id)
    ensures forall n :: n in [m] + s ==> ReachesPlus(nodes, edges, a, n.id)
  {
    assert m.id in NodeIds(nodes);
    ReachesRefl(nodes, edges, m.id);
    StepReaches(nodes, edges, a, m.id, m.id);
    forall n | n in s
      ensures ReachesPlus(nodes, edges, a, n.id)
    {
      PlusToReaches(nodes, edges, m.id, n.id);
      StepReaches(nodes, edges, a, m.id, n.id);
    }
  }

  /** A list holding everything each outgoer of `a` reaches holds everything `a` reaches in a step or more. */
  lemma OutgoersCover(nodes: seq<Node>, edges: seq<Edge>, a: Id, r: seq<Node>)
    requires forall m, x :: m in Outgoers(nodes, edges, a) && Reaches(nodes, edges, m.id, x) ==> x in NodeIds(r)
    ensures forall x :: ReachesPlus(nodes, edges, a, x) ==> x in NodeIds(r)
  {
    forall x | ReachesPlus(nodes, edges, a, x)
      ensures x in NodeIds(r)
    {
      ReachesPlusFirstStep(nodes, edges, a, x);
      var b :| HasEdge(edges, a, b) && b in NodeIds(nodes) && Reaches(nodes, edges, b, x);
      var m :| m in nodes && m.id == b;
      assert m in Outgoers(nodes, edges, a);
    }
  }

  /** The subtree walk below `root`: for each outgoer, the outgoer and then its own walk. */
  function After(nodes: seq<Node>, edges: seq<Edge>, root: Node): (r: seq<Node>)
    requires !HasCycle(nodes, edges) && root in nodes
    decreases |Descendants(nodes, edges, root.id)|, 1
    ensures forall n :: n in r ==> n in nodes && ReachesPlus(nodes, edges, root.id, n.id)
    ensures forall x :: ReachesPlus(nodes, edges, root.id, x) ==> x in NodeIds(r)
  {
    var r := AfterAll(nodes, edges, root.id, Outgoers(nodes, edges, root.id));
    OutgoersCover(nodes, edges, root.id, r);
    r
  }

  function AfterAll(nodes: seq<Node>, edges: seq<Edge>, ghost from: Id, outs: seq<Node>): (r: seq<Node>)
    requires !HasCycle(nodes, edges) && from in NodeIds(nodes)
    requires forall m :: m in outs ==> m in nodes && HasEdge(edges, from, m.id)
    decreases |Descendants(nodes, edges, from)|, 0, |outs|
    ensures forall n :: n in r ==> n in nodes && ReachesPlus(nodes, edges, from, n.id)
    ensures forall m, x :: m in outs && Reaches(nodes, edges, m.id, x) ==> x in NodeIds(r)
  {
    if outs == [] then []
    else
      var m := outs[0];
      assert m in outs && m.id in NodeIds(nodes);
      DescendantsShrink(nodes, edges, from, m.id);
      var head := [m] + After(nodes, edges, m);
      PlusPrepend(nodes, edges, from, m, After(nodes, edges, m));
      ReachesSplitAll(nodes, edges, m, head);
      var rest := AfterAll(nodes, edges, from, outs[1..]);
      JoinCover(nodes, edges, from, outs, head, rest);
      head + rest
  }

  lemma JoinCover(nodes: seq<Node>, edges: seq<Edge>, from: Id, outs: seq<Node>, head: seq<Node>, rest: seq<Node>)
    requires outs != []
    requires forall n :: n in head ==> n in nodes && ReachesPlus(nodes, edges, from, n.id)
    requires forall n :: n in rest ==> n in nodes && ReachesPlus(nodes, edges, from, n.id)
    requires forall x :: Reaches(nodes, edges, outs[0].id, x) ==> x in NodeIds(head)
    requires forall m, x :: m in outs[1..] && Reaches(nodes, edges, m.id, x) ==> x in NodeIds(rest)
    ensures forall n :: n in head + rest ==> n in nodes && ReachesPlus(nodes, edges, from, n.id)
    ensures forall m, x :: m in outs && Reaches(nodes, edges, m.id, x) ==> x in NodeIds(head + rest)
  {
    forall m, x | m in outs && Reaches(nodes, edges, m.id, x)
      ensures x in NodeIds(head + rest)
    {
      NodeIdsAppend(head, rest);
      if m != outs[0] {
        assert m in outs[1..];
      }
    }
  }

  lemma ReachesSplitAll(nodes: seq<Node>, edges: seq<Edge>, m: Node, s: seq<Node>)
    requires m in nodes && m in s
    requires forall x :: ReachesPlus(nodes, edges, m.id, x) ==> x in NodeIds(s)
    ensures forall x :: Reaches(nodes, edges, m.id, x) ==> x in NodeIds(s)
  {
    forall x | Reaches(nodes, edges, m.id, x)
      ensures x in NodeIds(s)
    {
      ReachesSplit(nodes, edges, m.id, x);
    }
  }

  /**
   * `fetchAfterNodesInSameBranch`: the node itself and then every node below
   * it, once per id; an unknown id yields the empty list.
   */
  function FetchAfter(nodes: seq<Node>, edges: seq<Edge>, id: Id): (r: seq<Node>)
    requires !HasCycle(nodes, edges)
    ensures id !in NodeIds(nodes) ==> r == []
    ensures id in NodeIds(nodes) ==> r != [] && Some(r[0]) == FindNode(nodes, id)
    ensures forall n :: n in r ==> n in nodes
    ensures NodeIds(r) == Descendants(nodes, edges, id)
    ensures UniqueIds(r)
  {
    match FindNode(nodes, id)
    case None => []
    case Some(cur) =>
      var list := [cur] + After(nodes, edges, cur);
      var r := UniqBy(list, (n: Node) => n.id);
      AfterIds(nodes, edges, cur, list, r);
      r
  }

  /** `uniqBy(list, 'id')` keeps the first node, every id, and no id twice. */
  lemma UniqByIds(list: seq<Node>, r: seq<Node>)
    requires r == UniqBy(list, (n: Node) => n.id)
    ensures forall n :: n in r ==> n in list
    ensures NodeIds(r) == NodeIds(list)
    ensures UniqueIds(r)
    ensures list != [] ==> r != [] && r[0] == list[0]
  {
    var key := (n: Node) => n.id;
    forall x | x in NodeIds(list)
      ensures x in NodeIds(r)
    {
      var n :| n in list && n.id == x;
      assert HasKey(r, key, key(n));
    }
    if list != [] {
      assert r == UniqByFrom(list, key, {});
      assert key(list[0]) !in {};
      assert r[0] == list[0];
    }
  }

  lemma AfterIds(nodes: seq<Node>, edges: seq<Edge>, cur: Node, list: seq<Node>, r: seq<Node>)
    requires !HasCycle(nodes, edges) && cur in nodes
    requires list == [cur] + After(nodes, edges, cur)
    requires r == UniqBy(list, (n: Node) => n.id)
    ensures r != [] && r[0] == cur
    ensures forall n :: n in r ==> n in nodes
    ensures NodeIds(r) == Descendants(nodes, edges, cur.id)
    ensures UniqueIds(r)
  {
    UniqByIds(list, r);
    DescendantIds(nodes, edges, cur, list);
  }

  lemma DescendantIds(nodes: seq<Node>, edges: seq<Edge>, cur: Node, list: seq<Node>)
    requires !HasCycle(nodes, edges) && cur in nodes
    requires list == [cur] + After(nodes, edges, cur)
    ensures NodeIds(list) == Descendants(nodes, edges, cur.id)
  {
    forall x | x in NodeIds(list)
      ensures x in Descendants(nodes, edges, cur.id)
    {
      var n :| n in list && n.id == x;
      assert n in nodes;
      if n == cur {
        ReachesRefl(nodes, edges, cur.id);
      } else {
        PlusToReaches(nodes, edges, cur.id, x);
      }
    }
    forall x | x in Descendants(nodes, edges, cur.id)
      ensures x in NodeIds(list)
    {
      ReachesSplit(nodes, edges, cur.id, x);
    }
  }

  // ---------------------------------------------------------------------
  // `fetchTreeLeafNodes`

  /** A walk that never passes through `stop`. */
  ghost predicate AvoidingWalk(nodes: seq<Node>, edges: seq<Edge>, p: seq<Id>, stop: Id)
  {
    Walk(nodes, edges, p) && forall k :: 0 <= k < |p| ==> p[k] != stop
  }

  ghost predicate ReachesAvoiding(nodes: seq<Node>, edges: seq<Edge>, a: Id, b: Id, stop: Id)
  {
    exists p :: AvoidingWalk(nodes, edges, p, stop) && p[0] == a && p[|p| - 1] == b
  }

  /** No edge leaves `id` towards a node. */
  predicate IsLeaf(nodes: seq<Node>, edges: seq<Edge>, id: Id)
  {
    Outgoers(nodes, edges, id) == []
  }

  lemma AvoidPrepend(nodes: seq<Node>, edges: seq<Edge>, stop: Id, a: Id, b: Id, s: seq<Node>)
    requires a in NodeIds(nodes) && a != stop && HasEdge(edges, a, b)
    requires forall n :: n in s ==> ReachesAvoiding(nodes, edges, b, n.id, stop)
    ensures forall n :: n in s ==> ReachesAvoiding(nodes, edges, a, n.id, stop)
  {
    forall n | n in s
      ensures ReachesAvoiding(nodes, edges, a, n.id, stop)
    {
      var p :| AvoidingWalk(nodes, edges, p, stop) && p[0] == b && p[|p| - 1] == n.id;
      var q := [a] + p;
      forall k | 0 <= k < |q| - 1
        ensures HasEdge(edges, q[k], q[k + 1])
      {
        if k > 0 {
          assert q[k] == p[k - 1] && q[k + 1] == p[k];
        }
      }
      assert AvoidingWalk(nodes, edges, q, stop);
    }
  }

  /** `preOrder`: the leaves below `root` in walk order, never entering `stop`. */
  function Leaves(nodes: seq<Node>, edges: seq<Edge>, stop: Id, root: Node): (r: seq<Node>)
    requires !HasCycle(nodes, edges) && root in nodes
    decreases |Descendants(nodes, edges, root.id)|, 1
    ensures forall n :: n in r ==> n in nodes && IsLeaf(nodes, edges, n.id)
    ensures forall n :: n in r ==> ReachesAvoiding(nodes, edges, root.id, n.id, stop)
  {
    if root.id == stop then []
    else
      var outs := Outgoers(nodes, edges, root.id);
      if outs == [] then
        assert AvoidingWalk(nodes, edges, [root.id], stop);
        [root]
      else LeavesAll(nodes, edges, stop, root.id, outs)
  }

  function LeavesAll(nodes: seq<Node>, edges: seq<Edge>, stop: Id, ghost from: Id, outs: seq<Node>): (r: seq<Node>)
    requires !HasCycle(nodes, edges) && from in NodeIds(nodes) && from != stop
    requires forall m :: m in outs ==> m in nodes && HasEdge(edges, from, m.id)
    decreases |Descendants(nodes, edges, from)|, 0, |outs|
    ensures forall n :: n in r ==> n in nodes && IsLeaf(nodes, edges, n.id)
    ensures forall n :: n in r ==> ReachesAvoiding(nodes, edges, from, n.id, stop)
  {
    if outs == [] then []
    else
      var m := outs[0];
      assert m in outs && m.id in NodeIds(nodes);
      DescendantsShrink(nodes, edges, from, m.id);
      var l := Leaves(nodes, edges, stop, m);
      AvoidPrepend(nodes, edges, stop, from, m.id, l);
      l + LeavesAll(nodes, edges, stop, from, outs[1..])
  }

  lemma {:induction false} LeavesAllContains(nodes: seq<Node>, edges: seq<Edge>, stop: Id, from: Id, outs: seq<Node>, m: Node)
    requires !HasCycle(nodes, edges) && from in NodeIds(nodes) && from != stop
    requires forall o :: o in outs ==> o in nodes && HasEdge(edges, from, o.id)
    requires m in outs
    ensures forall n :: n in Leaves(nodes, edges, stop, m) ==> n in LeavesAll(nodes, edges, stop, from, outs)
    decreases |outs|
  {
    assert outs[0] in outs;
    if outs[0] != m {
      LeavesAllContains(nodes, edges, stop, from, outs[1..], m);
    }
  }

  /** Every leaf reached from `root` without meeting `stop` is collected. */
  lemma {:induction false} LeavesComplete(nodes: seq<Node>, edges: seq<Edge>, stop: Id, root: Node, p: seq<Id>)
    requires !HasCycle(nodes, edges) && root in nodes
    requires AvoidingWalk(nodes, edges, p, stop) && p[0] == root.id && IsLeaf(nodes, edges, p[|p| - 1])
    ensures p[|p| - 1] in NodeIds(Leaves(nodes, edges, stop, root))
    decreases |Descendants(nodes, edges, root.id)|
  {
    if |p| > 1 {
      assert HasEdge(edges, p[0], p[1]) && p[1] in NodeIds(nodes);
      var m :| m in nodes && m.id == p[1];
      var outs := Outgoers(nodes, edges, root.id);
      assert m in outs;
      assert root.id in NodeIds(nodes);
      DescendantsShrink(nodes, edges, root.id, m.id);
      var q := p[1..];
      AvoidingWalkTail(nodes, edges, p, stop);
      LeavesComplete(nodes, edges, stop, m, q);
      LeavesAllContains(nodes, edges, stop, root.id, outs, m);
    }
  }

  /** Dropping the first step of a walk that avoids `stop` leaves a walk that avoids it. */
  lemma AvoidingWalkTail(nodes: seq<Node>, edges: seq<Edge>, p: seq<Id>, stop: Id)
    requires AvoidingWalk(nodes, edges, p, stop) && |p| > 1
    ensures AvoidingWalk(nodes, edges, p[1..], stop) && p[1..][0] == p[1] && p[1..][|p| - 2] == p[|p| - 1]
  {
    var q := p[1..];
    assert forall k :: 0 <= k < |q| ==> q[k] == p[k + 1];
  }

  /** The leaves collected below `root` are exactly the leaves reached from it without meeting `stop`. */
  lemma LeavesExactly(nodes: seq<Node>, edges: seq<Edge>, stop: Id, root: Node, x: Id)
    requires !HasCycle(nodes, edges) && root in nodes
    ensures x in NodeIds(Leaves(nodes, edges, stop, root)) <==>
            (IsLeaf(nodes, edges, x) && ReachesAvoiding(nodes, edges, root.id, x, stop))
  {
    if IsLeaf(nodes, edges, x) && ReachesAvoiding(nodes, edges, root.id, x, stop) {
      var p :| AvoidingWalk(nodes, edges, p, stop) && p[0] == root.id && p[|p| - 1] == x;
      LeavesComplete(nodes, edges, stop, root, p);
    }
  }

  /**
   * The node the leaf walk starts from: the first entry node, or, when the
   * node sits in a container, the iteration start sharing its parent.
   */
  function TreeEntry(c: Constants, nodes: seq<Node>, nodeId: Id): (r: Option<Node>)
    ensures r.Some? ==> r.value in nodes
    ensures var cur := FindNode(nodes, nodeId);
            if cur.Some? && HasParent(cur.value) then
              (r.Some? ==> r.value.isIterationStart && r.value.parentId == cur.value.parentId) &&
              (r.None? <==> forall n :: n in nodes ==> !(n.isIterationStart && n.parentId == cur.value.parentId))
            else
              (r.Some? ==> r.value.kind == c.entryKind) &&
              (r.None? <==> forall n :: n in nodes ==> n.kind != c.entryKind)
  {
    var cur := FindNode(nodes, nodeId);
    if cur.Some? && HasParent(cur.value) then
      Find(nodes, (n: Node) => n.parentId == cur.value.parentId && n.isIterationStart)
    else
      Find(nodes, (n: Node) => n.kind == c.entryKind)
  }

  /**
   * `fetchTreeLeafNodes`: the leaves below the entry (never entering the node
   * itself) and the node's direct incomers, once per id, keeping only the
   * kinds that expose output variables.
   */
  function FetchTreeLeaves(c: Constants, nodes: seq<Node>, edges: seq<Edge>, nodeId: Id): (r: seq<Node>)
    requires !HasCycle(nodes, edges)
    ensures TreeEntry(c, nodes, nodeId).None? ==> r == []
    ensures UniqueIds(r)
    ensures forall n :: n in r ==> n in nodes && n.kind in c.outputVarKinds
    ensures forall n :: n in r ==>
              HasEdge(edges, n.id, nodeId) ||
              (IsLeaf(nodes, edges, n.id) &&
               ReachesAvoiding(nodes, edges, TreeEntry(c, nodes, nodeId).value.id, n.id, nodeId))
  {
    match TreeEntry(c, nodes, nodeId)
    case None => []
    case Some(e) =>
      var list := Leaves(nodes, edges, nodeId, e) + Incomers(nodes, edges, nodeId);
      var u := UniqBy(list, (n: Node) => n.id);
      FilterKeepsUniqueIds(u, (n: Node) => n.kind in c.outputVarKinds);
      Filter(u, (n: Node) => n.kind in c.outputVarKinds)
  }

  /** Every supported incomer, and every supported leaf reached from the entry without meeting the node, is returned. */
  lemma TreeLeavesComplete(c: Constants, nodes: seq<Node>, edges: seq<Edge>, nodeId: Id, n: Node)
    requires !HasCycle(nodes, edges) && UniqueIds(nodes)
    requires TreeEntry(c, nodes, nodeId).Some?
    requires n in nodes && n.kind in c.outputVarKinds
    requires HasEdge(edges, n.id, nodeId) ||
             (IsLeaf(nodes, edges, n.id) &&
              ReachesAvoiding(nodes, edges, TreeEntry(c, nodes, nodeId).value.id, n.id, nodeId))
    ensures n in FetchTreeLeaves(c, nodes, edges, nodeId)
  {
    var e := TreeEntry(c, nodes, nodeId).value;
    var leaves := Leaves(nodes, edges, nodeId, e);
    var list := leaves + Incomers(nodes, edges, nodeId);
    if !HasEdge(edges, n.id, nodeId) {
      LeavesExactly(nodes, edges, nodeId, e, n.id);
      var y :| y in leaves && y.id == n.id;
      SameId(nodes, y, n);
    }
    assert n in list;
    UniqByKeepsNode(nodes, list, n);
  }

  /** Keeping the first node per id keeps every node of a list drawn from nodes with unique ids. */
  lemma UniqByKeepsNode(nodes: seq<Node>, list: seq<Node>, n: Node)
    requires UniqueIds(nodes) && n in list && n in nodes
    requires forall x :: x in list ==> x in nodes
    ensures n in UniqBy(list, (n: Node) => n.id)
  {
    var key := (n: Node) => n.id;
    var u := UniqBy(list, key);
    assert HasKey(u, key, key(n));
    var y :| y in u && y.id == n.id;
    SameId(nodes, y, n);
  }
}

=== FILE: graph.dfy ===
/** The graph model shared by every workflow operation: nodes and edges as the
    editor stores them, the three `reactflow` neighbourhood helpers, and the
    walk/reachability/cycle vocabulary the proofs are stated in. */
module Graph {
  import opened Wrappers
  import opened Seqs

  type Id = string

  datatype Position = Position(x: int, y: int)

  /** An editor node. `renderType` is the canvas renderer tag (`node.type`),
      `kind` the block type (`node.data.type`); an empty `title` stands for a
      missing one. The two handle lists are `data._connectedSourceHandleIds`
      and `data._connectedTargetHandleIds`. */
  datatype Node = Node(
    id: Id,
    parentId: Option<Id>,
    renderType: Option<string>,
    kind: string,
    title: string,
    selected: bool,
    isIterationStart: bool,
    payloadKind: Option<string>,
    position: Option<Position>,
    width: Option<int>,
    height: Option<int>,
    sourceHandleIds: Option<seq<string>>,
    targetHandleIds: Option<seq<string>>)

  /** The derived part of an edge's `data` bag. */
  datatype EdgeData = EdgeData(
    sourceType: Option<string>,
    sourceNodeTitle: Option<string>,
    targetType: Option<string>,
    targetNodeTitle: Option<string>,
    isLinkedNodeSelected: Option<bool>,
    isInIteration: bool)

  datatype Edge = Edge(
    id: Id,
    source: Id,
    target: Id,
    sourceHandle: Option<string>,
    targetHandle: Option<string>,
    edgeType: Option<string>,
    data: EdgeData)

  /** JavaScript truthiness of an optional string: absent and `""` are falsy. */
  predicate Truthy(s: Option<string>)
  {
    s.Some? && s.value != ""
  }

  /** `!!node.parentId`: the node is nested inside a container. */
  predicate HasParent(n: Node)
  {
    Truthy(n.parentId)
  }

  function NodeIds(nodes: seq<Node>): set<Id>
  {
    set n | n in nodes :: n.id
  }

  function IdsOf(nodes: seq<Node>): (r: seq<Id>)
    ensures |r| == |nodes|
    ensures forall i :: 0 <= i < |nodes| ==> r[i] == nodes[i].id
  {
    if nodes == [] then [] else [nodes[0].id] + IdsOf(nodes[1..])
  }

  predicate UniqueIds(nodes: seq<Node>)
  {
    forall i, j :: 0 <= i < j < |nodes| ==> nodes[i].id != nodes[j].id
  }

  /** `nodes.find(node => node.id === id)`: the first node carrying `id`. */
  function FindNode(nodes: seq<Node>, id: Id): (r: Option<Node>)
    ensures r.None? <==> id !in NodeIds(nodes)
    ensures r.Some? ==> r.value in nodes && r.value.id == id
    ensures r.Some? ==> exists i :: 0 <= i < |nodes| && nodes[i] == r.value && id !in IdsOf(nodes[..i])
  {
    if nodes == [] then None
    else if nodes[0].id == id then
      assert nodes[..0] == [];
      Some(nodes[0])
    else
      var r := FindNode(nodes[1..], id);
      if r.Some? then
        var i :| 0 <= i < |nodes[1..]| && nodes[1..][i] == r.value && id !in IdsOf(nodes[1..][..i]);
        assert nodes[..i + 1] == [nodes[0]] + nodes[1..][..i];
        assert IdsOf(nodes[..i + 1]) == [nodes[0].id] + IdsOf(nodes[1..][..i]);
        r
      else r
  }

  /** Some edge runs from `a` to `b`. */
  predicate HasEdge(edges: seq<Edge>, a: Id, b: Id)
  {
    exists e :: e in edges && e.source == a && e.target == b
  }

  /** `getOutgoers`: the nodes, in node order, that some edge from `id` points at. */
  function Outgoers(nodes: seq<Node>, edges: seq<Edge>, id: Id): (r: seq<Node>)
    ensures forall m :: m in r <==> m in nodes && HasEdge(edges, id, m.id)
  {
    Filter(nodes, (m: Node) => HasEdge(edges, id, m.id))
  }

  /** `getIncomers`: the nodes, in node order, with some edge into `id`. */
  function Incomers(nodes: seq<Node>, edges: seq<Edge>, id: Id): (r: seq<Node>)
    ensures forall m :: m in r <==> m in nodes && HasEdge(edges, m.id, id)
  {
    Filter(nodes, (m: Node) => HasEdge(edges, m.id, id))
  }

  /** `getConnectedEdges([node], edges)`: the edges touching `id`, in edge order. */
  function ConnectedEdges(edges: seq<Edge>, id: Id): (r: seq<Edge>)
    ensures forall e :: e in r <==> e in edges && (e.source == id || e.target == id)
    ensures IsSubsequence(r, edges)
  {
    Filter(edges, (e: Edge) => e.source == id || e.target == id)
  }

  /** The edges with source and target swapped: incomers are outgoers of the reversal. */
  function Reversed(edges: seq<Edge>): (r: seq<Edge>)
    ensures |r| == |edges|
    ensures forall i :: 0 <= i < |edges| ==> r[i].source == edges[i].target && r[i].target == edges[i].source
  {
    if edges == [] then []
    else [edges[0].(source := edges[0].target, target := edges[0].source)] + Reversed(edges[1..])
  }

  lemma ReversedHasEdge(edges: seq<Edge>, a: Id, b: Id)
    ensures HasEdge(Reversed(edges), a, b) <==> HasEdge(edges, b, a)
  {
    var r := Reversed(edges);
    if HasEdge(r, a, b) {
      var e :| e in r && e.source == a && e.target == b;
      var i :| 0 <= i < |r| && r[i] == e;
      assert edges[i] in edges;
    }
    if HasEdge(edges, b, a) {
      var e :| e in edges && e.source == b && e.target == a;
      var i :| 0 <= i < |edges| && edges[i] == e;
      assert r[i] in r;
    }
  }

  lemma IncomersAreReversedOutgoers(nodes: seq<Node>, edges: seq<Edge>, id: Id)
    ensures Incomers(nodes, edges, id) == Outgoers(nodes, Reversed(edges), id)
  {
    forall m | m in nodes
      ensures HasEdge(edges, m.id, id) == HasEdge(Reversed(edges), id, m.id)
    {
      ReversedHasEdge(edges, id, m.id);
    }
    FilterCongruence(nodes, (m: Node) => HasEdge(edges, m.id, id), (m: Node) => HasEdge(Reversed(edges), id, m.id));
  }

  lemma {:induction false} FilterCongruence<T>(s: seq<T>, p: T -> bool, q: T -> bool)
    requires forall x :: x in s ==> p(x) == q(x)
    ensures Filter(s, p) == Filter(s, q)
  {
    if s != [] {
      FilterCongruence(s[1..], p, q);
    }
  }

  /** A walk: a non-empty sequence of node ids, each joined to the next by an edge. */
  ghost predicate Walk(nodes: seq<Node>, edges: seq<Edge>, p: seq<Id>)
  {
    && |p| >= 1
    && (forall k :: 0 <= k < |p| ==> p[k] in NodeIds(nodes))
    && (forall k :: 0 <= k < |p| - 1 ==> HasEdge(edges, p[k], p[k + 1]))
  }

  /** `b` is reachable from the node `a` in zero or more steps. */
  ghost predicate Reaches(nodes: seq<Node>, edges: seq<Edge>, a: Id, b: Id)
  {
    exists p :: Walk(nodes, edges, p) && p[0] == a && p[|p| - 1] == b
  }

  /** `b` is reachable from `a` in one or more steps. */
  ghost predicate ReachesPlus(nodes: seq<Node>, edges: seq<Edge>, a: Id, b: Id)
  {
    exists p :: Walk(nodes, edges, p) && |p| >= 2 && p[0] == a && p[|p| - 1] == b
  }

  /** A closed walk of at least one edge. */
  ghost predicate IsCycle(nodes: seq<Node>, edges: seq<Edge>, p: seq<Id>)
  {
    Walk(nodes, edges, p) && |p| >= 2 && p[0] == p[|p| - 1]
  }

  ghost predicate HasCycle(nodes: seq<Node>, edges: seq<Edge>)
  {
    exists p :: IsCycle(nodes, edges, p)
  }

  lemma ReachesRefl(nodes: seq<Node>, edges: seq<Edge>, a: Id)
    requires a in NodeIds(nodes)
    ensures Reaches(nodes, edges, a, a)
  {
    assert Walk(nodes, edges, [a]);
  }

  /** Reachability extended by one more step. */
  lemma ReachesStep(nodes: seq<Node>, edges: seq<Edge>, a: Id, b: Id, c: Id)
    requires Reaches(nodes, edges, a, b)
    requires HasEdge(edges, b, c) && c in NodeIds(nodes)
    ensures Reaches(nodes, edges, a, c)
    ensures ReachesPlus(nodes, edges, a, c)
  {
    var p :| Walk(nodes, edges, p) && p[0] == a && p[|p| - 1] == b;
    var q := p + [c];
    assert Walk(nodes, edges, q);
  }

  /** One step followed by reachability. */
  lemma StepReaches(nodes: seq<Node>, edges: seq<Edge>, a: Id, b: Id, c: Id)
    requires a in NodeIds(nodes) && HasEdge(edges, a, b)
    requires Reaches(nodes, edges, b, c)
    ensures ReachesPlus(nodes, edges, a, c)
  {
    var p :| Walk(nodes, edges, p) && p[0] == b && p[|p| - 1] == c;
    var q := [a] + p;
    assert Walk(nodes, edges, q);
  }

  /** A walk of one or more steps starts with a step. */
  lemma ReachesPlusFirstStep(nodes: seq<Node>, edges: seq<Edge>, a: Id, c: Id)
    requires ReachesPlus(nodes, edges, a, c)
    ensures exists b :: HasEdge(edges, a, b) && b in NodeIds(nodes) && Reaches(nodes, edges, b, c)
  {
    var p :| Walk(nodes, edges, p) && |p| >= 2 && p[0] == a && p[|p| - 1] == c;
    var q := p[1..];
    assert Walk(nodes, edges, q) && q[0] == p[1] && q[|q| - 1] == c;
    assert HasEdge(edges, a, p[1]) && p[1] in NodeIds(nodes) && Reaches(nodes, edges, p[1], c);
  }

  /** A set of ids closed under steps holds everything reachable from its members. */
  lemma {:induction false} ClosedHoldsReachable(nodes: seq<Node>, edges: seq<Edge>, s: set<Id>, a: Id, b: Id)
    requires a in s
    requires forall x, y :: x in s && HasEdge(edges, x, y) && y in NodeIds(nodes) ==> y in s
    requires Reaches(nodes, edges, a, b)
    ensures b in s
  {
    var p :| Walk(nodes, edges, p) && p[0] == a && p[|p| - 1] == b;
    var k := 0;
    while k < |p| - 1
      invariant 0 <= k <= |p| - 1
      invariant p[k] in s
    {
      assert HasEdge(edges, p[k], p[k + 1]);
      k := k + 1;
    }
  }

  /** Reachability over the reversed edges is reachability backwards. */
  lemma ReversedReaches(nodes: seq<Node>, edges: seq<Edge>, a: Id, b: Id)
    requires Reaches(nodes, Reversed(edges), a, b)
    ensures Reaches(nodes, edges, b, a)
  {
    var p :| Walk(nodes, Reversed(edges), p) && p[0] == a && p[|p| - 1] == b;
    var q := Reverse(p);
    forall k | 0 <= k < |q| - 1
      ensures HasEdge(edges, q[k], q[k + 1])
    {
      var j := |p| - 2 - k;
      assert HasEdge(Reversed(edges), p[j], p[j + 1]);
      ReversedHasEdge(edges, p[j], p[j + 1]);
    }
    assert Walk(nodes, edges, q);
  }

  /** Every id on a cycle has an edge into it and an edge out of it. */
  lemma CycleVertexHasEdges(nodes: seq<Node>, edges: seq<Edge>, p: seq<Id>, k: int)
    requires IsCycle(nodes, edges, p) && 0 <= k < |p|
    ensures exists y :: HasEdge(edges, y, p[k])
    ensures exists z :: HasEdge(edges, p[k], z)
  {
    if k > 0 {
      assert HasEdge(edges, p[k - 1], p[k]);
    } else {
      assert HasEdge(edges, p[|p| - 2], p[|p| - 1]);
    }
    if k < |p| - 1 {
      assert HasEdge(edges, p[k], p[k + 1]);
    } else {
      assert HasEdge(edges, p[0], p[1]);
    }
  }

  lemma PlusToReaches(nodes: seq<Node>, edges: seq<Edge>, a: Id, b: Id)
    requires ReachesPlus(nodes, edges, a, b)
    ensures Reaches(nodes, edges, a, b)
  {
  }

  /** Zero steps or more is the same node, or one step or more. */
  lemma ReachesSplit(nodes: seq<Node>, edges: seq<Edge>, a: Id, b: Id)
    requires a in NodeIds(nodes)
    ensures Reaches(nodes, edges, a, b) <==> a == b || ReachesPlus(nodes, edges, a, b)
  {
    if a == b {
      ReachesRefl(nodes, edges, a);
    }
    if Reaches(nodes, edges, a, b) && a != b {
      var p :| Walk(nodes, edges, p) && p[0] == a && p[|p| - 1] == b;
      assert |p| >= 2;
    }
  }

  /** Visiting one more id leaves fewer unvisited. */
  lemma Fewer(ids: set<Id>, before: set<Id>, after: set<Id>, x: Id)
    requires before <= after && x in ids && x in after && x !in before
    ensures |ids - after| < |ids - before|
  {
    var a, b := ids - after, ids - before;
    assert x in b - a;
    assert b == a + (b - a);
  }

  lemma FewerOrSame(ids: set<Id>, before: set<Id>, after: set<Id>)
    requires before <= after
    ensures |ids - after| <= |ids - before|
  {
    var a, b := ids - after, ids - before;
    assert b == a + (b - a);
  }

  lemma NodeIdsAppend(a: seq<Node>, b: seq<Node>)
    ensures NodeIds(a + b) == NodeIds(a) + NodeIds(b)
  {
    forall x | x in NodeIds(a + b)
      ensures x in NodeIds(a) + NodeIds(b)
    {
      var n :| n in a + b && n.id == x;
    }
  }
}

=== FILE: input_panel.dfy ===
/**
 * The run-inputs panel: the per-app history of submitted inputs, the
 * selection that must point into it, the one-line summary of a stored
 * input, and the form fields the entry node asks for. Browser storage and
 * the clock are not modelled; the timestamp is a parameter.
 */
module InputPanel {
  import opened Wrappers
  import opened Seqs
  import opened Graph
  import opened Config
  import opened Json

  const MaxHistoryItems := 10
  const SummaryMaxLength := 20

  datatype HistoryItem = HistoryItem(
    id: string,
    timestamp: nat,
    name: string,
    data: Obj,
    testRunId: Option<int>)

  /** The record `saveHistory` would prepend to `list` at time `now`. */
  function NewRecord(list: seq<HistoryItem>, inputs: Obj, now: nat, testRunId: Option<int>): HistoryItem
  {
    HistoryItem("input-" + NatToString(now), now, "输入 #" + NatToString(|list| + 1), inputs, testRunId)
  }

  /** Some stored item already holds these inputs (the `JSON.stringify` comparison). */
  predicate IsDuplicate(list: seq<HistoryItem>, inputs: Obj)
  {
    exists i :: 0 <= i < |list| && list[i].data == inputs
  }

  /** `saveHistory` records something: an app, non-empty inputs, and no equal earlier entry. */
  predicate Records(appId: Option<string>, inputs: Option<Obj>, list: seq<HistoryItem>)
  {
    Truthy(appId) && inputs.Some? && inputs.value != [] && !IsDuplicate(list, inputs.value)
  }

  /** The history list after `saveHistory(inputs, testRunId)`. */
  function SaveHistory(appId: Option<string>, inputs: Option<Obj>, list: seq<HistoryItem>, now: nat, testRunId: Option<int>)
    : (r: seq<HistoryItem>)
    ensures !Records(appId, inputs, list) ==> r == list
    ensures Records(appId, inputs, list) ==>
              && |r| == Min(|list| + 1, MaxHistoryItems)
              && r[0].id == "input-" + NatToString(now)
              && r[0].data == inputs.value
              && r[0].timestamp == now
              && r[0].testRunId == testRunId
              && r[0].name == "输入 #" + NatToString(|list| + 1)
              && r[1..] == list[..|r| - 1]
  {
    if !Records(appId, inputs, list) then list
    else ([NewRecord(list, inputs.value, now, testRunId)] + list)[..Min(|list| + 1, MaxHistoryItems)]
  }

  /** No two stored items hold the same inputs. */
  predicate DistinctData(list: seq<HistoryItem>)
  {
    forall i, j :: 0 <= i < j < |list| ==> list[i].data != list[j].data
  }

  /** Saving the same inputs a second time changes nothing. */
  lemma SaveTwiceIsOnce(appId: Option<string>, inputs: Option<Obj>, list: seq<HistoryItem>,
                        now: nat, later: nat, t1: Option<int>, t2: Option<int>)
    ensures var once := SaveHistory(appId, inputs, list, now, t1);
            SaveHistory(appId, inputs, once, later, t2) == once
  {
    var once := SaveHistory(appId, inputs, list, now, t1);
    if Records(appId, inputs, list) {
      assert once[0].data == inputs.value;
      assert IsDuplicate(once, inputs.value);
    }
  }

  /** The history never holds two equal inputs and never grows past its cap. */
  lemma SaveKeepsHistoryWellFormed(appId: Option<string>, inputs: Option<Obj>, list: seq<HistoryItem>,
                                   now: nat, testRunId: Option<int>)
    requires DistinctData(list) && |list| <= MaxHistoryItems
    ensures var r := SaveHistory(appId, inputs, list, now, testRunId);
            DistinctData(r) && |r| <= MaxHistoryItems
  {
    var r := SaveHistory(appId, inputs, list, now, testRunId);
    if Records(appId, inputs, list) {
      forall i, j | 0 <= i < j < |r|
        ensures r[i].data != r[j].data
      {
        assert r[j] == list[j - 1] by { assert r[1..][j - 1] == r[j]; }
        if i > 0 {
          assert r[i] == list[i - 1] by { assert r[1..][i - 1] == r[i]; }
        }
      }
    }
  }

  /** Once the history is full, the oldest item is dropped and every new record is named "输入 #11". */
  lemma FullHistoryDropsOldest(appId: Option<string>, inputs: Option<Obj>, list: seq<HistoryItem>,
                               now: nat, testRunId: Option<int>)
    requires |list| == MaxHistoryItems && Records(appId, inputs, list)
    ensures var r := SaveHistory(appId, inputs, list, now, testRunId);
            |r| == MaxHistoryItems && r[1..] == list[..MaxHistoryItems - 1] && r[0].name == "输入 #11"
  {
    assert NatToString(11) == NatToString(1) + [Digit(1)];
  }

  /** The history-selection effect: a selection whose item is gone is cleared. */
  function SelectionAfter(list: seq<HistoryItem>, selected: Option<HistoryItem>): (r: Option<HistoryItem>)
    ensures r.Some? ==> r == selected
    ensures r.None? <==> selected.None? || forall i :: 0 <= i < |list| ==> list[i].id != selected.value.id
  {
    if |list| == 0 && selected.Some? then None
    else if selected.Some? && !(exists i :: 0 <= i < |list| && list[i].id == selected.value.id) then None
    else selected
  }

  /** The effect is settled after one run, and a selection drawn from the list survives it. */
  lemma SelectionSettles(list: seq<HistoryItem>, selected: Option<HistoryItem>)
    ensures SelectionAfter(list, SelectionAfter(list, selected)) == SelectionAfter(list, selected)
    ensures selected.Some? && selected.value in list ==> SelectionAfter(list, selected) == selected
  {
    if selected.Some? && selected.value in list {
      var i :| 0 <= i < |list| && list[i] == selected.value;
      assert list[i].id == selected.value.id;
    }
  }

  /** The first non-empty string value of the inputs, in key order. */
  function FirstText(data: Obj): (r: Option<string>)
    ensures r.Some? ==> r.value != []
    ensures r.Some? ==> exists i :: 0 <= i < |data| && data[i].1 == Str(r.value) &&
                          (forall j :: 0 <= j < i ==> !(data[j].1.Str? && data[j].1.s != []))
    ensures r.None? <==> forall i :: 0 <= i < |data| ==> !(data[i].1.Str? && data[i].1.s != [])
  {
    if data == [] then None
    else if data[0].1.Str? && data[0].1.s != [] then Some(data[0].1.s)
    else
      var r := FirstText(data[1..]);
      if r.Some? then
        var i :| 0 <= i < |data[1..]| && data[1..][i].1 == Str(r.value) &&
                 forall j :: 0 <= j < i ==> !(data[1..][j].1.Str? && data[1..][j].1.s != []);
        assert data[i + 1].1 == Str(r.value);
        assert forall j :: 0 <= j < i + 1 ==> !(data[j].1.Str? && data[j].1.s != []) by {
          forall j | 0 <= j < i + 1
            ensures !(data[j].1.Str? && data[j].1.s != [])
          {
            if j > 0 {
              assert data[j] == data[1..][j - 1];
            }
          }
        }
        r
      else
        assert forall i :: 0 <= i < |data| ==> i == 0 || data[i] == data[1..][i - 1];
        r
  }

  /** `getInputSummary`: the first text input clipped to 20 characters, else the list of keys. */
  function InputSummary(data: Option<Obj>): (r: string)
    ensures data.None? || data.value == [] ==> r == ""
    ensures data.Some? && FirstText(data.value).Some? ==>
              var t := FirstText(data.value).value;
              if |t| <= SummaryMaxLength then r == t
              else |r| == SummaryMaxLength + 3 && r[..SummaryMaxLength] == t[..SummaryMaxLength] && r[SummaryMaxLength..] == "..."
    ensures data.Some? && data.value != [] && FirstText(data.value).None? ==>
              var keys := Join(Keys(data.value), ", ");
              r == if keys == "" then "" else "包含: " + keys
  {
    if data.None? || |Keys(data.value)| == 0 then ""
    else
      var text := FirstText(data.value);
      if text.Some? then
        if |text.value| > SummaryMaxLength then text.value[..SummaryMaxLength] + "..." else text.value
      else
        var keys := Join(Keys(data.value), ", ");
        if keys != "" then "包含: " + keys else ""
  }

  /** A summary is at most 23 characters long whenever the inputs hold any text. */
  lemma SummaryIsShortForText(data: Obj)
    requires FirstText(data).Some?
    ensures |InputSummary(Some(data))| <= SummaryMaxLength + 3
    ensures InputSummary(Some(data)) != ""
  {
  }

  /** One declared input of a node's output shape. */
  datatype ShapeItem = ShapeItem(
    id: string,
    variableType: string,
    variableName: string,
    variableConst: string,
    accept: string)

  /** A canvas node as the panel sees it: its block type and declared output shape. */
  datatype ShapedNode = ShapedNode(kind: string, outputShape: Option<seq<ShapeItem>>)

  const DefaultFile := ShapeItem("START_DEFAULT_FILE", "file", "默认文件", "START_DEFAULT_FILE", "*")

  /** An entry node whose only declared input is a string gets a default file input as well. */
  predicate NeedsDefaultFile(n: ShapedNode)
  {
    n.outputShape.Some? && |n.outputShape.value| == 1 && n.outputShape.value[0].variableType == "str"
  }

  /** The inputs one entry node contributes. */
  function EntryFields(n: ShapedNode): seq<ShapeItem>
  {
    n.outputShape.GetOr([]) + (if NeedsDefaultFile(n) then [DefaultFile] else [])
  }

  /**
   * The entry-node part of `useInputShape`: the `forEach` over the nodes,
   * where each entry node overwrites the fields collected so far and the
   * default-file flag, once raised, stays raised.
   */
  function EntryShape(c: Constants, nodes: seq<ShapedNode>, fields: seq<ShapeItem>, flag: bool)
    : (r: (seq<ShapeItem>, bool))
    ensures r.1 <==> flag || exists i :: 0 <= i < |nodes| && nodes[i].kind == c.entryKind && NeedsDefaultFile(nodes[i])
    ensures (forall i :: 0 <= i < |nodes| ==> nodes[i].kind != c.entryKind) ==> r.0 == fields
    decreases |nodes|
  {
    if nodes == [] then (fields, flag)
    else
      var n := nodes[0];
      var r := if n.kind == c.entryKind then EntryShape(c, nodes[1..], EntryFields(n), flag || NeedsDefaultFile(n))
               else EntryShape(c, nodes[1..], fields, flag);
      assert forall i :: 0 <= i < |nodes| ==> i == 0 || nodes[i] == nodes[1..][i - 1];
      r
  }

  /**
   * The fields come from the last entry node alone; the default-file flag
   * says whether any entry node asked for one. With two entry nodes the
   * flag can be raised while the default file is not among the fields.
   */
  lemma {:induction false} EntryShapeByLastEntry(c: Constants, nodes: seq<ShapedNode>, fields: seq<ShapeItem>, flag: bool)
    ensures var last := Last(nodes, (n: ShapedNode) => n.kind == c.entryKind);
            EntryShape(c, nodes, fields, flag).0 == if last.Some? then EntryFields(last.value) else fields
    decreases |nodes|
  {
    var p := (n: ShapedNode) => n.kind == c.entryKind;
    if nodes != [] {
      var pre := nodes[..|nodes| - 1];
      var x := nodes[|nodes| - 1];
      assert nodes == pre + [x];
      EntryShapeSnoc(c, pre, x, fields, flag);
      LastAppend(pre, x, p);
      if !p(x) {
        EntryShapeByLastEntry(c, pre, fields, flag);
      }
    }
  }

  lemma {:induction false} EntryShapeSnoc(c: Constants, pre: seq<ShapedNode>, x: ShapedNode, fields: seq<ShapeItem>, flag: bool)
    ensures var m := EntryShape(c, pre, fields, flag);
            EntryShape(c, pre + [x], fields, flag).0 == if x.kind == c.entryKind then EntryFields(x) else m.0
    decreases |pre|
  {
    if pre == [] {
      assert pre + [x] == [x];
      assert [x][1..] == [];
    } else {
      var n := pre[0];
      assert (pre + [x])[0] == n;
      assert (pre + [x])[1..] == pre[1..] + [x];
      if n.kind == c.entryKind {
        EntryShapeSnoc(c, pre[1..], x, EntryFields(n), flag || NeedsDefaultFile(n));
      } else {
        EntryShapeSnoc(c, pre[1..], x, fields, flag);
      }
    }
  }
}

=== FILE: json.dfy ===
/**
 * Plain JavaScript objects as the editor passes them around: an ordered
 * list of key/value entries. Key order matters because `JSON.stringify`
 * and object spread both follow it. The order kept here is insertion order;
 * JavaScript enumerates integer-like keys (`"0"`, `"1"`, ...) first, in
 * ascending order, and that reordering is not modelled.
 */
module Json {
  import opened Wrappers
  import opened Seqs

  datatype Value =
    | Str(s: string)
    | Num(n: int)
    | Bool(b: bool)
    | Null
    | Nested(obj: seq<(string, Value)>)

  type Obj = seq<(string, Value)>

  /** `Object.keys`. */
  function Keys(o: Obj): (r: seq<string>)
    ensures |r| == |o|
    ensures forall i :: 0 <= i < |o| ==> r[i] == o[i].0
  {
    if o == [] then [] else [o[0].0] + Keys(o[1..])
  }

  predicate HasField(o: Obj, k: string)
  {
    exists i :: 0 <= i < |o| && o[i].0 == k
  }

  /** Property access `o[k]`: the first entry with key `k`, if any. */
  function Get(o: Obj, k: string): (r: Option<Value>)
    ensures r.None? <==> !HasField(o, k)
    ensures r.Some? ==> (k, r.value) in o
  {
    if o == [] then None
    else if o[0].0 == k then Some(o[0].1)
    else
      var r := Get(o[1..], k);
      assert !HasField(o[1..], k) ==> !HasField(o, k) by {
        if HasField(o, k) && o[0].0 != k {
          var i :| 0 <= i < |o| && o[i].0 == k;
          assert o[1..][i - 1].0 == k;
        }
      }
      r
  }

  predicate UniqueKeys(o: Obj)
  {
    forall i, j :: 0 <= i < j < |o| ==> o[i].0 != o[j].0
  }

  /**
   * `{ ...base, ...over }`: the keys of `base` in their order, then the keys
   * only `over` has, each taking its value from `over` when it has one.
   */
  function Spread(base: Obj, over: Obj): (r: Obj)
    ensures forall k :: HasField(r, k) <==> HasField(base, k) || HasField(over, k)
    ensures forall k :: Get(r, k) == if HasField(over, k) then Get(over, k) else Get(base, k)
  {
    var kept := Overlay(base, over);
    var extra := Filter(over, (e: (string, Value)) => !HasField(base, e.0));
    SpreadFacts(base, over, kept, extra);
    kept + extra
  }

  /** `base` with every value that `over` also has replaced by `over`'s. */
  function Overlay(base: Obj, over: Obj): (r: Obj)
    ensures |r| == |base|
    ensures forall i :: 0 <= i < |base| ==> r[i].0 == base[i].0
    ensures forall i :: 0 <= i < |base| ==>
              r[i].1 == if HasField(over, base[i].0) then Get(over, base[i].0).value else base[i].1
  {
    if base == [] then []
    else
      var k := base[0].0;
      var v := if HasField(over, k) then Get(over, k).value else base[0].1;
      [(k, v)] + Overlay(base[1..], over)
  }

  lemma GetAppend(a: Obj, b: Obj, k: string)
    ensures Get(a + b, k) == if HasField(a, k) then Get(a, k) else Get(b, k)
  {
    if a != [] {
      var ab := a + b;
      assert ab[0] == a[0];
      assert ab[1..] == a[1..] + b;
      if a[0].0 == k {
        assert HasField(a, k) by { assert a[0].0 == k; }
        assert Get(ab, k) == Some(a[0].1);
      } else {
        GetAppend(a[1..], b, k);
        assert Get(ab, k) == Get(ab[1..], k);
        assert Get(a, k) == Get(a[1..], k);
        if HasField(a, k) {
          var i :| 0 <= i < |a| && a[i].0 == k;
          assert a[1..][i - 1].0 == k;
        }
        if HasField(a[1..], k) {
          var i :| 0 <= i < |a[1..]| && a[1..][i].0 == k;
          assert a[i + 1].0 == k;
        }
      }
    } else {
      assert a + b == b;
    }
  }

  /** The first entry of `o` with a key found at index `i` sits no later than `i`. */
  lemma GetFirst(o: Obj, k: string, i: int)
    requires 0 <= i < |o| && o[i].0 == k
    requires forall j :: 0 <= j < i ==> o[j].0 != k
    ensures Get(o, k) == Some(o[i].1)
  {
    if i > 0 {
      GetFirst(o[1..], k, i - 1);
    }
  }

  lemma OverlayGet(base: Obj, over: Obj, k: string)
    requires HasField(base, k)
    ensures HasField(Overlay(base, over), k)
    ensures Get(Overlay(base, over), k) == if HasField(over, k) then Get(over, k) else Get(base, k)
  {
    var r := Overlay(base, over);
    var i :| 0 <= i < |base| && base[i].0 == k && forall j :: 0 <= j < i ==> base[j].0 != k by {
      var i0 :| 0 <= i0 < |base| && base[i0].0 == k;
      FirstIndex(base, k, i0);
    }
    GetFirst(base, k, i);
    assert r[i].0 == k;
    GetFirst(r, k, i);
  }

  lemma FirstIndex(o: Obj, k: string, i0: int)
    requires 0 <= i0 < |o| && o[i0].0 == k
    ensures exists i :: 0 <= i < |o| && o[i].0 == k && forall j :: 0 <= j < i ==> o[j].0 != k
  {
    if o[0].0 != k {
      FirstIndex(o[1..], k, i0 - 1);
      var i :| 0 <= i < |o[1..]| && o[1..][i].0 == k && forall j :: 0 <= j < i ==> o[1..][j].0 != k;
      assert o[i + 1].0 == k;
      assert forall j :: 0 <= j < i + 1 ==> o[j].0 != k by {
        forall j | 0 <= j < i + 1
          ensures o[j].0 != k
        {
          if j > 0 {
            assert o[j] == o[1..][j - 1];
          }
        }
      }
    } else {
      assert o[0].0 == k;
    }
  }

  lemma SpreadFacts(base: Obj, over: Obj, kept: Obj, extra: Obj)
    requires kept == Overlay(base, over)
    requires extra == Filter(over, (e: (string, Value)) => !HasField(base, e.0))
    ensures forall k :: HasField(kept + extra, k) <==> HasField(base, k) || HasField(over, k)
    ensures forall k :: Get(kept + extra, k) == if HasField(over, k) then Get(over, k) else Get(base, k)
  {
    forall k
      ensures HasField(kept + extra, k) <==> HasField(base, k) || HasField(over, k)
      ensures Get(kept + extra, k) == if HasField(over, k) then Get(over, k) else Get(base, k)
    {
      GetAppend(kept, extra, k);
      if HasField(base, k) {
        OverlayGet(base, over, k);
      } else {
        assert !HasField(kept, k);
        FilterGet(over, base, k);
      }
    }
  }

  /** Dropping entries whose key `base` has keeps every lookup of a key `base` lacks. */
  lemma {:induction false} FilterGet(over: Obj, base: Obj, k: string)
    requires !HasField(base, k)
    ensures var extra := Filter(over, (e: (string, Value)) => !HasField(base, e.0));
            HasField(extra, k) == HasField(over, k) && Get(extra, k) == Get(over, k)
  {
    var p := (e: (string, Value)) => !HasField(base, e.0);
    if over != [] {
      FilterGet(over[1..], base, k);
      if p(over[0]) {
        assert Filter(over, p) == [over[0]] + Filter(over[1..], p);
        GetAppend([over[0]], Filter(over[1..], p), k);
        GetAppend([over[0]], over[1..], k);
        assert over == [over[0]] + over[1..];
      } else {
        assert over[0].0 != k;
        GetAppend([over[0]], over[1..], k);
        assert over == [over[0]] + over[1..];
      }
    }
  }
}

=== FILE: keyboard.dfy ===
/** `WorkflowKeyboardManager`: platform-dependent key names, key codes and the
    editor's shortcuts. Platform detection reads the browser and is replaced by
    the `isMac` flag. */
module Keyboard {
  import opened Wrappers
  import opened Seqs

  /** `keyMappings.names`, looked up with an already lower-cased key. */
  function KeyName(isMac: bool, k: string): (r: Option<string>)
    ensures r.Some? <==> k in ["ctrl", "alt", "shift", "enter", "backspace", "delete", "escape"]
    ensures r.Some? ==> r.value != ""
  {
    if k == "ctrl" then Some(if isMac then "⌘" else "Ctrl")
    else if k == "alt" then Some(if isMac then "⌥" else "Alt")
    else if k == "shift" then Some(if isMac then "⇧" else "Shift")
    else if k == "enter" then Some(if isMac then "↵" else "Enter")
    else if k == "backspace" then Some(if isMac then "⌫" else "Backspace")
    else if k == "delete" then Some(if isMac then "⌦" else "Delete")
    else if k == "escape" then Some(if isMac then "⎋" else "Esc")
    else None
  }

  /** `keyMappings.codes`, looked up with an already lower-cased key. */
  function KeyCodeEntry(isMac: bool, k: string): (r: Option<string>)
    ensures r.Some? <==> k in ["ctrl", "alt", "shift"]
  {
    if k == "ctrl" then Some(if isMac then "meta" else "ctrl")
    else if k == "alt" then Some("alt")
    else if k == "shift" then Some("shift")
    else None
  }

  /** `getKeyDisplayName`: the platform name of a known key, otherwise the key as given. */
  function DisplayName(isMac: bool, key: string): (r: string)
    ensures KeyName(isMac, Lower(key)).Some? ==> r == KeyName(isMac, Lower(key)).value
    ensures KeyName(isMac, Lower(key)).None? ==> r == key
  {
    KeyName(isMac, Lower(key)).GetOr(key)
  }

  /** `getKeyCode`: the platform code of a modifier, otherwise the lower-cased key. */
  function KeyCode(isMac: bool, key: string): (r: string)
    ensures |r| >= 1 || key == ""
  {
    KeyCodeEntry(isMac, Lower(key)).GetOr(Lower(key))
  }

  lemma {:induction false} LowerIdempotent(s: string)
    ensures Lower(Lower(s)) == Lower(s)
  {
    var l := Lower(s);
    assert forall i :: 0 <= i < |s| ==> Lower(l)[i] == l[i];
  }

  /** Text without upper-case ASCII letters is its own lower case. */
  lemma LowerOfLowercase(s: string)
    requires forall i :: 0 <= i < |s| ==> !('A' <= s[i] <= 'Z')
    ensures Lower(s) == s
  {
    assert forall i :: 0 <= i < |s| ==> Lower(s)[i] == s[i];
  }

  /** The key names and codes the shortcuts use are already lower case. */
  lemma KeyLiteralLower(k: string)
    requires k in ["meta", "ctrl", "alt", "shift", "s"]
    ensures Lower(k) == k
  {
    LowerOfLowercase(k);
  }

  /** A key code is its own key code: codes are stable under `getKeyCode`. */
  lemma KeyCodeIdempotent(isMac: bool, key: string)
    ensures KeyCode(isMac, KeyCode(isMac, key)) == KeyCode(isMac, key)
  {
    LowerIdempotent(key);
    var entry := KeyCodeEntry(isMac, Lower(key));
    if entry.Some? {
      KeyLiteralLower(entry.value);
    }
  }

  /** The action names of `shortcuts`. */
  const Actions: seq<string> := ["workflow.save", "workflow.copy", "workflow.paste", "workflow.undo",
                                 "workflow.redo", "workflow.selectAll"]

  /** `getShortcut`: the keys of an action, `[]` for an unknown one. */
  function Shortcut(isMac: bool, action: string): (r: seq<string>)
    ensures action !in Actions <==> r == []
    ensures r != [] ==> r[0] == KeyCode(isMac, "ctrl") && |r| >= 2
  {
    var mod := if isMac then "meta" else "ctrl";
    assert Lower("ctrl") == "ctrl";
    if action == "workflow.save" then [mod, "s"]
    else if action == "workflow.copy" then [mod, "c"]
    else if action == "workflow.paste" then [mod, "v"]
    else if action == "workflow.undo" then [mod, "z"]
    else if action == "workflow.redo" then (if isMac then ["meta", "shift", "z"] else ["ctrl", "y"])
    else if action == "workflow.selectAll" then [mod, "a"]
    else []
  }

  /** `formatShortcutDisplay` as written: display names joined with " + ". */
  function FormatShortcut(isMac: bool, action: string): (r: string)
    ensures action !in Actions ==> r == ""
    ensures action in Actions ==> DisplayName(isMac, KeyCode(isMac, "ctrl")) + " + " <= r
  {
    ShownStartsWithCode(isMac, action);
    Join(Map(Shortcut(isMac, action), (k: string) => DisplayName(isMac, k)), " + ")
  }

  /** The joined display names of a known shortcut open with the name its modifier code gets. */
  lemma ShownStartsWithCode(isMac: bool, action: string)
    ensures action in Actions ==>
      DisplayName(isMac, KeyCode(isMac, "ctrl")) + " + " <= Join(Map(Shortcut(isMac, action), (k: string) => DisplayName(isMac, k)), " + ")
  {
    if action in Actions {
      JoinHead(Shortcut(isMac, action), (k: string) => DisplayName(isMac, k), " + ");
    }
  }

  /** A join of two or more names opens with the first name and the separator. */
  lemma JoinHead(keys: seq<string>, f: string -> string, sep: string)
    requires |keys| >= 2
    ensures f(keys[0]) + sep <= Join(Map(keys, f), sep)
  {
    var shown := Map(keys, f);
    assert Join(shown, sep) == shown[0] + sep + Join(shown[1..], sep);
  }

  /** On macOS the shortcuts are written in key codes (`meta`), which have no display name, so the
      raw code is shown; elsewhere the modifier is shown by name. */
  lemma MacSaveShowsRawMeta()
    ensures FormatShortcut(true, "workflow.save") == "meta + s"
    ensures FormatShortcut(false, "workflow.save") == "Ctrl + s"
  {
    SaveShownMac();
    SaveShownOther();
  }

  lemma SaveShownMac()
    ensures FormatShortcut(true, "workflow.save") == "meta + s"
  {
    JoinPair(Shortcut(true, "workflow.save"), (k: string) => DisplayName(true, k), " + ");
    MetaHasNoName();
    PlainKeyShownAsIs(true);
    assert "meta" + " + " + "s" == "meta + s";
  }

  /** `meta` is not a key of `keyMappings.names`, so it is shown as given. */
  lemma MetaHasNoName()
    ensures DisplayName(true, "meta") == "meta"
  {
    KeyLiteralLower("meta");
  }

  lemma PlainKeyShownAsIs(isMac: bool)
    ensures DisplayName(isMac, "s") == "s"
  {
    KeyLiteralLower("s");
  }

  lemma SaveShownOther()
    ensures FormatShortcut(false, "workflow.save") == "Ctrl + s"
  {
    JoinPair(Shortcut(false, "workflow.save"), (k: string) => DisplayName(false, k), " + ");
    CtrlNamed();
    PlainKeyShownAsIs(false);
    assert "Ctrl" + " + " + "s" == "Ctrl + s";
  }

  lemma CtrlNamed()
    ensures DisplayName(false, "ctrl") == "Ctrl"
  {
    KeyLiteralLower("ctrl");
  }

  /** Two keys are joined around one separator. */
  lemma JoinPair(keys: seq<string>, f: string -> string, sep: string)
    requires |keys| == 2
    ensures Join(Map(keys, f), sep) == f(keys[0]) + sep + f(keys[1])
  {
    assert Map(keys, f)[1..] == [f(keys[1])];
  }

  /** The display name that also knows the macOS code of the control modifier. */
  function DisplayNameFixed(isMac: bool, key: string): (r: string)
    ensures isMac && Lower(key) == "meta" ==> r == DisplayName(isMac, "ctrl")
    ensures !(isMac && Lower(key) == "meta") ==> r == DisplayName(isMac, key)
  {
    assert Lower("ctrl") == "ctrl";
    if isMac && Lower(key) == "meta" then KeyName(isMac, "ctrl").value else DisplayName(isMac, key)
  }

  /** Every modifier's code is displayed as the modifier's own name on both platforms. */
  lemma CodeDisplaysAsModifier(isMac: bool, m: string)
    requires m in ["ctrl", "alt", "shift"]
    ensures DisplayNameFixed(isMac, KeyCode(isMac, m)) == DisplayName(isMac, m)
  {
    KeyLiteralLower(m);
    if isMac && m == "ctrl" {
      KeyLiteralLower("meta");
    }
  }

  /** `formatShortcutDisplay` with the corrected display names. */
  function FormatShortcutFixed(isMac: bool, action: string): (r: string)
    ensures action !in Actions ==> r == ""
  {
    Join(Map(Shortcut(isMac, action), (k: string) => DisplayNameFixed(isMac, k)), " + ")
  }

  /** With the corrected names, every shortcut is shown starting with the platform's name for the
      control modifier. */
  lemma FixedShortcutShowsModifier(isMac: bool, action: string)
    requires action in Actions
    ensures DisplayName(isMac, "ctrl") + " + " <= FormatShortcutFixed(isMac, action)
  {
    var keys := Shortcut(isMac, action);
    var shown := Map(keys, (k: string) => DisplayNameFixed(isMac, k));
    assert |keys| >= 2;
    CodeDisplaysAsModifier(isMac, "ctrl");
    assert shown[0] == DisplayName(isMac, "ctrl");
    assert Join(shown, " + ") == shown[0] + " + " + Join(shown[1..], " + ");
  }
}

=== FILE: layout.dfy ===
/** The input side of `WorkflowLayoutEngine`: which nodes and edges are handed
    to the layered layout, and the box each node is laid out as. The layout
    itself (dagre) is not part of this model. */
module Layout {
  import opened Wrappers
  import opened Seqs
  import opened Graph
  import opened Config

  /** `DEFAULT_NODE_DIMENSIONS`. */
  const DefaultWidth := 220
  const DefaultHeight := 180

  /** The box handed to the layout for one node. */
  datatype LayoutBox = LayoutBox(id: Id, width: int, height: int, title: string)

  /** `isLayoutEligibleNode`: top-level nodes of the ordinary workflow render type. */
  predicate IsLayoutEligible(c: Constants, n: Node)
  {
    !HasParent(n) && n.renderType == Some(c.customNodeType)
  }

  /** `normalizeNodeDimensions` with the fallback made explicit: a positive number is kept. */
  function NormalizeDimension(size: Option<int>, fallback: int): (r: int)
    ensures size.Some? && size.value > 0 ==> r == size.value
    ensures (size.None? || size.value <= 0) ==> r == fallback
  {
    if size.Some? && size.value > 0 then size.value else fallback
  }

  /** A normalised dimension is positive and normalising it again changes nothing. */
  lemma NormalizeDimensionStable(size: Option<int>, fallback: int)
    requires fallback > 0
    ensures NormalizeDimension(size, fallback) > 0
    ensures NormalizeDimension(Some(NormalizeDimension(size, fallback)), fallback) == NormalizeDimension(size, fallback)
  {
  }

  /** `node.data?.title || node.id`. */
  function Label(n: Node): (r: string)
    ensures r == "" ==> n.id == ""
    ensures n.title != "" ==> r == n.title
  {
    if n.title != "" then n.title else n.id
  }

  /** The box as the source builds it: both dimensions fall back to the default width. */
  function LayoutBoxAsWritten(n: Node): (r: LayoutBox)
    ensures r.id == n.id && r.title == Label(n)
    ensures r.width == NormalizeDimension(n.width, DefaultWidth)
    ensures r.height == NormalizeDimension(n.height, DefaultWidth)
  {
    LayoutBox(n.id, NormalizeDimension(n.width, DefaultWidth), NormalizeDimension(n.height, DefaultWidth), Label(n))
  }

  /** A node without a height is laid out 220 high although the declared default height is 180. */
  lemma AsWrittenHeightIgnoresDefault(n: Node)
    requires n.height.None?
    ensures LayoutBoxAsWritten(n).height != DefaultHeight
    ensures LayoutBoxAsWritten(n).height == DefaultWidth
  {
  }

  /** The box with each dimension falling back to its own default. */
  function NodeBox(n: Node): (r: LayoutBox)
    ensures r.id == n.id && r.title == Label(n)
    ensures r.width > 0 && r.height > 0
    ensures n.width.Some? && n.width.value > 0 ==> r.width == n.width.value
    ensures n.height.Some? && n.height.value > 0 ==> r.height == n.height.value
    ensures (n.width.None? || n.width.value <= 0) ==> r.width == DefaultWidth
    ensures (n.height.None? || n.height.value <= 0) ==> r.height == DefaultHeight
  {
    LayoutBox(n.id, NormalizeDimension(n.width, DefaultWidth), NormalizeDimension(n.height, DefaultHeight), Label(n))
  }

  /** The two boxes differ only in the fallback height. */
  lemma BoxesAgreeWhenSized(n: Node)
    ensures n.height.Some? && n.height.value > 0 ==> NodeBox(n) == LayoutBoxAsWritten(n)
    ensures (n.height.None? || n.height.value <= 0) ==>
      NodeBox(n) == LayoutBoxAsWritten(n).(height := DefaultHeight)
  {
  }

  /** The graph handed to the layout: boxes of the eligible nodes, and the edges not inside an iteration. */
  datatype LayoutInput = LayoutInput(boxes: seq<LayoutBox>, links: seq<(Id, Id)>)

  /** The nodes `setupLayout` hands to the layout, in order. */
  function EligibleNodes(c: Constants, nodes: seq<Node>): (r: seq<Node>)
    ensures IsSubsequence(r, nodes)
    ensures forall n :: n in r <==> n in nodes && IsLayoutEligible(c, n)
  {
    Filter(nodes, (n: Node) => IsLayoutEligible(c, n))
  }

  /** The (source, target) pairs of the edges not inside an iteration, in order. */
  function LayoutLinks(edges: seq<Edge>): (r: seq<(Id, Id)>)
    ensures |r| <= |edges|
    ensures forall l :: l in r <==> exists e :: e in edges && !e.data.isInIteration && l == (e.source, e.target)
  {
    var outside := Filter(edges, (e: Edge) => !e.data.isInIteration);
    MapMembership(outside, (e: Edge) => (e.source, e.target));
    Map(outside, (e: Edge) => (e.source, e.target))
  }

  /** `setupLayout` as written: every eligible node is laid out as `LayoutBoxAsWritten` builds it. */
  function LayoutGraph(c: Constants, nodes: seq<Node>, edges: seq<Edge>): (r: LayoutInput)
    ensures |r.boxes| <= |nodes| && |r.links| <= |edges|
    ensures forall b :: b in r.boxes <==> exists n :: n in nodes && IsLayoutEligible(c, n) && b == LayoutBoxAsWritten(n)
    ensures forall l :: l in r.links <==> exists e :: e in edges && !e.data.isInIteration && l == (e.source, e.target)
  {
    var eligible := EligibleNodes(c, nodes);
    IsSubsequenceLength(eligible, nodes);
    MapMembership(eligible, LayoutBoxAsWritten);
    LayoutInput(Map(eligible, LayoutBoxAsWritten), LayoutLinks(edges))
  }

  /** `setupLayout` with the corrected box: each dimension falls back to its own default. */
  function LayoutGraphCorrected(c: Constants, nodes: seq<Node>, edges: seq<Edge>): (r: LayoutInput)
    ensures |r.boxes| <= |nodes| && |r.links| <= |edges|
    ensures forall b :: b in r.boxes <==> exists n :: n in nodes && IsLayoutEligible(c, n) && b == NodeBox(n)
    ensures forall b :: b in r.boxes ==> b.width > 0 && b.height > 0
    ensures forall l :: l in r.links <==> exists e :: e in edges && !e.data.isInIteration && l == (e.source, e.target)
  {
    var eligible := EligibleNodes(c, nodes);
    IsSubsequenceLength(eligible, nodes);
    MapMembership(eligible, NodeBox);
    LayoutInput(Map(eligible, NodeBox), LayoutLinks(edges))
  }

  /** The two layouts receive the same links and, box by box, differ at most in
      a fallback height (220 as written, 180 corrected); when every eligible node
      carries a positive height they are the same. */
  lemma LayoutGraphsDifferInFallbackHeight(c: Constants, nodes: seq<Node>, edges: seq<Edge>)
    ensures var a, b := LayoutGraph(c, nodes, edges), LayoutGraphCorrected(c, nodes, edges);
      a.links == b.links && |a.boxes| == |b.boxes| &&
      forall i :: 0 <= i < |a.boxes| ==>
        b.boxes[i] == a.boxes[i] || (a.boxes[i].height == DefaultWidth && b.boxes[i] == a.boxes[i].(height := DefaultHeight))
    ensures (forall n :: n in nodes && IsLayoutEligible(c, n) ==> n.height.Some? && n.height.value > 0) ==>
      LayoutGraph(c, nodes, edges) == LayoutGraphCorrected(c, nodes, edges)
  {
    var eligible := EligibleNodes(c, nodes);
    var a, b := LayoutGraph(c, nodes, edges), LayoutGraphCorrected(c, nodes, edges);
    forall i | 0 <= i < |a.boxes|
      ensures b.boxes[i] == a.boxes[i] || (a.boxes[i].height == DefaultWidth && b.boxes[i] == a.boxes[i].(height := DefaultHeight))
    {
      BoxesAgreeWhenSized(eligible[i]);
    }
    if forall n :: n in nodes && IsLayoutEligible(c, n) ==> n.height.Some? && n.height.value > 0 {
      forall i | 0 <= i < |a.boxes|
        ensures b.boxes[i] == a.boxes[i]
      {
        assert eligible[i] in eligible;
        BoxesAgreeWhenSized(eligible[i]);
      }
      assert a.boxes == b.boxes;
    }
  }
}

=== FILE: node_capability.dfy ===
/** `canWorkflowNodeRunIndependently`: whether a node can be run on its own. */
module NodeCapability {
  import opened Wrappers
  import opened Config

  /** The node data as far as the check reads it; `NotObject` stands for a
      missing or non-object value, and `runBySingle` for the truthiness of
      `config__can_run_by_single`. */
  datatype NodeData =
    | NotObject
    | Data(kind: Option<string>, executionMode: Option<string>, runBySingle: bool)

  /** Block types that always run on their own. */
  function IndependentKinds(c: Constants): seq<string>
  {
    [c.codeKind, c.subModuleKind, "CustomScript", "StandaloneFunction"]
  }

  function CanRunIndependently(c: Constants, d: NodeData): (r: bool)
    ensures d.NotObject? ==> !r
    ensures d.Data? && d.runBySingle ==> r
    ensures d.Data? && d.executionMode in {Some("independent"), Some("standalone")} ==> r
    ensures d.Data? && d.kind.Some? && d.kind.value in IndependentKinds(c) ==> r
  {
    match d
    case NotObject => false
    case Data(kind, mode, single) =>
      if kind.Some? && kind.value in IndependentKinds(c) then true
      else if mode == Some("independent") || mode == Some("standalone") then true
      else single
  }

  /** The only ways to be runnable: an independent type, an independent mode, or the legacy flag. */
  lemma RunnableOnlyFor(c: Constants, d: NodeData)
    requires CanRunIndependently(c, d)
    ensures d.Data?
    ensures (d.kind.Some? && d.kind.value in IndependentKinds(c))
      || d.executionMode == Some("independent") || d.executionMode == Some("standalone")
      || d.runBySingle
  {
  }
}

=== FILE: node_normalizer.dfy ===
/** `initializeWorkflowNodes` and `getWorkflowNodeConnectedHandleIds`: default
    placement, default render type and the per-node lists of connected handles. */
module NodeNormalizer {
  import opened Wrappers
  import opened Seqs
  import opened Graph
  import opened Config

  /** Handle ids recorded for an edge whose handle is null or undefined. */
  const DefaultSourceHandleId := "source"
  const DefaultTargetHandleId := "target"

  /** `_connectedSourceHandleIds`: one handle per edge leaving the node, in edge order. */
  function SourceHandleIds(id: Id, edges: seq<Edge>): seq<string>
  {
    if edges == [] then []
    else
      var here := if edges[0].source == id then [edges[0].sourceHandle.GetOr(DefaultSourceHandleId)] else [];
      here + SourceHandleIds(id, edges[1..])
  }

  /** `_connectedTargetHandleIds`: one handle per edge entering the node, in edge order. */
  function TargetHandleIds(id: Id, edges: seq<Edge>): seq<string>
  {
    if edges == [] then []
    else
      var here := if edges[0].target == id then [edges[0].targetHandle.GetOr(DefaultTargetHandleId)] else [];
      here + TargetHandleIds(id, edges[1..])
  }

  /** The source's pipeline: connected edges, then those leaving the node, then their handles. */
  function SourceHandlesOfConnected(id: Id, edges: seq<Edge>): seq<string>
  {
    Map(Filter(ConnectedEdges(edges, id), (e: Edge) => e.source == id), (e: Edge) => e.sourceHandle.GetOr(DefaultSourceHandleId))
  }

  /** The source's pipeline for entering edges. */
  function TargetHandlesOfConnected(id: Id, edges: seq<Edge>): seq<string>
  {
    Map(Filter(ConnectedEdges(edges, id), (e: Edge) => e.target == id), (e: Edge) => e.targetHandle.GetOr(DefaultTargetHandleId))
  }

  /** Selecting the connected edges first changes nothing: every leaving (entering) edge is connected. */
  lemma {:induction false} FilterOfConnected(edges: seq<Edge>, id: Id)
    ensures Filter(ConnectedEdges(edges, id), (e: Edge) => e.source == id) == Filter(edges, (e: Edge) => e.source == id)
    ensures Filter(ConnectedEdges(edges, id), (e: Edge) => e.target == id) == Filter(edges, (e: Edge) => e.target == id)
  {
    if edges != [] {
      FilterOfConnected(edges[1..], id);
    }
  }

  lemma {:induction false} MapFilterIsOnePass(id: Id, edges: seq<Edge>)
    ensures Map(Filter(edges, (e: Edge) => e.source == id), (e: Edge) => e.sourceHandle.GetOr(DefaultSourceHandleId))
         == SourceHandleIds(id, edges)
    ensures Map(Filter(edges, (e: Edge) => e.target == id), (e: Edge) => e.targetHandle.GetOr(DefaultTargetHandleId))
         == TargetHandleIds(id, edges)
  {
    if edges != [] {
      MapFilterIsOnePass(id, edges[1..]);
    }
  }

  /** The one-pass lists are what `getWorkflowNodeConnectedHandleIds` computes. */
  lemma HandleIdsMatchConnectedEdges(id: Id, edges: seq<Edge>)
    ensures SourceHandlesOfConnected(id, edges) == SourceHandleIds(id, edges)
    ensures TargetHandlesOfConnected(id, edges) == TargetHandleIds(id, edges)
  {
    FilterOfConnected(edges, id);
    MapFilterIsOnePass(id, edges);
  }

  /** One entry per leaving (entering) edge. */
  lemma {:induction false} HandleIdsCount(id: Id, edges: seq<Edge>)
    ensures |SourceHandleIds(id, edges)| == CountIf(edges, (e: Edge) => e.source == id)
    ensures |TargetHandleIds(id, edges)| == CountIf(edges, (e: Edge) => e.target == id)
  {
    if edges != [] {
      HandleIdsCount(id, edges[1..]);
    }
  }

  /** Appending edges appends their source handles. */
  lemma {:induction false} SourceHandleIdsAppend(id: Id, a: seq<Edge>, b: seq<Edge>)
    ensures SourceHandleIds(id, a + b) == SourceHandleIds(id, a) + SourceHandleIds(id, b)
  {
    if a == [] {
      assert a + b == b;
    } else {
      var here := if a[0].source == id then [a[0].sourceHandle.GetOr(DefaultSourceHandleId)] else [];
      TailOfAppend(a, b);
      SourceHandleIdsAppend(id, a[1..], b);
      assert SourceHandleIds(id, a + b) == here + SourceHandleIds(id, a[1..] + b);
      assert SourceHandleIds(id, a) == here + SourceHandleIds(id, a[1..]);
    }
  }

  /** Appending edges appends their target handles. */
  lemma {:induction false} TargetHandleIdsAppend(id: Id, a: seq<Edge>, b: seq<Edge>)
    ensures TargetHandleIds(id, a + b) == TargetHandleIds(id, a) + TargetHandleIds(id, b)
  {
    if a == [] {
      assert a + b == b;
    } else {
      var here := if a[0].target == id then [a[0].targetHandle.GetOr(DefaultTargetHandleId)] else [];
      TailOfAppend(a, b);
      TargetHandleIdsAppend(id, a[1..], b);
      assert TargetHandleIds(id, a + b) == here + TargetHandleIds(id, a[1..] + b);
      assert TargetHandleIds(id, a) == here + TargetHandleIds(id, a[1..]);
    }
  }

  lemma TailOfAppend<T>(a: seq<T>, b: seq<T>)
    requires a != []
    ensures (a + b)[0] == a[0] && (a + b)[1..] == a[1..] + b
  {
  }

  /** Two parallel edges on the same handle are both recorded. */
  lemma ParallelEdgesNotDeduplicated(id: Id, e: Edge)
    requires e.source == id
    ensures SourceHandleIds(id, [e, e]) == [e.sourceHandle.GetOr(DefaultSourceHandleId), e.sourceHandle.GetOr(DefaultSourceHandleId)]
  {
    assert [e, e][1..] == [e];
    assert [e][1..] == [];
    assert SourceHandleIds(id, [e]) == [e.sourceHandle.GetOr(DefaultSourceHandleId)];
  }

  /** A handle is listed exactly when some edge leaves the node through it. */
  lemma {:induction false} SourceHandleMembership(id: Id, edges: seq<Edge>, h: string)
    ensures h in SourceHandleIds(id, edges) <==>
      exists e :: e in edges && e.source == id && e.sourceHandle.GetOr(DefaultSourceHandleId) == h
  {
    if edges != [] {
      SourceHandleMembership(id, edges[1..], h);
      assert forall e :: e in edges <==> e == edges[0] || e in edges[1..];
    }
  }

  /** The default grid position of the `i`-th node. */
  function GridPosition(c: Constants, i: int): Position
  {
    Position(c.startPoint.x + i * c.nodeWidthAndXOffset, c.startPoint.y)
  }

  /** Whether `initializeWorkflowNodes` lays the nodes out on the default row: the first node has no position. */
  predicate NeedsDefaultPlacement(nodes: seq<Node>)
  {
    nodes == [] || nodes[0].position.None?
  }

  /** One node after `initializeWorkflowNodes`. */
  function InitializeNode(c: Constants, n: Node, i: nat, place: bool, sourceIds: seq<string>, targetIds: seq<string>): (r: Node)
    ensures r.id == n.id && r.parentId == n.parentId && r.kind == n.kind && r.title == n.title && r.selected == n.selected
    ensures place ==> r.position == Some(GridPosition(c, i))
    ensures !place ==> r.position == n.position
    ensures Truthy(n.renderType) ==> r.renderType == n.renderType
    ensures !Truthy(n.renderType) ==> r.renderType == Some(c.customNodeType)
    ensures r.sourceHandleIds == Some(sourceIds) && r.targetHandleIds == Some(targetIds)
  {
    n.(
      position := if place then Some(GridPosition(c, i)) else n.position,
      renderType := if Truthy(n.renderType) then n.renderType else Some(c.customNodeType),
      sourceHandleIds := Some(sourceIds),
      targetHandleIds := Some(targetIds))
  }

  /** The `map` over the nodes, from index `k` on. */
  function InitializeFrom(c: Constants, nodes: seq<Node>, edges: seq<Edge>, place: bool, k: nat): (r: seq<Node>)
    requires k <= |nodes|
    decreases |nodes| - k
    ensures |r| == |nodes| - k
  {
    if k == |nodes| then []
    else
      var n := nodes[k];
      [InitializeNode(c, n, k, place, SourceHandleIds(n.id, edges), TargetHandleIds(n.id, edges))]
        + InitializeFrom(c, nodes, edges, place, k + 1)
  }

  lemma {:induction false} InitializeFromAt(c: Constants, nodes: seq<Node>, edges: seq<Edge>, place: bool, k: nat, i: nat)
    requires k <= i < |nodes|
    decreases i - k
    ensures InitializeFrom(c, nodes, edges, place, k)[i - k]
         == InitializeNode(c, nodes[i], i, place, SourceHandleIds(nodes[i].id, edges), TargetHandleIds(nodes[i].id, edges))
  {
    if k < i {
      InitializeFromAt(c, nodes, edges, place, k + 1, i);
    }
  }

  /** `initializeWorkflowNodes`. */
  function InitializeNodes(c: Constants, nodes: seq<Node>, edges: seq<Edge>): (r: seq<Node>)
    ensures |r| == |nodes|
    ensures forall i :: 0 <= i < |nodes| ==>
      r[i].id == nodes[i].id && r[i].parentId == nodes[i].parentId && r[i].kind == nodes[i].kind
      && r[i].title == nodes[i].title && r[i].selected == nodes[i].selected
    ensures NeedsDefaultPlacement(nodes) ==>
      forall i :: 0 <= i < |nodes| ==> r[i].position == Some(GridPosition(c, i))
    ensures !NeedsDefaultPlacement(nodes) ==> forall i :: 0 <= i < |nodes| ==> r[i].position == nodes[i].position
    ensures forall i :: 0 <= i < |nodes| && Truthy(nodes[i].renderType) ==> r[i].renderType == nodes[i].renderType
    ensures forall i :: 0 <= i < |nodes| && !Truthy(nodes[i].renderType) ==> r[i].renderType == Some(c.customNodeType)
    ensures forall i :: 0 <= i < |nodes| ==>
      r[i].sourceHandleIds == Some(SourceHandleIds(nodes[i].id, edges))
      && r[i].targetHandleIds == Some(TargetHandleIds(nodes[i].id, edges))
    ensures forall i :: 0 <= i < |nodes| ==>
      r[i] == nodes[i].(position := r[i].position, renderType := r[i].renderType,
                        sourceHandleIds := r[i].sourceHandleIds, targetHandleIds := r[i].targetHandleIds)
  {
    var r := InitializeFrom(c, nodes, edges, NeedsDefaultPlacement(nodes), 0);
    forall i | 0 <= i < |nodes|
      ensures r[i] == InitializeNode(c, nodes[i], i, NeedsDefaultPlacement(nodes),
        SourceHandleIds(nodes[i].id, edges), TargetHandleIds(nodes[i].id, edges))
    {
      InitializeFromAt(c, nodes, edges, NeedsDefaultPlacement(nodes), 0, i);
    }
    r
  }

  /** With a positive offset the default row places the nodes left to right, on one line. */
  lemma DefaultRowIsOrdered(c: Constants, nodes: seq<Node>, edges: seq<Edge>, i: int, j: int)
    requires NeedsDefaultPlacement(nodes) && c.nodeWidthAndXOffset > 0
    requires 0 <= i < j < |nodes|
    ensures var r := InitializeNodes(c, nodes, edges);
      r[i].position.value.x < r[j].position.value.x && r[i].position.value.y == r[j].position.value.y
  {
    var r := InitializeNodes(c, nodes, edges);
    assert r[i].position == Some(GridPosition(c, i)) && r[j].position == Some(GridPosition(c, j));
    StepsAreIncreasing(i, j, c.nodeWidthAndXOffset);
  }

  lemma StepsAreIncreasing(i: int, j: int, step: int)
    requires i < j && step > 0
    ensures i * step < j * step
  {
    assert j * step - i * step == (j - i) * step;
  }
}

=== FILE: palette.dfy ===
/**
 * The component palette: for each block classification, the menu blocks of
 * that category whose title contains the search text (ignoring case), each
 * merged over the matching universe node when universe nodes are loaded.
 * Blocks and universe nodes are plain objects; the merge is object spread.
 */
module Palette {
  import opened Wrappers
  import opened Seqs
  import opened Json

  function Title(b: Obj): string
  {
    match Get(b, "title")
    case Some(Str(t)) => t
    case _ => ""
  }

  /** lodash `groupBy(blocks, 'categorization')[cat]`: the blocks of one category, in menu order. */
  function Category(blocks: seq<Obj>, cat: string): (r: seq<Obj>)
    ensures forall b :: b in r <==> b in blocks && Get(b, "categorization") == Some(Str(cat))
    ensures IsSubsequence(r, blocks)
  {
    Filter(blocks, (b: Obj) => Get(b, "categorization") == Some(Str(cat)))
  }

  /** The search filter: the lower-cased title contains the lower-cased search text. */
  predicate TitleMatches(b: Obj, search: string)
  {
    ContainsSub(Lower(Title(b)), Lower(search))
  }

  /** The blocks one classification lists before merging. */
  function Listed(blocks: seq<Obj>, cat: string, search: string): (r: seq<Obj>)
    ensures forall b :: b in r <==> b in blocks && Get(b, "categorization") == Some(Str(cat)) && TitleMatches(b, search)
    ensures IsSubsequence(r, Category(blocks, cat))
  {
    Filter(Category(blocks, cat), (b: Obj) => TitleMatches(b, search))
  }

  /** `universeNodes?.length` is truthy. */
  predicate HasUniverse(universe: Option<seq<Obj>>)
  {
    universe.Some? && |universe.value| > 0
  }

  /** The universe node a block is merged over: the first one with the block's name and type. */
  function Partner(universe: seq<Obj>, b: Obj): (r: Option<Obj>)
    ensures r.Some? ==> r.value in universe
    ensures r.Some? ==> Get(r.value, "name") == Get(b, "name") && Get(r.value, "type") == Get(b, "type")
    ensures r.None? <==> forall u :: u in universe ==> Get(u, "name") != Get(b, "name") || Get(u, "type") != Get(b, "type")
  {
    Find(universe, (u: Obj) => Get(u, "name") == Get(b, "name") && Get(u, "type") == Get(b, "type"))
  }

  /** One listed entry: the block itself, or `{ ...node, ...block }` when universe nodes are loaded. */
  function Entry(universe: Option<seq<Obj>>, b: Obj): (r: Obj)
    ensures !HasUniverse(universe) ==> r == b
    ensures forall k :: HasField(b, k) ==> Get(r, k) == Get(b, k)
    ensures HasUniverse(universe) ==> forall k :: !HasField(b, k) ==>
              Get(r, k) == match Partner(universe.value, b) case Some(u) => Get(u, k) case None => None
  {
    if HasUniverse(universe) then
      var node := Partner(universe.value, b).GetOr([]);
      Spread(node, b)
    else b
  }

  /** A block without a partner universe node is listed as an equal copy of itself. */
  lemma UnmatchedBlockUnchanged(universe: Option<seq<Obj>>, b: Obj)
    requires HasUniverse(universe) && Partner(universe.value, b).None?
    ensures Entry(universe, b) == b
  {
    FilterAll(b, (e: (string, Value)) => !HasField([], e.0));
    assert Overlay([], b) == [];
  }

  /** The list one classification shows. */
  function Shown(blocks: seq<Obj>, cat: string, search: string, universe: Option<seq<Obj>>): (r: seq<Obj>)
    ensures |r| == |Listed(blocks, cat, search)|
    ensures forall i :: 0 <= i < |r| ==> r[i] == Entry(universe, Listed(blocks, cat, search)[i])
  {
    Map(Listed(blocks, cat, search), (b: Obj) => Entry(universe, b))
  }

  /** Some classification has no menu block at all. */
  predicate MissingCategory(classifications: seq<string>, blocks: seq<Obj>)
  {
    exists i :: 0 <= i < |classifications| && Category(blocks, classifications[i]) == []
  }

  /**
   * The palette groups: one list per classification, or `None` where the
   * source throws because a classification has no block at all (lodash
   * `groupBy` then has no entry for it).
   */
  function Groups(classifications: seq<string>, blocks: seq<Obj>, search: string, universe: Option<seq<Obj>>)
    : (r: Option<map<string, seq<Obj>>>)
    ensures r.None? <==> MissingCategory(classifications, blocks)
    ensures r.Some? ==> forall cat :: cat in r.value <==> cat in classifications
    ensures r.Some? ==> forall cat :: cat in r.value ==> r.value[cat] == Shown(blocks, cat, search, universe)
    decreases |classifications|
  {
    if classifications == [] then Some(map[])
    else
      var pre := classifications[..|classifications| - 1];
      var cat := classifications[|classifications| - 1];
      var acc := Groups(pre, blocks, search, universe);
      MissingStep(classifications, blocks);
      if acc.None? then None
      else if Category(blocks, cat) == [] then None
      else Some(acc.value[cat := Shown(blocks, cat, search, universe)])
  }

  lemma MissingStep(classifications: seq<string>, blocks: seq<Obj>)
    requires classifications != []
    ensures var pre := classifications[..|classifications| - 1];
            var cat := classifications[|classifications| - 1];
            && (MissingCategory(classifications, blocks) <==> MissingCategory(pre, blocks) || Category(blocks, cat) == [])
            && (forall x :: x in classifications <==> x in pre || x == cat)
  {
    var pre := classifications[..|classifications| - 1];
    assert forall i :: 0 <= i < |pre| ==> pre[i] == classifications[i];
    assert classifications == pre + [classifications[|classifications| - 1]];
  }

  /** With an empty search every block of a category is listed, in menu order. */
  lemma EmptySearchListsWholeCategory(blocks: seq<Obj>, cat: string)
    ensures Listed(blocks, cat, "") == Category(blocks, cat)
  {
    forall b | b in Category(blocks, cat)
      ensures TitleMatches(b, "")
    {
      assert Lower("") == "";
      assert Lower("") <= Lower(Title(b));
    }
    FilterAll(Category(blocks, cat), (b: Obj) => TitleMatches(b, ""));
  }

  /** Without universe nodes the palette lists the filtered menu blocks themselves. */
  lemma NoUniverseListsBlocks(classifications: seq<string>, blocks: seq<Obj>, search: string, universe: Option<seq<Obj>>)
    requires !HasUniverse(universe)
    ensures var r := Groups(classifications, blocks, search, universe);
            r.Some? ==> forall cat :: cat in r.value ==> r.value[cat] == Listed(blocks, cat, search)
  {
    var r := Groups(classifications, blocks, search, universe);
    if r.Some? {
      forall cat | cat in r.value
        ensures r.value[cat] == Listed(blocks, cat, search)
      {
        var l := Listed(blocks, cat, search);
        assert Shown(blocks, cat, search, universe) == l;
      }
    }
  }
}

=== FILE: position_analyzer.dfy ===
/** `WorkflowPositionAnalyzer`: the bounding box of the positioned nodes, the
    viewport that shows it, and the nodes overlapping a region. Coordinates are
    integers here; the centre (a halving) is not modelled. */
module PositionAnalyzer {
  import opened Wrappers
  import opened Seqs
  import opened Graph

  /** The box extents of `getNodeBounds`; the four corners are built from these. */
  datatype Bounds = Bounds(minX: int, minY: int, maxX: int, maxY: int, width: int, height: int)

  datatype Region = Region(x: int, y: int, width: int, height: int)

  datatype Viewport = Viewport(x: int, y: int, zoom: int)

  /** The constructor's filter: nodes that carry a position. */
  function Positioned(nodes: seq<Node>): (r: seq<Node>)
    ensures forall n :: n in r <==> n in nodes && n.position.Some?
    ensures IsSubsequence(r, nodes)
  {
    Filter(nodes, (n: Node) => n.position.Some?)
  }

  /** `node.width || 200`: a missing or zero width counts as 200. */
  function BoxWidth(n: Node): (r: int)
    ensures r != 0
  {
    if n.width.Some? && n.width.value != 0 then n.width.value else 200
  }

  /** `node.height || 100`. */
  function BoxHeight(n: Node): (r: int)
    ensures r != 0
  {
    if n.height.Some? && n.height.value != 0 then n.height.value else 100
  }

  function Left(n: Node): int requires n.position.Some? { n.position.value.x }
  function Top(n: Node): int requires n.position.Some? { n.position.value.y }
  function Right(n: Node): int requires n.position.Some? { n.position.value.x + BoxWidth(n) }
  function Bottom(n: Node): int requires n.position.Some? { n.position.value.y + BoxHeight(n) }

  /** The smallest box holding every node of a non-empty list of positioned nodes. */
  function Extent(ps: seq<Node>): (r: Bounds)
    requires ps != [] && forall n :: n in ps ==> n.position.Some?
    ensures forall n :: n in ps ==> r.minX <= Left(n) && Right(n) <= r.maxX && r.minY <= Top(n) && Bottom(n) <= r.maxY
    ensures exists n :: n in ps && Left(n) == r.minX
    ensures exists n :: n in ps && Right(n) == r.maxX
    ensures exists n :: n in ps && Top(n) == r.minY
    ensures exists n :: n in ps && Bottom(n) == r.maxY
    ensures r.width == r.maxX - r.minX && r.height == r.maxY - r.minY
  {
    var n := ps[0];
    if |ps| == 1 then
      Bounds(Left(n), Top(n), Right(n), Bottom(n), Right(n) - Left(n), Bottom(n) - Top(n))
    else
      var b := Extent(ps[1..]);
      assert forall m :: m in ps <==> m == n || m in ps[1..];
      var minX, minY := Min(Left(n), b.minX), Min(Top(n), b.minY);
      var maxX, maxY := Max(Right(n), b.maxX), Max(Bottom(n), b.maxY);
      Bounds(minX, minY, maxX, maxY, maxX - minX, maxY - minY)
  }

  /** `getNodeBounds`: all zeros when no node has a position. */
  function NodeBounds(nodes: seq<Node>): (r: Bounds)
    ensures Positioned(nodes) == [] ==> r == Bounds(0, 0, 0, 0, 0, 0)
    ensures forall n :: n in nodes && n.position.Some? ==>
      r.minX <= Left(n) && Right(n) <= r.maxX && r.minY <= Top(n) && Bottom(n) <= r.maxY
    ensures Positioned(nodes) != [] ==>
      (exists n :: n in nodes && n.position.Some? && Left(n) == r.minX) &&
      (exists n :: n in nodes && n.position.Some? && Top(n) == r.minY)
    ensures Positioned(nodes) != [] ==>
      (exists n :: n in nodes && n.position.Some? && Right(n) == r.maxX) &&
      (exists n :: n in nodes && n.position.Some? && Bottom(n) == r.maxY)
    ensures r.width == r.maxX - r.minX && r.height == r.maxY - r.minY
  {
    var ps := Positioned(nodes);
    if ps == [] then Bounds(0, 0, 0, 0, 0, 0) else Extent(ps)
  }

  /** `getOptimalviewport(padding)`: the top-left corner pulled back by the padding, at zoom 1. */
  function OptimalViewport(nodes: seq<Node>, padding: int): (r: Viewport)
    ensures r.zoom == 1
    ensures forall n :: n in nodes && n.position.Some? ==> r.x + padding <= Left(n) && r.y + padding <= Top(n)
    ensures Positioned(nodes) == [] ==> r == Viewport(-padding, -padding, 1)
    ensures Positioned(nodes) != [] ==>
      (exists n :: n in nodes && n.position.Some? && Left(n) == r.x + padding) &&
      (exists n :: n in nodes && n.position.Some? && Top(n) == r.y + padding)
  {
    var b := NodeBounds(nodes);
    Viewport(b.minX - padding, b.minY - padding, 1)
  }

  /** The default padding of `getOptimalviewport`. */
  const DefaultPadding := 50

  /** A node's box and the region overlap or touch. */
  predicate Overlaps(n: Node, region: Region)
    requires n.position.Some?
  {
    !(Left(n) > region.x + region.width || Right(n) < region.x
      || Top(n) > region.y + region.height || Bottom(n) < region.y)
  }

  /** `findNodesInRegion`: the positioned nodes overlapping the region, in order. */
  function NodesInRegion(nodes: seq<Node>, region: Region): (r: seq<Node>)
    ensures forall n :: n in r <==> n in nodes && n.position.Some? && Overlaps(n, region)
    ensures IsSubsequence(r, Positioned(nodes))
  {
    Filter(Positioned(nodes), (n: Node) => n.position.Some? && Overlaps(n, region))
  }

  /** The region spanned by the bounds. */
  function BoundsRegion(b: Bounds): Region
  {
    Region(b.minX, b.minY, b.width, b.height)
  }

  /** With non-negative sizes, the region of the bounds finds every positioned node. */
  lemma BoundsRegionHoldsAll(nodes: seq<Node>)
    requires forall n :: n in nodes ==> BoxWidth(n) > 0 && BoxHeight(n) > 0
    ensures NodesInRegion(nodes, BoundsRegion(NodeBounds(nodes))) == Positioned(nodes)
  {
    var region := BoundsRegion(NodeBounds(nodes));
    var ps := Positioned(nodes);
    forall n | n in ps
      ensures n.position.Some? && Overlaps(n, region)
    {
    }
    FilterAll(ps, (n: Node) => n.position.Some? && Overlaps(n, region));
  }
}

=== FILE: rank_map.dfy ===
/**
 * The per-rank representative chosen by `organizeLayout` before it moves
 * the nodes: walking the node list in order, each layout-eligible node is
 * filed under its rank, replacing the node already there only when it sits
 * strictly higher (smaller `y`). The rank of each node comes from the dagre
 * layout, which is not part of this model; it is a parameter here.
 */
module RankMap {
  import opened Graph
  import opened Config
  import opened Layout

  /** Every eligible node has a position, as every canvas node does. */
  predicate Placed(c: Constants, nodes: seq<Node>)
  {
    forall n :: n in nodes && IsLayoutEligible(c, n) ==> n.position.Some?
  }

  function Y(n: Node): int
    requires n.position.Some?
  {
    n.position.value.y
  }

  /** Some eligible node of the list has rank `k`. */
  ghost predicate RankUsed(c: Constants, nodes: seq<Node>, rank: Id -> int, k: int)
  {
    exists j :: 0 <= j < |nodes| && IsLayoutEligible(c, nodes[j]) && rank(nodes[j].id) == k
  }

  /**
   * `w` is the representative of rank `k`: an eligible node of that rank
   * with the smallest `y`, and the first such node in list order.
   */
  ghost predicate Representative(c: Constants, nodes: seq<Node>, rank: Id -> int, k: int, w: Node)
    requires Placed(c, nodes)
  {
    exists i :: 0 <= i < |nodes| && nodes[i] == w && IsLayoutEligible(c, w) && rank(w.id) == k &&
      forall j :: 0 <= j < |nodes| && IsLayoutEligible(c, nodes[j]) && rank(nodes[j].id) == k ==>
        Y(w) <= Y(nodes[j]) && (j < i ==> Y(w) < Y(nodes[j]))
  }

  ghost predicate RanksOk(c: Constants, nodes: seq<Node>, rank: Id -> int, r: map<int, Node>)
    requires Placed(c, nodes)
  {
    && (forall k :: k in r <==> RankUsed(c, nodes, rank, k))
    && (forall k :: k in r ==> r[k] in nodes && IsLayoutEligible(c, r[k]) && Representative(c, nodes, rank, k, r[k]))
  }

  /** One step of the `forEach`: file `n` under its rank when it is eligible. */
  function File(c: Constants, rank: Id -> int, m: map<int, Node>, n: Node): (r: map<int, Node>)
    requires IsLayoutEligible(c, n) ==> n.position.Some?
    requires forall k :: k in m ==> m[k].position.Some?
    ensures forall k :: k in r ==> r[k].position.Some?
  {
    if !IsLayoutEligible(c, n) then m
    else
      var k := rank(n.id);
      if k !in m then m[k := n]
      else if Y(m[k]) > Y(n) then m[k := n]
      else m
  }

  /** The rank map `organizeLayout` builds: one representative node per rank. */
  function Ranks(c: Constants, nodes: seq<Node>, rank: Id -> int): (r: map<int, Node>)
    requires Placed(c, nodes)
    ensures forall k :: k in r <==> RankUsed(c, nodes, rank, k)
    ensures forall k :: k in r ==> r[k] in nodes && Representative(c, nodes, rank, k, r[k])
    decreases |nodes|
  {
    if nodes == [] then map[]
    else
      var pre := nodes[..|nodes| - 1];
      var n := nodes[|nodes| - 1];
      assert forall x :: x in pre ==> x in nodes;
      var m := Ranks(c, pre, rank);
      var r := File(c, rank, m, n);
      FileStep(c, nodes, rank, m, r);
      r
  }

  lemma FileStep(c: Constants, nodes: seq<Node>, rank: Id -> int, m: map<int, Node>, r: map<int, Node>)
    requires Placed(c, nodes) && nodes != []
    requires Placed(c, nodes[..|nodes| - 1]) && RanksOk(c, nodes[..|nodes| - 1], rank, m)
    requires forall k :: k in m ==> m[k].position.Some?
    requires r == File(c, rank, m, nodes[|nodes| - 1])
    ensures RanksOk(c, nodes, rank, r)
  {
    var pre := nodes[..|nodes| - 1];
    var last := |nodes| - 1;
    var n := nodes[last];
    forall k
      ensures k in r <==> RankUsed(c, nodes, rank, k)
    {
      if RankUsed(c, pre, rank, k) {
        var j :| 0 <= j < |pre| && IsLayoutEligible(c, pre[j]) && rank(pre[j].id) == k;
        assert nodes[j] == pre[j];
      }
      if RankUsed(c, nodes, rank, k) {
        var j :| 0 <= j < |nodes| && IsLayoutEligible(c, nodes[j]) && rank(nodes[j].id) == k;
        if j < last {
          assert pre[j] == nodes[j];
        }
      }
    }
    forall k | k in r
      ensures r[k] in nodes && IsLayoutEligible(c, r[k]) && Representative(c, nodes, rank, k, r[k])
    {
      KeyStep(c, nodes, rank, m, r, k);
    }
  }

  lemma KeyStep(c: Constants, nodes: seq<Node>, rank: Id -> int, m: map<int, Node>, r: map<int, Node>, k: int)
    requires Placed(c, nodes) && nodes != []
    requires Placed(c, nodes[..|nodes| - 1]) && RanksOk(c, nodes[..|nodes| - 1], rank, m)
    requires forall k :: k in m ==> m[k].position.Some?
    requires r == File(c, rank, m, nodes[|nodes| - 1]) && k in r
    ensures r[k] in nodes && IsLayoutEligible(c, r[k]) && Representative(c, nodes, rank, k, r[k])
  {
    var n := nodes[|nodes| - 1];
    if IsLayoutEligible(c, n) && rank(n.id) == k && (k !in m || Y(m[k]) > Y(n)) {
      assert r[k] == n;
      NewRepresentative(c, nodes, rank, m, k);
    } else {
      assert k in m && r[k] == m[k];
      KeptRepresentative(c, nodes, rank, m, k);
    }
  }

  /** The last node displaces the rank's representative (or is the first of its rank). */
  lemma NewRepresentative(c: Constants, nodes: seq<Node>, rank: Id -> int, m: map<int, Node>, k: int)
    requires Placed(c, nodes) && nodes != []
    requires Placed(c, nodes[..|nodes| - 1]) && RanksOk(c, nodes[..|nodes| - 1], rank, m)
    requires var n := nodes[|nodes| - 1];
      IsLayoutEligible(c, n) && rank(n.id) == k && (k !in m || Y(m[k]) > Y(n))
    ensures Representative(c, nodes, rank, k, nodes[|nodes| - 1])
  {
    var pre := nodes[..|nodes| - 1];
    var last := |nodes| - 1;
    var n := nodes[last];
    forall j | 0 <= j < |nodes| && IsLayoutEligible(c, nodes[j]) && rank(nodes[j].id) == k
      ensures Y(n) <= Y(nodes[j]) && (j < last ==> Y(n) < Y(nodes[j]))
    {
      if j < last {
        assert pre[j] == nodes[j];
        assert RankUsed(c, pre, rank, k);
        var w := m[k];
        var i :| 0 <= i < |pre| && pre[i] == w && IsLayoutEligible(c, w) && rank(w.id) == k &&
          forall j :: 0 <= j < |pre| && IsLayoutEligible(c, pre[j]) && rank(pre[j].id) == k ==>
            Y(w) <= Y(pre[j]) && (j < i ==> Y(w) < Y(pre[j]));
        assert Y(w) <= Y(pre[j]);
      }
    }
  }

  /** The rank's earlier representative stays. */
  lemma KeptRepresentative(c: Constants, nodes: seq<Node>, rank: Id -> int, m: map<int, Node>, k: int)
    requires Placed(c, nodes) && nodes != []
    requires Placed(c, nodes[..|nodes| - 1]) && RanksOk(c, nodes[..|nodes| - 1], rank, m)
    requires k in m
    requires var n := nodes[|nodes| - 1];
      IsLayoutEligible(c, n) && rank(n.id) == k ==> Y(m[k]) <= Y(n)
    ensures m[k] in nodes && IsLayoutEligible(c, m[k]) && Representative(c, nodes, rank, k, m[k])
  {
    var pre := nodes[..|nodes| - 1];
    var last := |nodes| - 1;
    var w := m[k];
    var i :| 0 <= i < |pre| && pre[i] == w && IsLayoutEligible(c, w) && rank(w.id) == k &&
      forall j :: 0 <= j < |pre| && IsLayoutEligible(c, pre[j]) && rank(pre[j].id) == k ==>
        Y(w) <= Y(pre[j]) && (j < i ==> Y(w) < Y(pre[j]));
    assert nodes[i] == w;
    forall j | 0 <= j < |nodes| && IsLayoutEligible(c, nodes[j]) && rank(nodes[j].id) == k
      ensures Y(w) <= Y(nodes[j]) && (j < i ==> Y(w) < Y(nodes[j]))
    {
      if j < last {
        assert pre[j] == nodes[j];
      }
    }
  }

  /** A rank has at most one representative, so the map is fully determined. */
  lemma RepresentativeUnique(c: Constants, nodes: seq<Node>, rank: Id -> int, k: int, w1: Node, w2: Node)
    requires Placed(c, nodes)
    requires Representative(c, nodes, rank, k, w1) && Representative(c, nodes, rank, k, w2)
    ensures w1 == w2
  {
    var i1 :| 0 <= i1 < |nodes| && nodes[i1] == w1 && IsLayoutEligible(c, w1) && rank(w1.id) == k &&
      forall j :: 0 <= j < |nodes| && IsLayoutEligible(c, nodes[j]) && rank(nodes[j].id) == k ==>
        Y(w1) <= Y(nodes[j]) && (j < i1 ==> Y(w1) < Y(nodes[j]));
    var i2 :| 0 <= i2 < |nodes| && nodes[i2] == w2 && IsLayoutEligible(c, w2) && rank(w2.id) == k &&
      forall j :: 0 <= j < |nodes| && IsLayoutEligible(c, nodes[j]) && rank(nodes[j].id) == k ==>
        Y(w2) <= Y(nodes[j]) && (j < i2 ==> Y(w2) < Y(nodes[j]));
    assert i1 == i2;
  }
}

=== FILE: read_only.dfy ===
/**
 * `useReadonlyNodes`: whether the canvas may be edited, and the warning
 * shown when it may not. Everything the hook reads from stores, contexts
 * and the permission service is a field of `Session`.
 */
module ReadOnly {
  import opened Wrappers
  import opened Graph

  datatype Session = Session(
    createdBy: Option<string>,         // the draft's `created_by`
    administratorId: string,
    userId: Option<string>,            // the signed-in user's id
    hasPermit: bool,                   // the answer of the `AUTH_3002` permission check
    coopAppIds: Option<seq<string>>,   // the team's co-operation app ids, when loaded
    patentAppId: Option<string>,
    appId: Option<string>,
    patentKind: Option<string>,
    historyStackCount: Option<int>,    // `historyStacks?.length`
    debugStatus: Option<string>,       // 'stop' | 'starting' | 'start' | 'error'
    running: bool,                     // the live run's status is Running
    hasHistoryData: bool,              // a history snapshot is displayed
    isRestoring: bool)

  const AppCanvasText := "画布类型为应用，不可操作"
  const NoAuthText := "没有权限"
  const DebugRunningText := "调试正在运行中，不可操作"
  const DebugStartingText := "正在启动调试，不可操作"
  const RunningText := "正在运行中，不可操作"

  /** The draft was created by the administrator. */
  predicate IsBuiltIn(s: Session)
  {
    s.createdBy == Some(s.administratorId)
  }

  /** A built-in draft is editable only by the administrator; any other by its author or a permitted user. */
  predicate HasAuth(s: Session)
  {
    if IsBuiltIn(s) then Some(s.administratorId) == s.userId
    else (Truthy(s.createdBy) && s.createdBy == s.userId) || s.hasPermit
  }

  /** `patentAppId || appId`. */
  function TeamAppId(s: Session): Option<string>
  {
    if Truthy(s.patentAppId) then s.patentAppId else s.appId
  }

  /** Locked for the team: no authority, and a loaded co-operation list that lacks the app. */
  predicate IsTeamLock(s: Session)
  {
    && !HasAuth(s)
    && s.coopAppIds.Some?
    && !(TeamAppId(s).Some? && TeamAppId(s).value in s.coopAppIds.value)
  }

  /** A debug session is live: fewer than two history stacks and a status other than stop or error. */
  predicate DebugLive(s: Session)
  {
    && !(s.historyStackCount.Some? && s.historyStackCount.value >= 2)
    && Truthy(s.debugStatus)
    && s.debugStatus != Some("stop")
    && s.debugStatus != Some("error")
  }

  predicate IsProcessLock(s: Session)
  {
    s.patentKind == Some("App") || IsTeamLock(s) || DebugLive(s)
  }

  predicate IsReadOnly(s: Session)
  {
    s.running || s.hasHistoryData || s.isRestoring || IsProcessLock(s)
  }

  /** `getNodesCheckDetails().warnText`. */
  function WarnText(s: Session): (r: string)
    ensures r == "" <==> !IsReadOnly(s)
    ensures s.patentKind == Some("App") ==> r == AppCanvasText
    ensures r == NoAuthText <==> s.patentKind != Some("App") && IsTeamLock(s)
    ensures r == DebugRunningText ==> DebugLive(s) || s.running || s.hasHistoryData || s.isRestoring
    ensures r in {"", AppCanvasText, NoAuthText, DebugRunningText, DebugStartingText, RunningText}
  {
    if !IsReadOnly(s) then ""
    else if s.patentKind == Some("App") then AppCanvasText
    else if IsTeamLock(s) then NoAuthText
    else if s.debugStatus == Some("start") then DebugRunningText
    else if s.debugStatus == Some("starting") then DebugStartingText
    else RunningText
  }

  /** Whoever may edit is never locked out as a team member. */
  lemma AuthorizedNotTeamLocked(s: Session)
    ensures HasAuth(s) ==> !IsTeamLock(s)
    ensures IsTeamLock(s) ==> IsReadOnly(s)
  {
  }

  /** On a built-in draft only the administrator has authority; the permission check does not count. */
  lemma BuiltInIgnoresPermit(s: Session)
    requires IsBuiltIn(s)
    ensures HasAuth(s) <==> s.userId == Some(s.administratorId)
  {
  }

  /**
   * With neither an app canvas nor a team lock, a read-only canvas shows the
   * debug text that matches the debug status, and the generic text otherwise.
   */
  lemma WarnFollowsDebugStatus(s: Session)
    requires IsReadOnly(s) && s.patentKind != Some("App") && !IsTeamLock(s)
    ensures s.debugStatus == Some("start") ==> WarnText(s) == DebugRunningText
    ensures s.debugStatus == Some("starting") ==> WarnText(s) == DebugStartingText
    ensures s.debugStatus != Some("start") && s.debugStatus != Some("starting") ==> WarnText(s) == RunningText
  {
  }

  /** A live debug session locks the canvas even when nothing else does. */
  lemma LiveDebugLocks(s: Session)
    requires s.debugStatus == Some("starting") && s.historyStackCount.None?
    ensures IsReadOnly(s)
    ensures s.patentKind != Some("App") && !IsTeamLock(s) ==> WarnText(s) == DebugStartingText
  {
  }
}

=== FILE: seqs.dfy ===
/** Sequence and string helpers shared by the workflow modules: the array
    methods the editor relies on (`filter`, `indexOf`, `splice`, lodash `uniqBy`)
    and the few string operations it uses. */
module Seqs {
  import opened Wrappers


  /** `s` embeds into `t` in order (greedy leftmost matching). */
  predicate IsSubsequence<T(==)>(s: seq<T>, t: seq<T>)
    decreases |t|
  {
    if s == [] then true
    else if t == [] then false
    else if s[0] == t[0] then IsSubsequence(s[1..], t[1..])
    else IsSubsequence(s, t[1..])
  }

  /** A subsequence is no longer than the sequence it embeds into. */
  lemma {:induction false} IsSubsequenceLength<T>(s: seq<T>, t: seq<T>)
    requires IsSubsequence(s, t)
    ensures |s| <= |t|
    decreases |t|
  {
    if s != [] {
      if s[0] == t[0] {
        IsSubsequenceLength(s[1..], t[1..]);
      } else {
        IsSubsequenceLength(s, t[1..]);
      }
    }
  }

  /** `Array.prototype.filter`: the elements satisfying `p`, in their original order. */
  function Filter<T(==)>(s: seq<T>, p: T -> bool): (r: seq<T>)
    ensures |r| <= |s|
    ensures forall x :: x in r ==> x in s && p(x)
    ensures forall x :: x in s && p(x) ==> x in r
    ensures IsSubsequence(r, s)
  {
    if s == [] then []
    else if p(s[0]) then [s[0]] + Filter(s[1..], p)
    else Filter(s[1..], p)
  }

  lemma {:induction false} FilterAppend<T>(a: seq<T>, b: seq<T>, p: T -> bool)
    ensures Filter(a + b, p) == Filter(a, p) + Filter(b, p)
  {
    if a == [] {
      assert a + b == b;
    } else {
      assert (a + b)[1..] == a[1..] + b;
      FilterAppend(a[1..], b, p);
    }
  }

  /** Filtering with a predicate that holds everywhere keeps the sequence. */
  lemma {:induction false} FilterAll<T>(s: seq<T>, p: T -> bool)
    requires forall x :: x in s ==> p(x)
    ensures Filter(s, p) == s
  {
    if s != [] {
      FilterAll(s[1..], p);
    }
  }

  /** Filtering out an element that fails `p` makes the sequence strictly shorter. */
  lemma {:induction false} FilterDrops<T>(s: seq<T>, p: T -> bool, x: T)
    requires x in s && !p(x)
    ensures |Filter(s, p)| < |s|
  {
    if s[0] != x {
      FilterDrops(s[1..], p, x);
    }
  }

  /** Number of elements satisfying `p`. */
  function CountIf<T(==)>(s: seq<T>, p: T -> bool): nat
  {
    |Filter(s, p)|
  }

  /** `Array.prototype.indexOf`: the first index of `x`, or -1. */
  function IndexOf<T(==)>(s: seq<T>, x: T): (i: int)
    ensures -1 <= i < |s|
    ensures i == -1 <==> x !in s
    ensures 0 <= i ==> s[i] == x && x !in s[..i]
  {
    if s == [] then -1
    else if s[0] == x then 0
    else
      var j := IndexOf(s[1..], x);
      assert j >= 0 ==> s[..j + 1] == [s[0]] + s[1..][..j];
      if j == -1 then -1 else j + 1
  }

  /** `splice(indexOf(x), 1)` guarded by `indexOf(x) !== -1`: drops the first occurrence of `x`. */
  function RemoveFirst<T(==)>(s: seq<T>, x: T): (r: seq<T>)
    ensures x !in s ==> r == s
    ensures x in s ==> |r| == |s| - 1
  {
    var i := IndexOf(s, x);
    if i == -1 then s else s[..i] + s[i + 1..]
  }

  predicate NoDup<T(==)>(s: seq<T>)
  {
    forall i, j :: 0 <= i < j < |s| ==> s[i] != s[j]
  }

  /** The set of elements of a sequence. */
  function Elems<T>(s: seq<T>): set<T>
  {
    set x | x in s
  }

  /** lodash `uniqBy`: the first element for each key, in order, skipping keys in `seen`. */
  function UniqByFrom<T(==), K(==)>(s: seq<T>, key: T -> K, seen: set<K>): (r: seq<T>)
    ensures forall x :: x in r ==> x in s && key(x) !in seen
    ensures forall x :: x in s && key(x) !in seen ==> HasKey(r, key, key(x))
    ensures forall i, j :: 0 <= i < j < |r| ==> key(r[i]) != key(r[j])
    ensures IsSubsequence(r, s)
  {
    if s == [] then []
    else if key(s[0]) in seen then UniqByFrom(s[1..], key, seen)
    else [s[0]] + UniqByFrom(s[1..], key, seen + {key(s[0])})
  }

  function UniqBy<T(==), K(==)>(s: seq<T>, key: T -> K): (r: seq<T>)
    ensures forall x :: x in r ==> x in s
    ensures forall x :: x in s ==> HasKey(r, key, key(x))
    ensures forall i, j :: 0 <= i < j < |r| ==> key(r[i]) != key(r[j])
    ensures IsSubsequence(r, s)
  {
    UniqByFrom(s, key, {})
  }

  /** Some element of `s` has key `k`. */
  predicate HasKey<T(==), K(==)>(s: seq<T>, key: T -> K, k: K)
  {
    exists y :: y in s && key(y) == k
  }

  function Reverse<T>(s: seq<T>): (r: seq<T>)
    ensures |r| == |s|
    ensures forall i :: 0 <= i < |s| ==> r[i] == s[|s| - 1 - i]
  {
    if s == [] then [] else Reverse(s[1..]) + [s[0]]
  }

  function Max(a: int, b: int): int
  {
    if a < b then b else a
  }

  function Min(a: int, b: int): int
  {
    if a < b then a else b
  }

  /** `text.includes(pat)`. */
  predicate ContainsSub(text: string, pat: string)
  {
    pat <= text || (text != [] && ContainsSub(text[1..], pat))
  }

  /** `toLowerCase` restricted to the ASCII letters. */
  function LowerChar(c: char): char
  {
    if 'A' <= c <= 'Z' then (c as int + 32) as char else c
  }

  function Lower(s: string): (r: string)
    ensures |r| == |s|
    ensures forall i :: 0 <= i < |s| ==> r[i] == LowerChar(s[i])
  {
    if s == [] then [] else [LowerChar(s[0])] + Lower(s[1..])
  }

  /** `parts.join(sep)`. */
  function Join(parts: seq<string>, sep: string): string
  {
    if parts == [] then ""
    else if |parts| == 1 then parts[0]
    else parts[0] + sep + Join(parts[1..], sep)
  }

  /** Decimal rendering of a natural number (template-literal interpolation). */
  function NatToString(n: nat): (r: string)
    ensures |r| >= 1
  {
    if n < 10 then [Digit(n)] else NatToString(n / 10) + [Digit(n % 10)]
  }

  function Digit(d: nat): char
    requires d < 10
  {
    "0123456789"[d]
  }

  /** `Array.prototype.map`. */
  function Map<T, U>(s: seq<T>, f: T -> U): (r: seq<U>)
    ensures |r| == |s|
    ensures forall i :: 0 <= i < |s| ==> r[i] == f(s[i])
  {
    if s == [] then [] else [f(s[0])] + Map(s[1..], f)
  }

  /** The image of a sequence holds exactly the images of its elements. */
  lemma MapMembership<T, U>(s: seq<T>, f: T -> U)
    ensures forall y :: y in Map(s, f) <==> exists x :: x in s && y == f(x)
  {
    var r := Map(s, f);
    forall y | y in r
      ensures exists x :: x in s && y == f(x)
    {
      var i :| 0 <= i < |r| && r[i] == y;
      assert s[i] in s;
    }
    forall x | x in s
      ensures f(x) in r
    {
      var i :| 0 <= i < |s| && s[i] == x;
      assert r[i] == f(x);
    }
  }

  /** A subsequence of the tail is a subsequence of the whole. */
  lemma {:induction false} SubsequenceOfLonger<T>(s: seq<T>, t: seq<T>)
    requires t != [] && IsSubsequence(s, t[1..])
    ensures IsSubsequence(s, t)
    decreases |t|, |s|
  {
    if s != [] && s[0] == t[0] {
      SubsequenceDropHead(s, t[1..]);
    }
  }

  /** Dropping the first element keeps a subsequence a subsequence. */
  lemma {:induction false} SubsequenceDropHead<T>(s: seq<T>, t: seq<T>)
    requires s != [] && IsSubsequence(s, t)
    ensures IsSubsequence(s[1..], t)
    decreases |t|, |s|
  {
    if s[0] != t[0] {
      SubsequenceDropHead(s, t[1..]);
    }
    SubsequenceOfLonger(s[1..], t);
  }

  /** Mapping both sides keeps the embedding. */
  lemma {:induction false} MapSubsequence<T, U>(s: seq<T>, t: seq<T>, f: T -> U)
    requires IsSubsequence(s, t)
    ensures IsSubsequence(Map(s, f), Map(t, f))
    decreases |t|
  {
    if s != [] {
      assert Map(t, f)[1..] == Map(t[1..], f);
      if s[0] == t[0] {
        MapSubsequence(s[1..], t[1..], f);
        assert Map(s, f)[1..] == Map(s[1..], f);
      } else {
        MapSubsequence(s, t[1..], f);
        SubsequenceOfLonger(Map(s, f), Map(t, f));
      }
    }
  }

  /** The last element satisfying `p`: what a loop that overwrites a variable on every match leaves behind. */
  function Last<T>(s: seq<T>, p: T -> bool): (r: Option<T>)
    ensures r.None? <==> forall x :: x in s ==> !p(x)
    ensures r.Some? ==> r.value in s && p(r.value)
  {
    if s == [] then None
    else if p(s[|s| - 1]) then Some(s[|s| - 1])
    else
      var r := Last(s[..|s| - 1], p);
      assert forall x :: x in s ==> x in s[..|s| - 1] || x == s[|s| - 1];
      r
  }

  /** An element appended after all others wins when it matches, and is transparent otherwise. */
  lemma LastAppend<T>(s: seq<T>, x: T, p: T -> bool)
    ensures p(x) ==> Last(s + [x], p) == Some(x)
    ensures !p(x) ==> Last(s + [x], p) == Last(s, p)
  {
    assert (s + [x])[..|s|] == s;
  }

  /** `Array.prototype.find`: the first element satisfying `p`. */
  function Find<T(==)>(s: seq<T>, p: T -> bool): (r: Option<T>)
    ensures r.None? <==> forall x :: x in s ==> !p(x)
    ensures r.Some? ==> r.value in s && p(r.value)
    ensures r.Some? ==> exists i :: 0 <= i < |s| && s[i] == r.value && forall j :: 0 <= j < i ==> !p(s[j])
  {
    if s == [] then None
    else if p(s[0]) then Some(s[0])
    else
      var r := Find(s[1..], p);
      assert forall x :: x in s ==> x == s[0] || x in s[1..];
      if r.Some? then
        var i :| 0 <= i < |s[1..]| && s[1..][i] == r.value && forall j :: 0 <= j < i ==> !p(s[1..][j]);
        assert s[i + 1] == r.value;
        assert forall j :: 0 <= j < i + 1 ==> !p(s[j]) by {
          forall j | 0 <= j < i + 1
            ensures !p(s[j])
          {
            if j > 0 {
              assert s[j] == s[1..][j - 1];
            }
          }
        }
        r
      else r
  }

  /** `s.replace(pat, repl)` with a string pattern: only the first occurrence is replaced. */
  function ReplaceFirst(s: string, pat: string, repl: string): (r: string)
    requires pat != []
    ensures !ContainsSub(s, pat) ==> r == s
    ensures ContainsSub(s, pat) ==> |r| == |s| - |pat| + |repl|
    decreases |s|
  {
    if pat <= s then repl + s[|pat|..]
    else if s == [] then s
    else [s[0]] + ReplaceFirst(s[1..], pat, repl)
  }
}

=== FILE: tool_validator.dfy ===
/** `WorkflowToolValidator`: locating a tool node's collection and tool among
    the three tool inventories, the validation errors, the authorization
    status and the reported metadata. */
module ToolValidator {
  import opened Wrappers
  import opened Seqs
  import opened Graph
  import opened Config

  /** The fields of a tool node the validator reads; `None` is an absent field. */
  datatype ToolData = ToolData(providerId: Option<string>, providerType: Option<string>, toolName: Option<string>)

  datatype Tool = Tool(name: string, version: Option<string>)

  /** A tool collection (`ToolWithProvider`). */
  datatype Collection = Collection(id: string, tools: seq<Tool>, allowDelete: bool, isTeamAuthorization: bool)

  datatype Inventories = Inventories(builtin: seq<Collection>, custom: seq<Collection>, workflow: seq<Collection>)

  /** `getToolsArrayByType`: built-in and custom by name, every other value (absent included) the workflow tools. */
  function ToolsByType(c: Constants, inv: Inventories, providerType: Option<string>): (r: seq<Collection>)
    ensures providerType == Some(c.builtinProvider) ==> r == inv.builtin
    ensures providerType != Some(c.builtinProvider) && providerType == Some(c.customProvider) ==> r == inv.custom
    ensures providerType != Some(c.builtinProvider) && providerType != Some(c.customProvider) ==> r == inv.workflow
  {
    if providerType == Some(c.builtinProvider) then inv.builtin
    else if providerType == Some(c.customProvider) then inv.custom
    else inv.workflow
  }

  /** `getToolInventory`: the first collection of the right type whose id is the provider id. */
  function Inventory(c: Constants, inv: Inventories, d: ToolData): (r: Option<Collection>)
    ensures r.Some? ==> r.value in ToolsByType(c, inv, d.providerType) && Some(r.value.id) == d.providerId
    ensures r.None? <==> forall k :: k in ToolsByType(c, inv, d.providerType) ==> Some(k.id) != d.providerId
  {
    Find(ToolsByType(c, inv, d.providerType), (k: Collection) => Some(k.id) == d.providerId)
  }

  /** `findTargetTool`: the first tool of that collection carrying the tool name. */
  function TargetTool(c: Constants, inv: Inventories, d: ToolData): (r: Option<Tool>)
    ensures Inventory(c, inv, d).None? ==> r.None?
    ensures r.Some? ==> r.value in Inventory(c, inv, d).value.tools && Some(r.value.name) == d.toolName
    ensures Inventory(c, inv, d).Some? ==>
      (r.None? <==> forall t :: t in Inventory(c, inv, d).value.tools ==> Some(t.name) != d.toolName)
  {
    match Inventory(c, inv, d)
    case None => None
    case Some(k) => Find(k.tools, (t: Tool) => Some(t.name) == d.toolName)
  }

  datatype ToolError =
    | MissingProviderId
    | MissingProviderType
    | MissingToolName
    | CollectionNotFound(providerId: Option<string>)
    | ToolNotFound(toolName: Option<string>)

  /** Position of each error in the order the checks run. */
  function Rank(e: ToolError): nat
  {
    match e
    case MissingProviderId => 0
    case MissingProviderType => 1
    case MissingToolName => 2
    case CollectionNotFound(_) => 3
    case ToolNotFound(_) => 4
  }

  /** Template-literal rendering of an optional string. */
  function Shown(s: Option<string>): string
  {
    if s.Some? then s.value else "undefined"
  }

  /** The message pushed for each error. */
  function Message(e: ToolError): string
  {
    match e
    case MissingProviderId => "缺少 provider_id"
    case MissingProviderType => "缺少 provider_type"
    case MissingToolName => "缺少 tool_name"
    case CollectionNotFound(p) => "找不到工具集合: " + Shown(p)
    case ToolNotFound(t) => "找不到工具: " + Shown(t)
  }

  /** The candidate errors, in check order, whose check failed. */
  function Failed(fails: seq<bool>, all: seq<ToolError>): (r: seq<ToolError>)
    requires |fails| == |all|
    requires forall i, j :: 0 <= i < j < |all| ==> Rank(all[i]) < Rank(all[j])
    ensures forall i :: 0 <= i < |all| ==> (all[i] in r <==> fails[i])
    ensures forall e :: e in r ==> e in all
    ensures forall e :: e in r ==> Rank(all[0]) <= Rank(e)
    ensures forall i, j :: 0 <= i < j < |r| ==> Rank(r[i]) < Rank(r[j])
  {
    if all == [] then []
    else
      var rest := Failed(fails[1..], all[1..]);
      FailedStep(fails, all, rest);
      if fails[0] then [all[0]] + rest else rest
  }

  lemma FailedStep(fails: seq<bool>, all: seq<ToolError>, rest: seq<ToolError>)
    requires |fails| == |all| && all != []
    requires forall i, j :: 0 <= i < j < |all| ==> Rank(all[i]) < Rank(all[j])
    requires forall i :: 0 <= i < |all| - 1 ==> (all[1..][i] in rest <==> fails[1..][i])
    requires forall e :: e in rest ==> e in all[1..]
    requires forall i, j :: 0 <= i < j < |rest| ==> Rank(rest[i]) < Rank(rest[j])
    ensures forall e :: e in rest ==> Rank(all[0]) < Rank(e)
    ensures var r := if fails[0] then [all[0]] + rest else rest;
      && (forall i :: 0 <= i < |all| ==> (all[i] in r <==> fails[i]))
      && (forall e :: e in r ==> e in all)
      && (forall e :: e in r ==> Rank(all[0]) <= Rank(e))
      && (forall i, j :: 0 <= i < j < |r| ==> Rank(r[i]) < Rank(r[j]))
  {
    RestAboveHead(all, rest);
    var r := if fails[0] then [all[0]] + rest else rest;
    FailedMembership(fails, all, rest, r);
    FailedOrder(all[0], rest, r, fails[0]);
    assert forall e :: e in all[1..] ==> e in all;
  }

  /** The errors left after the first candidate all rank above it. */
  lemma RestAboveHead(all: seq<ToolError>, rest: seq<ToolError>)
    requires all != []
    requires forall i, j :: 0 <= i < j < |all| ==> Rank(all[i]) < Rank(all[j])
    requires forall e :: e in rest ==> e in all[1..]
    ensures forall e :: e in rest ==> Rank(all[0]) < Rank(e)
  {
    forall e | e in rest
      ensures Rank(all[0]) < Rank(e)
    {
      var k :| 0 <= k < |all[1..]| && all[1..][k] == e;
      assert e == all[k + 1];
    }
  }

  lemma FailedMembership(fails: seq<bool>, all: seq<ToolError>, rest: seq<ToolError>, r: seq<ToolError>)
    requires |fails| == |all| && all != []
    requires forall i, j :: 0 <= i < j < |all| ==> Rank(all[i]) < Rank(all[j])
    requires forall i :: 0 <= i < |all| - 1 ==> (all[1..][i] in rest <==> fails[1..][i])
    requires forall e :: e in rest ==> Rank(all[0]) < Rank(e)
    requires r == if fails[0] then [all[0]] + rest else rest
    ensures forall i :: 0 <= i < |all| ==> (all[i] in r <==> fails[i])
  {
    forall i | 0 <= i < |all|
      ensures all[i] in r <==> fails[i]
    {
      if i > 0 {
        assert all[i] == all[1..][i - 1] && fails[i] == fails[1..][i - 1];
        assert Rank(all[0]) < Rank(all[i]);
      } else {
        assert all[0] !in rest;
      }
    }
  }

  lemma FailedOrder(head: ToolError, rest: seq<ToolError>, r: seq<ToolError>, keep: bool)
    requires forall e :: e in rest ==> Rank(head) < Rank(e)
    requires forall i, j :: 0 <= i < j < |rest| ==> Rank(rest[i]) < Rank(rest[j])
    requires r == if keep then [head] + rest else rest
    ensures forall i, j :: 0 <= i < j < |r| ==> Rank(r[i]) < Rank(r[j])
    ensures forall e :: e in r ==> Rank(head) <= Rank(e)
  {
    forall i, j | 0 <= i < j < |r|
      ensures Rank(r[i]) < Rank(r[j])
    {
      if keep && i == 0 {
        assert r[j] == rest[j - 1] && r[j] in rest;
      } else if keep {
        assert r[i] == rest[i - 1] && r[j] == rest[j - 1];
      }
    }
  }

  /** The candidate errors are listed in rank order. */
  lemma CandidatesRanked(all: seq<ToolError>, providerId: Option<string>, toolName: Option<string>)
    requires all == [MissingProviderId, MissingProviderType, MissingToolName,
                     CollectionNotFound(providerId), ToolNotFound(toolName)]
    ensures forall i, j :: 0 <= i < j < |all| ==> Rank(all[i]) < Rank(all[j])
  {
    assert forall i :: 0 <= i < |all| ==> Rank(all[i]) == i;
  }

  /** `validateTool`: every failed check contributes one error, in check order. */
  function ValidateTool(c: Constants, inv: Inventories, d: ToolData): (r: seq<ToolError>)
    ensures MissingProviderId in r <==> !Truthy(d.providerId)
    ensures MissingProviderType in r <==> !Truthy(d.providerType)
    ensures MissingToolName in r <==> !Truthy(d.toolName)
    ensures CollectionNotFound(d.providerId) in r <==> Inventory(c, inv, d).None?
    ensures ToolNotFound(d.toolName) in r <==> TargetTool(c, inv, d).None?
    ensures forall e :: e in r ==> e in [MissingProviderId, MissingProviderType, MissingToolName,
                                         CollectionNotFound(d.providerId), ToolNotFound(d.toolName)]
    ensures forall i, j :: 0 <= i < j < |r| ==> Rank(r[i]) < Rank(r[j])
  {
    var all := [MissingProviderId, MissingProviderType, MissingToolName,
                CollectionNotFound(d.providerId), ToolNotFound(d.toolName)];
    var fails := [!Truthy(d.providerId), !Truthy(d.providerType), !Truthy(d.toolName),
                  Inventory(c, inv, d).None?, TargetTool(c, inv, d).None?];
    CandidatesRanked(all, d.providerId, d.toolName);
    var r := Failed(fails, all);
    assert all[0] in r <==> fails[0];
    assert all[1] in r <==> fails[1];
    assert all[2] in r <==> fails[2];
    assert all[3] in r <==> fails[3];
    assert all[4] in r <==> fails[4];
    r
  }

  /** A tool passes validation exactly when all three fields are set and the tool is found. */
  lemma ValidExactlyWhenFound(c: Constants, inv: Inventories, d: ToolData)
    ensures ValidateTool(c, inv, d) == [] <==>
      Truthy(d.providerId) && Truthy(d.providerType) && Truthy(d.toolName) && TargetTool(c, inv, d).Some?
  {
    var r := ValidateTool(c, inv, d);
    if r != [] {
      assert r[0] in r;
    }
  }

  /** A missing collection is always reported together with a missing tool, and an absent provider
      id always misses the collection. */
  lemma MissingCollectionMissesTool(c: Constants, inv: Inventories, d: ToolData)
    ensures CollectionNotFound(d.providerId) in ValidateTool(c, inv, d) ==> ToolNotFound(d.toolName) in ValidateTool(c, inv, d)
    ensures d.providerId.None? ==> CollectionNotFound(d.providerId) in ValidateTool(c, inv, d)
  {
  }

  datatype AuthStatus = AuthStatus(isAuthorized: bool, requiresAuth: bool, authType: string)

  /** `determineAuthorizationStatus`. */
  function Authorization(c: Constants, inv: Inventories, d: ToolData): (r: AuthStatus)
    ensures d.providerType != Some(c.builtinProvider) ==> r == AuthStatus(true, false, "none")
    ensures r.requiresAuth <==> d.providerType == Some(c.builtinProvider) && Inventory(c, inv, d).Some? && Inventory(c, inv, d).value.allowDelete
    ensures r.authType == (if r.requiresAuth then "team" else "none")
  {
    if d.providerType != Some(c.builtinProvider) then AuthStatus(true, false, "none")
    else
      var k := Inventory(c, inv, d);
      var needsAuth := k.Some? && k.value.allowDelete;
      var authorized := !needsAuth || (k.Some? && k.value.isTeamAuthorization);
      AuthStatus(authorized, needsAuth, if needsAuth then "team" else "none")
  }

  /** A tool is unauthorized exactly when it is built in, its collection allows deletion and the team
      has not authorized it. */
  lemma UnauthorizedExactly(c: Constants, inv: Inventories, d: ToolData)
    ensures !Authorization(c, inv, d).isAuthorized <==>
      d.providerType == Some(c.builtinProvider) && Inventory(c, inv, d).Some?
      && Inventory(c, inv, d).value.allowDelete && !Inventory(c, inv, d).value.isTeamAuthorization
    ensures Authorization(c, inv, d).requiresAuth || Authorization(c, inv, d).isAuthorized
  {
  }

  datatype ToolMetadata = ToolMetadata(providerId: string, providerType: string, toolName: string, version: string)

  /** `toolMetadata`: absent fields read as `""`, and a tool without a version as `1.0.0`. */
  function Metadata(c: Constants, inv: Inventories, d: ToolData): (r: ToolMetadata)
    ensures r.providerId == d.providerId.GetOr("") && r.providerType == d.providerType.GetOr("")
    ensures r.toolName == d.toolName.GetOr("")
    ensures r.version != ""
    ensures TargetTool(c, inv, d).Some? && Truthy(TargetTool(c, inv, d).value.version) ==>
      r.version == TargetTool(c, inv, d).value.version.value
  {
    var t := TargetTool(c, inv, d);
    ToolMetadata(d.providerId.GetOr(""), d.providerType.GetOr(""), d.toolName.GetOr(""),
                 if t.Some? && Truthy(t.value.version) then t.value.version.value else "1.0.0")
  }
}

=== FILE: tree_analyzer.dfy ===
/** `WorkflowTreeAnalyzer`: a depth-first walk from the entry node along
    outgoers, recording every node once with its level, the root-to-leaf paths
    and the deepest level reached; the nodes it never reaches are orphaned. */
module TreeAnalyzer {
  import opened Wrappers
  import opened Seqs
  import opened Graph
  import opened Config

  /** A node recorded in `nodesByLevel` at `level`. */
  datatype Visit = Visit(node: Node, level: int)

  /** The analyzer's mutable fields: `visitedNodes` and `nodesByLevel` (both in
      insertion order, as one list of visits) and `executionPaths`. */
  datatype TreeState = TreeState(visits: seq<Visit>, paths: seq<seq<Node>>)

  /** A traversal result: the depth returned and the state afterwards. */
  datatype Step = Step(depth: int, state: TreeState)

  function VisitedIds(visits: seq<Visit>): set<Id>
  {
    set v | v in visits :: v.node.id
  }

  /** No id is recorded twice. */
  predicate VisitOnce(visits: seq<Visit>)
  {
    forall i, j :: 0 <= i < j < |visits| ==> visits[i].node.id != visits[j].node.id
  }

  /** Consecutive nodes of a path are joined by edges. */
  predicate NodePath(edges: seq<Edge>, p: seq<Node>)
  {
    forall k :: 0 <= k < |p| - 1 ==> HasEdge(edges, p[k].id, p[k + 1].id)
  }

  /** What a new visit contributes to the returned depth: its level, plus one when
      it has outgoers (each of them reports at least the next level). */
  function Reach(nodes: seq<Node>, edges: seq<Edge>, v: Visit): int
  {
    if Outgoers(nodes, edges, v.node.id) != [] then v.level + 1 else v.level
  }

  /** The largest contribution among `vs`, or `floor` when it is larger. */
  function MaxReach(nodes: seq<Node>, edges: seq<Edge>, vs: seq<Visit>, floor: int): int
  {
    if vs == [] then floor else Max(Reach(nodes, edges, vs[0]), MaxReach(nodes, edges, vs[1..], floor))
  }

  lemma {:induction false} MaxReachAppend(nodes: seq<Node>, edges: seq<Edge>, a: seq<Visit>, b: seq<Visit>, floor: int)
    ensures MaxReach(nodes, edges, a + b, floor) == Max(MaxReach(nodes, edges, a, floor), MaxReach(nodes, edges, b, floor))
  {
    if a == [] {
      assert a + b == b;
      MaxReachAtLeastFloor(nodes, edges, b, floor);
    } else {
      assert (a + b)[1..] == a[1..] + b;
      MaxReachAppend(nodes, edges, a[1..], b, floor);
    }
  }

  lemma {:induction false} MaxReachAtLeastFloor(nodes: seq<Node>, edges: seq<Edge>, vs: seq<Visit>, floor: int)
    ensures MaxReach(nodes, edges, vs, floor) >= floor
  {
    if vs != [] {
      MaxReachAtLeastFloor(nodes, edges, vs[1..], floor);
    }
  }

  lemma {:induction false} MaxReachRaise(nodes: seq<Node>, edges: seq<Edge>, vs: seq<Visit>, lo: int, hi: int)
    requires lo <= hi
    ensures MaxReach(nodes, edges, vs, hi) == Max(hi, MaxReach(nodes, edges, vs, lo))
  {
    if vs != [] {
      MaxReachRaise(nodes, edges, vs[1..], lo, hi);
    }
  }

  /** Folding one more child's depth into the running maximum. */
  lemma FoldDepth(nodes: seq<Node>, edges: seq<Edge>, level: int, acc: int, d0: int, depth: int,
                  new0: seq<Visit>, new1: seq<Visit>, tailEmpty: bool)
    requires d0 == MaxReach(nodes, edges, new0, level)
    requires depth == if tailEmpty then Max(acc, d0) else Max(Max(acc, d0), MaxReach(nodes, edges, new1, level))
    requires tailEmpty ==> new1 == []
    ensures depth == Max(acc, MaxReach(nodes, edges, new0 + new1, level))
  {
    MaxReachAppend(nodes, edges, new0, new1, level);
    if tailEmpty {
      assert new0 + new1 == new0;
      MaxReachAtLeastFloor(nodes, edges, new0, level);
    }
  }

  /** A root with outgoers reaches one level below itself. */
  lemma RootDepth(nodes: seq<Node>, edges: seq<Edge>, root: Node, level: int, depth: int, children: seq<Visit>)
    requires Outgoers(nodes, edges, root.id) != []
    requires depth == Max(level, MaxReach(nodes, edges, children, level + 1))
    ensures depth == MaxReach(nodes, edges, [Visit(root, level)] + children, level)
  {
    MaxReachRaise(nodes, edges, children, level, level + 1);
    assert ([Visit(root, level)] + children)[1..] == children;
  }

  /** A leaf reaches exactly its own level. */
  lemma LeafDepth(nodes: seq<Node>, edges: seq<Edge>, root: Node, level: int)
    requires Outgoers(nodes, edges, root.id) == []
    ensures MaxReach(nodes, edges, [Visit(root, level)], level) == level
  {
    assert [Visit(root, level)][1..] == [];
  }

  /** The new part of a list of visits splits at every intermediate length. */
  lemma NewVisitsSplit(a: seq<Visit>, b: seq<Visit>, c: seq<Visit>)
    requires a <= b <= c
    ensures c[|a|..] == b[|a|..] + c[|b|..]
  {
  }

  /** `p` continues `path` along edges and stops at a node without outgoers. */
  ghost predicate Branch(nodes: seq<Node>, edges: seq<Edge>, path: seq<Node>, p: seq<Node>)
  {
    && |p| > |path| && p[..|path|] == path
    && (forall k :: |path| <= k < |p| - 1 ==> HasEdge(edges, p[k].id, p[k + 1].id))
    && Outgoers(nodes, edges, p[|p| - 1].id) == []
  }

  /** A branch of `path + [root]` whose next node is an outgoer of `root` is a branch of `path` through `root`. */
  lemma BranchThrough(nodes: seq<Node>, edges: seq<Edge>, path: seq<Node>, root: Node, p: seq<Node>)
    requires Branch(nodes, edges, path + [root], p) && HasEdge(edges, root.id, p[|path| + 1].id)
    ensures Branch(nodes, edges, path, p) && p[|path|] == root
  {
    assert p[..|path| + 1] == path + [root];
    assert p[..|path|] == (path + [root])[..|path|];
    assert p[|path|] == (path + [root])[|path|];
  }

  /** Every path recorded from index `lo` on is a branch of `path` whose node after `path` is `root`. */
  ghost predicate BranchesThrough(nodes: seq<Node>, edges: seq<Edge>, path: seq<Node>, root: Node, paths: seq<seq<Node>>, lo: nat)
  {
    forall j :: lo <= j < |paths| ==> Branch(nodes, edges, path, paths[j]) && paths[j][|path|] == root
  }

  /** Every path recorded from index `lo` on is a branch of `path` stepping next to a successor of `from`. */
  ghost predicate BranchesAfter(nodes: seq<Node>, edges: seq<Edge>, path: seq<Node>, from: Id, paths: seq<seq<Node>>, lo: nat)
  {
    forall j :: lo <= j < |paths| ==> Branch(nodes, edges, path, paths[j]) && HasEdge(edges, from, paths[j][|path|].id)
  }

  lemma BranchesChain(nodes: seq<Node>, edges: seq<Edge>, path: seq<Node>, from: Id,
                      a: seq<seq<Node>>, b: seq<seq<Node>>, c: seq<seq<Node>>)
    requires a <= b <= c
    requires BranchesAfter(nodes, edges, path, from, b, |a|) && BranchesAfter(nodes, edges, path, from, c, |b|)
    ensures BranchesAfter(nodes, edges, path, from, c, |a|)
  {
    forall j | |a| <= j < |b|
      ensures c[j] == b[j]
    {
    }
  }

  lemma BranchesOfChild(nodes: seq<Node>, edges: seq<Edge>, path: seq<Node>, from: Id, m: Node,
                        paths: seq<seq<Node>>, lo: nat)
    requires HasEdge(edges, from, m.id)
    requires BranchesThrough(nodes, edges, path, m, paths, lo)
    ensures BranchesAfter(nodes, edges, path, from, paths, lo)
  {
  }

  lemma BranchesOfRoot(nodes: seq<Node>, edges: seq<Edge>, path: seq<Node>, root: Node, paths: seq<seq<Node>>, lo: nat)
    requires BranchesAfter(nodes, edges, path + [root], root.id, paths, lo)
    ensures BranchesThrough(nodes, edges, path, root, paths, lo)
  {
    forall j | lo <= j < |paths|
      ensures Branch(nodes, edges, path, paths[j]) && paths[j][|path|] == root
    {
      BranchThrough(nodes, edges, path, root, paths[j]);
    }
  }

  lemma LeafBranch(nodes: seq<Node>, edges: seq<Edge>, path: seq<Node>, root: Node, paths: seq<seq<Node>>)
    requires Outgoers(nodes, edges, root.id) == []
    ensures BranchesThrough(nodes, edges, path, root, paths + [path + [root]], |paths|)
  {
    var p := path + [root];
    assert p[..|path|] == path;
    assert Branch(nodes, edges, path, p);
  }

  /** The visit list names nodes of the graph, each at most once. */
  predicate WellFormed(nodes: seq<Node>, visits: seq<Visit>)
  {
    VisitedIds(visits) <= NodeIds(nodes) && VisitOnce(visits)
  }

  /** Every visit from index `lo` on is at `level` or deeper and reachable from `o`. */
  ghost predicate Sound(nodes: seq<Node>, edges: seq<Edge>, o: Id, level: int, visits: seq<Visit>, lo: nat)
  {
    forall i :: lo <= i < |visits| ==> visits[i].level >= level && Reaches(nodes, edges, o, visits[i].node.id)
  }

  /** Every successor of a visit from index `lo` on has been visited too. */
  ghost predicate Closed(nodes: seq<Node>, edges: seq<Edge>, visits: seq<Visit>, lo: nat)
  {
    forall i, y :: lo <= i < |visits| && HasEdge(edges, visits[i].node.id, y) && y in NodeIds(nodes) ==>
      y in VisitedIds(visits)
  }

  lemma VisitedGrows(a: seq<Visit>, b: seq<Visit>)
    requires a <= b
    ensures VisitedIds(a) <= VisitedIds(b)
  {
    forall x | x in VisitedIds(a)
      ensures x in VisitedIds(b)
    {
      var v :| v in a && v.node.id == x;
      var i :| 0 <= i < |a| && a[i] == v;
      assert b[i] == v;
    }
  }

  lemma FewerOrSame(ids: set<Id>, before: set<Id>, after: set<Id>)
    requires before <= after
    ensures |ids - after| <= |ids - before|
  {
    var a, b := ids - after, ids - before;
    assert b == a + (b - a);
  }

  /** Recording a node not seen before. */
  lemma AddVisit(nodes: seq<Node>, visits: seq<Visit>, root: Node, level: int)
    requires root in nodes && root.id !in VisitedIds(visits)
    requires WellFormed(nodes, visits)
    ensures VisitedIds(visits + [Visit(root, level)]) == VisitedIds(visits) + {root.id}
    ensures WellFormed(nodes, visits + [Visit(root, level)])
    ensures |NodeIds(nodes) - VisitedIds(visits + [Visit(root, level)])| < |NodeIds(nodes) - VisitedIds(visits)|
  {
    var vs := visits + [Visit(root, level)];
    assert forall v :: v in vs <==> v in visits || v == Visit(root, level);
    assert VisitedIds(vs) == VisitedIds(visits) + {root.id};
    forall i, j | 0 <= i < j < |vs|
      ensures vs[i].node.id != vs[j].node.id
    {
      if j == |visits| {
        assert vs[i] in visits;
      }
    }
    var a, b := NodeIds(nodes) - VisitedIds(vs), NodeIds(nodes) - VisitedIds(visits);
    assert root.id in b - a;
    assert b == a + (b - a);
  }

  /** What a list extending `before + [v]` says about `v`. */
  lemma PrefixFacts(before: seq<Visit>, v: Visit, after: seq<Visit>)
    requires before + [v] <= after
    ensures before <= after && |after| > |before| && after[|before|] == v
    ensures v.node.id in VisitedIds(after)
  {
    assert after[|before|] == (before + [v])[|before|];
  }

  /** Sound and closed segments glue together. */
  lemma Chain(nodes: seq<Node>, edges: seq<Edge>, o: Id, level: int, a: seq<Visit>, b: seq<Visit>, c: seq<Visit>)
    requires a <= b <= c
    requires Sound(nodes, edges, o, level, b, |a|) && Sound(nodes, edges, o, level, c, |b|)
    requires Closed(nodes, edges, b, |a|) && Closed(nodes, edges, c, |b|)
    ensures Sound(nodes, edges, o, level, c, |a|) && Closed(nodes, edges, c, |a|)
  {
    VisitedGrows(b, c);
    forall i | |a| <= i < |b|
      ensures c[i] == b[i]
    {
    }
  }

  /** A visited root whose outgoers were all visited afterwards. */
  lemma AfterChildren(nodes: seq<Node>, edges: seq<Edge>, o: Id, root: Node, level: int,
                      before: seq<Visit>, after: seq<Visit>)
    requires root in nodes && Reaches(nodes, edges, o, root.id)
    requires before + [Visit(root, level)] <= after
    requires Sound(nodes, edges, o, level + 1, after, |before| + 1)
    requires Closed(nodes, edges, after, |before| + 1)
    requires forall m :: m in Outgoers(nodes, edges, root.id) ==> m.id in VisitedIds(after)
    ensures Sound(nodes, edges, o, level, after, |before|)
    ensures Closed(nodes, edges, after, |before|)
  {
    assert after[|before|] == Visit(root, level);
    forall y | HasEdge(edges, root.id, y) && y in NodeIds(nodes)
      ensures y in VisitedIds(after)
    {
      var m :| m in nodes && m.id == y;
      assert m in Outgoers(nodes, edges, root.id);
    }
  }

  /** `traverseWorkflowTree(root, level, path)`; `o` is the node the walk started from. */
  function Traverse(nodes: seq<Node>, edges: seq<Edge>, ghost o: Id, root: Node, level: int, path: seq<Node>,
                    st: TreeState): (r: Step)
    requires root in nodes && Reaches(nodes, edges, o, root.id)
    requires WellFormed(nodes, st.visits)
    decreases |NodeIds(nodes) - VisitedIds(st.visits)|, 0
    ensures st.visits <= r.state.visits && st.paths <= r.state.paths
    ensures WellFormed(nodes, r.state.visits)
    ensures root.id in VisitedIds(r.state.visits)
    ensures root.id in VisitedIds(st.visits) ==> r == Step(level, st)
    ensures root.id !in VisitedIds(st.visits) ==>
      |r.state.visits| > |st.visits| && r.state.visits[|st.visits|] == Visit(root, level)
    ensures Sound(nodes, edges, o, level, r.state.visits, |st.visits|)
    ensures Closed(nodes, edges, r.state.visits, |st.visits|)
    ensures r.depth == MaxReach(nodes, edges, r.state.visits[|st.visits|..], level)
    ensures BranchesThrough(nodes, edges, path, root, r.state.paths, |st.paths|)
  {
    if root.id in VisitedIds(st.visits) then
      assert st.visits[|st.visits|..] == [];
      Step(level, st)
    else
      var vs := st.visits + [Visit(root, level)];
      AddVisit(nodes, st.visits, root, level);
      var outs := Outgoers(nodes, edges, root.id);
      if outs != [] then
        var r := TraverseAll(nodes, edges, o, root.id, outs, level + 1, path + [root], TreeState(vs, st.paths), level);
        AfterChildren(nodes, edges, o, root, level, st.visits, r.state.visits);
        PrefixFacts(st.visits, Visit(root, level), r.state.visits);
        NewVisitsSplit(st.visits, vs, r.state.visits);
        assert r.state.visits[|st.visits|..] == [Visit(root, level)] + r.state.visits[|vs|..];
        RootDepth(nodes, edges, root, level, r.depth, r.state.visits[|vs|..]);
        BranchesOfRoot(nodes, edges, path, root, r.state.paths, |st.paths|);
        Step(r.depth, r.state)
      else
        AfterChildren(nodes, edges, o, root, level, st.visits, vs);
        PrefixFacts(st.visits, Visit(root, level), vs);
        assert vs[|st.visits|..] == [Visit(root, level)];
        LeafDepth(nodes, edges, root, level);
        LeafBranch(nodes, edges, path, root, st.paths);
        Step(level, TreeState(vs, st.paths + [path + [root]]))
  }

  /** The `forEach` over the outgoers of `from`, folding the depth into `acc`. */
  function TraverseAll(nodes: seq<Node>, edges: seq<Edge>, ghost o: Id, from: Id, outs: seq<Node>, level: int,
                       path: seq<Node>, st: TreeState, acc: int): (r: Step)
    requires forall m :: m in outs ==> m in nodes && HasEdge(edges, from, m.id)
    requires Reaches(nodes, edges, o, from)
    requires WellFormed(nodes, st.visits)
    decreases |NodeIds(nodes) - VisitedIds(st.visits)|, 1, |outs|
    ensures st.visits <= r.state.visits && st.paths <= r.state.paths
    ensures WellFormed(nodes, r.state.visits)
    ensures forall m :: m in outs ==> m.id in VisitedIds(r.state.visits)
    ensures Sound(nodes, edges, o, level, r.state.visits, |st.visits|)
    ensures Closed(nodes, edges, r.state.visits, |st.visits|)
    ensures r.depth == if outs == [] then acc else Max(acc, MaxReach(nodes, edges, r.state.visits[|st.visits|..], level))
    ensures BranchesAfter(nodes, edges, path, from, r.state.paths, |st.paths|)
  {
    if outs == [] then Step(acc, st)
    else
      var m := outs[0];
      assert m in outs;
      ReachesStep(nodes, edges, o, from, m.id);
      var r0 := Traverse(nodes, edges, o, m, level, path, st);
      VisitedGrows(st.visits, r0.state.visits);
      FewerOrSame(NodeIds(nodes), VisitedIds(st.visits), VisitedIds(r0.state.visits));
      BranchesOfChild(nodes, edges, path, from, m, r0.state.paths, |st.paths|);
      assert forall x :: x in outs[1..] ==> x in outs;
      var r := TraverseAll(nodes, edges, o, from, outs[1..], level, path, r0.state, Max(acc, r0.depth));
      Chain(nodes, edges, o, level, st.visits, r0.state.visits, r.state.visits);
      VisitedGrows(r0.state.visits, r.state.visits);
      NewVisitsSplit(st.visits, r0.state.visits, r.state.visits);
      FoldDepth(nodes, edges, level, acc, r0.depth, r.depth, r0.state.visits[|st.visits|..],
                r.state.visits[|r0.state.visits|..], outs[1..] == []);
      BranchesChain(nodes, edges, path, from, st.paths, r0.state.paths, r.state.paths);
      r
  }

  /** `findEntryNode`: the first node whose block type is the entry type. */
  function EntryNode(c: Constants, nodes: seq<Node>): (r: Option<Node>)
    ensures r.None? <==> forall n :: n in nodes ==> n.kind != c.entryKind
    ensures r.Some? ==> r.value in nodes && r.value.kind == c.entryKind
  {
    Find(nodes, (n: Node) => n.kind == c.entryKind)
  }

  /** `nodesByLevel.get(level)`: the nodes recorded at `level`, in visit order. */
  function NodesAtLevel(visits: seq<Visit>, level: int): (r: seq<Node>)
    ensures forall n :: n in r <==> Visit(n, level) in visits
  {
    if visits == [] then []
    else
      var rest := NodesAtLevel(visits[1..], level);
      assert forall v :: v in visits <==> v == visits[0] || v in visits[1..];
      if visits[0].level == level then [visits[0].node] + rest else rest
  }

  /** `visitedIds.map(id => nodes.find(...)).filter(Boolean)`: each visited id looked up again in `nodes`. */
  function LookUp(nodes: seq<Node>, visits: seq<Visit>): (r: seq<Node>)
    ensures forall n :: n in r ==> n in nodes && n.id in VisitedIds(visits)
    ensures forall x :: x in VisitedIds(visits) && x in NodeIds(nodes) ==> x in NodeIds(r)
  {
    if visits == [] then []
    else
      var rest := LookUp(nodes, visits[1..]);
      assert forall v :: v in visits <==> v == visits[0] || v in visits[1..];
      match FindNode(nodes, visits[0].node.id)
      case Some(n) => [n] + rest
      case None => rest
  }

  /** `validNodes`: the looked-up nodes, one per id. */
  function ValidNodes(nodes: seq<Node>, visits: seq<Visit>): (r: seq<Node>)
    requires VisitedIds(visits) <= NodeIds(nodes)
    ensures NodeIds(r) == VisitedIds(visits)
    ensures forall n :: n in r ==> n in nodes
    ensures forall i, j :: 0 <= i < j < |r| ==> r[i].id != r[j].id
  {
    var looked := LookUp(nodes, visits);
    var r := UniqBy(looked, (n: Node) => n.id);
    forall x | x in VisitedIds(visits)
      ensures x in NodeIds(r)
    {
      var n :| n in looked && n.id == x;
      var y :| y in r && y.id == x;
    }
    r
  }

  /** What `analyzeWorkflowTree` returns; `nodesByLevel` keeps the visits in order, each with its level. */
  datatype TreeAnalysis = TreeAnalysis(
    validNodes: seq<Node>,
    maxDepth: int,
    nodesByLevel: seq<Visit>,
    executionPaths: seq<seq<Node>>,
    orphanedNodes: seq<Node>)

  /** `analyzeWorkflowTree`: one traversal from the entry node at level 1. */
  function AnalyzeTree(c: Constants, nodes: seq<Node>, edges: seq<Edge>): (r: TreeAnalysis)
    ensures EntryNode(c, nodes).None? ==> r == TreeAnalysis([], 0, [], [], nodes)
    ensures EntryNode(c, nodes).Some? ==>
      var e := EntryNode(c, nodes).value;
      && NodeIds(r.validNodes) == VisitedIds(r.nodesByLevel)
      && r.nodesByLevel != [] && r.nodesByLevel[0] == Visit(e, 1)
      && WellFormed(nodes, r.nodesByLevel)
      && Sound(nodes, edges, e.id, 1, r.nodesByLevel, 0)
      && Closed(nodes, edges, r.nodesByLevel, 0)
      && r.maxDepth == MaxReach(nodes, edges, r.nodesByLevel, 1)
      && BranchesThrough(nodes, edges, [], e, r.executionPaths, 0)
      && r.orphanedNodes == Filter(nodes, (n: Node) => n.id !in NodeIds(r.validNodes))
  {
    match EntryNode(c, nodes)
    case None => TreeAnalysis([], 0, [], [], nodes)
    case Some(e) =>
      ReachesRefl(nodes, edges, e.id);
      var t := Traverse(nodes, edges, e.id, e, 1, [], TreeState([], []));
      assert t.state.visits[0..] == t.state.visits;
      var valid := ValidNodes(nodes, t.state.visits);
      TreeAnalysis(valid, t.depth, t.state.visits, t.state.paths,
                   Filter(nodes, (n: Node) => n.id !in NodeIds(valid)))
  }

  /** The valid nodes are exactly the nodes reachable from the entry node. */
  lemma ValidIsReachable(c: Constants, nodes: seq<Node>, edges: seq<Edge>)
    requires EntryNode(c, nodes).Some?
    ensures forall x :: x in NodeIds(AnalyzeTree(c, nodes, edges).validNodes) <==>
      Reaches(nodes, edges, EntryNode(c, nodes).value.id, x)
  {
    var e := EntryNode(c, nodes).value;
    var r := AnalyzeTree(c, nodes, edges);
    var s := VisitedIds(r.nodesByLevel);
    assert e.id in s by {
      assert r.nodesByLevel[0] in r.nodesByLevel;
    }
    forall x | Reaches(nodes, edges, e.id, x)
      ensures x in s
    {
      ClosedHoldsReachable(nodes, edges, s, e.id, x);
    }
    forall x | x in s
      ensures Reaches(nodes, edges, e.id, x)
    {
      var v :| v in r.nodesByLevel && v.node.id == x;
      var i :| 0 <= i < |r.nodesByLevel| && r.nodesByLevel[i] == v;
    }
  }

  /** `orphanedNodes` are the nodes the entry node cannot reach; with no entry node every node is orphaned. */
  lemma OrphanedAreUnreachable(c: Constants, nodes: seq<Node>, edges: seq<Edge>)
    ensures EntryNode(c, nodes).None? ==> AnalyzeTree(c, nodes, edges).orphanedNodes == nodes
    ensures EntryNode(c, nodes).Some? ==> forall n :: n in AnalyzeTree(c, nodes, edges).orphanedNodes <==>
      n in nodes && !Reaches(nodes, edges, EntryNode(c, nodes).value.id, n.id)
  {
    if EntryNode(c, nodes).Some? {
      ValidIsReachable(c, nodes, edges);
    }
  }

  /** Every execution path starts at the entry node, follows edges and ends at a node with no outgoers. */
  lemma PathsRunEntryToLeaf(c: Constants, nodes: seq<Node>, edges: seq<Edge>, p: seq<Node>)
    requires EntryNode(c, nodes).Some? && p in AnalyzeTree(c, nodes, edges).executionPaths
    ensures p != [] && p[0] == EntryNode(c, nodes).value
    ensures NodePath(edges, p)
    ensures Outgoers(nodes, edges, p[|p| - 1].id) == []
  {
    var r := AnalyzeTree(c, nodes, edges);
    var j :| 0 <= j < |r.executionPaths| && r.executionPaths[j] == p;
    assert Branch(nodes, edges, [], p);
  }

  lemma {:induction false} MaxReachAbove(nodes: seq<Node>, edges: seq<Edge>, vs: seq<Visit>, floor: int, v: Visit)
    requires v in vs
    ensures MaxReach(nodes, edges, vs, floor) >= Reach(nodes, edges, v)
  {
    if vs[0] != v {
      MaxReachAbove(nodes, edges, vs[1..], floor, v);
    }
  }

  /** Every node is recorded once, at a level from 1 up to `maxDepth`; a node with outgoers lies above `maxDepth`. */
  lemma LevelsWithinDepth(c: Constants, nodes: seq<Node>, edges: seq<Edge>)
    requires EntryNode(c, nodes).Some?
    ensures VisitOnce(AnalyzeTree(c, nodes, edges).nodesByLevel)
    ensures forall v :: v in AnalyzeTree(c, nodes, edges).nodesByLevel ==>
      1 <= v.level <= AnalyzeTree(c, nodes, edges).maxDepth &&
      (Outgoers(nodes, edges, v.node.id) != [] ==> v.level < AnalyzeTree(c, nodes, edges).maxDepth)
  {
    var r := AnalyzeTree(c, nodes, edges);
    LevelsBelowMax(nodes, edges, EntryNode(c, nodes).value.id, r.nodesByLevel, r.maxDepth);
  }

  /** Visits at level 1 or deeper lie within the largest reach among them. */
  lemma LevelsBelowMax(nodes: seq<Node>, edges: seq<Edge>, o: Id, vs: seq<Visit>, d: int)
    requires Sound(nodes, edges, o, 1, vs, 0) && d == MaxReach(nodes, edges, vs, 1)
    ensures forall v :: v in vs ==>
      1 <= v.level <= d && (Outgoers(nodes, edges, v.node.id) != [] ==> v.level < d)
  {
    forall v | v in vs
      ensures 1 <= v.level <= d
      ensures Outgoers(nodes, edges, v.node.id) != [] ==> v.level < d
    {
      MaxReachAbove(nodes, edges, vs, 1, v);
      var i :| 0 <= i < |vs| && vs[i] == v;
    }
  }
}

=== FILE: trigger.dfy ===
/**
 * `useVariableTriggerMatch`: the rich-text editor opens the variable menu
 * when the text before the caret matches `/(.*)(\{)(.*)$/`. The regular
 * expression has no flags, so `.` matches any character except a line
 * terminator and `$` is the end of the text. `RegexMatch` states what the
 * expression matches; `VariableTrigger` computes the match the engine
 * reports (leftmost start, then the greediest first group) directly.
 */
module Trigger {
  import opened Wrappers

  datatype MenuTextMatch = MenuTextMatch(leadOffset: nat, matchingString: string, replaceableString: string)

  /** The characters `.` does not match. */
  predicate IsLineTerminator(ch: char)
  {
    ch == '\n' || ch == '\r' || ch == '\U{2028}' || ch == '\U{2029}'
  }

  predicate NoTerminator(s: string)
  {
    forall i :: 0 <= i < |s| ==> !IsLineTerminator(s[i])
  }

  /**
   * The expression matches starting at `s` with its `{` at `p`: group 1 is
   * `text[s..p]`, group 3 is `text[p+1..]`, and neither crosses a line end.
   */
  ghost predicate RegexMatch(text: string, s: int, p: int)
  {
    0 <= s <= p < |text| && text[p] == '{' && NoTerminator(text[s..p]) && NoTerminator(text[p + 1..])
  }

  /** `exec` reports the match with the leftmost start and, from there, the longest group 1. */
  ghost predicate ExecPicks(text: string, s: int, p: int)
  {
    && RegexMatch(text, s, p)
    && (forall s2, p2 :: RegexMatch(text, s2, p2) ==> s <= s2 && (s2 == s ==> p2 <= p))
  }

  /** The index of the last `ch` in `text`, or -1. */
  function LastIndexOf(text: string, ch: char): (r: int)
    ensures -1 <= r < |text|
    ensures r >= 0 ==> text[r] == ch
    ensures forall i :: r < i < |text| ==> text[i] != ch
  {
    if text == [] then -1
    else if text[|text| - 1] == ch then |text| - 1
    else LastIndexOf(text[..|text| - 1], ch)
  }

  /** The index of the last line terminator before `p`, or -1. */
  function LastTerminatorBefore(text: string, p: int): (t: int)
    requires 0 <= p <= |text|
    ensures -1 <= t < p
    ensures t >= 0 ==> IsLineTerminator(text[t])
    ensures forall i :: t < i < p ==> !IsLineTerminator(text[i])
    decreases p
  {
    if p == 0 then -1
    else if IsLineTerminator(text[p - 1]) then p - 1
    else LastTerminatorBefore(text, p - 1)
  }

  /** The trigger: `null` when the expression does not match, otherwise the menu match it reports. */
  function VariableTrigger(text: string): (r: Option<MenuTextMatch>)
    ensures r.None? <==> forall s, p :: !RegexMatch(text, s, p)
    ensures r.Some? ==> exists s :: ExecPicks(text, s, r.value.leadOffset)
    ensures r.Some? ==> text[r.value.leadOffset] == '{' && r.value.matchingString == text[r.value.leadOffset + 1..]
    ensures r.Some? ==> r.value.replaceableString == "{"
    ensures r.Some? ==> '{' !in r.value.matchingString
  {
    var p := LastIndexOf(text, '{');
    if p < 0 || !NoTerminator(text[p + 1..]) then
      NoMatch(text, p);
      None
    else
      var index := LastTerminatorBefore(text, p) + 1;
      var group1 := text[index..p];
      ExecPicksLast(text, index, p);
      var rest := text[p + 1..];
      assert forall i :: 0 <= i < |rest| ==> rest[i] == text[p + 1 + i];
      Some(MenuTextMatch(index + |group1|, text[p + 1..], [text[p]]))
  }

  lemma NoMatch(text: string, p: int)
    requires p == LastIndexOf(text, '{')
    requires p < 0 || !NoTerminator(text[p + 1..])
    ensures forall s, p2 :: !RegexMatch(text, s, p2)
  {
    forall s, p2
      ensures !RegexMatch(text, s, p2)
    {
    }
  }

  lemma ExecPicksLast(text: string, index: int, p: int)
    requires p == LastIndexOf(text, '{') && p >= 0 && NoTerminator(text[p + 1..])
    requires index == LastTerminatorBefore(text, p) + 1
    ensures ExecPicks(text, index, p)
  {
    assert NoTerminator(text[index..p]) by {
      forall i | 0 <= i < |text[index..p]|
        ensures !IsLineTerminator(text[index..p][i])
      {
        assert text[index..p][i] == text[index + i];
      }
    }
    forall s2, p2 | RegexMatch(text, s2, p2)
      ensures index <= s2 && (s2 == index ==> p2 <= p)
    {
    }
  }

  /**
   * On text without line breaks the match starts at 0, so the menu opens
   * exactly when the text has a `{`, at its last `{`, and the typed query is
   * the whole rest of the text.
   */
  lemma TriggerWithoutLineBreaks(text: string)
    requires NoTerminator(text)
    ensures VariableTrigger(text).None? <==> '{' !in text
    ensures VariableTrigger(text).Some? ==>
              var m := VariableTrigger(text).value;
              && ExecPicks(text, 0, m.leadOffset)
              && m.leadOffset == LastIndexOf(text, '{')
              && m.leadOffset + 1 + |m.matchingString| == |text|
  {
    var p := LastIndexOf(text, '{');
    if '{' in text {
      var j :| 0 <= j < |text| && text[j] == '{';
      assert p >= j;
      var rest := text[p + 1..];
      assert NoTerminator(rest) by {
        forall i | 0 <= i < |rest|
          ensures !IsLineTerminator(rest[i])
        {
          assert rest[i] == text[p + 1 + i];
        }
      }
      assert LastTerminatorBefore(text, p) == -1;
      ExecPicksLast(text, 0, p);
    }
  }
}

=== FILE: upstream.dfy ===
/**
 * `fetchBeforeNodesInSameBranch` and its `IncludeParent` variant: the nodes
 * upstream of a node, preceded by the upstream nodes of its parent
 * container, filtered to the kinds that expose output variables.
 *
 * The incomer walk keeps its own output list as the visited set, so it
 * terminates on any graph. The recursion through parent containers does
 * not: a parent chain that loops back makes the source recurse forever, so
 * the model carries a ghost `fuel` and requires the chain to end within it.
 */
module Upstream {
  import opened Wrappers
  import opened Seqs
  import opened Graph
  import opened Config
  import Fetch

  /** `r` starts with `list`. */
  predicate Extends(list: seq<Node>, r: seq<Node>)
  {
    |list| <= |r| && r[..|list|] == list
  }

  /** Every node appended after `list` is a node of the graph, new by id, and upstream of `to`. */
  ghost predicate AddedUpstream(nodes: seq<Node>, edges: seq<Edge>, list: seq<Node>, r: seq<Node>, to: Id)
    requires |list| <= |r|
  {
    forall i :: |list| <= i < |r| ==>
      r[i] in nodes && r[i].id !in NodeIds(list) && ReachesPlus(nodes, edges, r[i].id, to)
  }

  /** Every predecessor of a newly added id has been seen. */
  ghost predicate UpDone(nodes: seq<Node>, edges: seq<Edge>, added: set<Id>, seen: set<Id>)
  {
    forall x, y :: x in added && HasEdge(edges, y, x) && y in NodeIds(nodes) ==> y in seen
  }

  lemma ExtendsFacts(list: seq<Node>, r: seq<Node>)
    requires Extends(list, r)
    ensures forall n :: n in list ==> n in r
    ensures NodeIds(list) <= NodeIds(r)
  {
    forall n | n in list
      ensures n in r
    {
      var i :| 0 <= i < |list| && list[i] == n;
      assert r[i] == n;
    }
  }

  lemma ExtendsTrans(a: seq<Node>, b: seq<Node>, c: seq<Node>)
    requires Extends(a, b) && Extends(b, c)
    ensures Extends(a, c)
  {
    assert c[..|a|] == c[..|b|][..|a|];
  }

  lemma UniqueAppend(list: seq<Node>, m: Node)
    requires UniqueIds(list) && m.id !in NodeIds(list)
    ensures UniqueIds(list + [m])
  {
    var l := list + [m];
    forall i, j | 0 <= i < j < |l|
      ensures l[i].id != l[j].id
    {
      assert l[i] == list[i];
      if j == |list| {
        assert list[i] in list;
      } else {
        assert l[j] == list[j];
      }
    }
  }

  /** The nodes added by the two halves of one incomer step are all upstream of `to`. */
  lemma AddedChain(nodes: seq<Node>, edges: seq<Edge>, to: Id, m: Node, list: seq<Node>, r0: seq<Node>, r1: seq<Node>)
    requires to in NodeIds(nodes) && m in nodes && HasEdge(edges, m.id, to) && m.id !in NodeIds(list)
    requires Extends(list + [m], r0) && Extends(r0, r1)
    requires AddedUpstream(nodes, edges, list + [m], r0, m.id)
    requires AddedUpstream(nodes, edges, r0, r1, to)
    ensures Extends(list, r1)
    ensures AddedUpstream(nodes, edges, list, r1, to)
  {
    var l1 := list + [m];
    assert Extends(list, l1);
    ExtendsTrans(list, l1, r0);
    ExtendsTrans(list, r0, r1);
    ExtendsFacts(list, l1);
    ExtendsFacts(l1, r0);
    assert m.id in NodeIds(nodes);
    ReachesRefl(nodes, edges, m.id);
    ReachesStep(nodes, edges, m.id, m.id, to);
    forall i | |list| <= i < |r1|
      ensures r1[i] in nodes && r1[i].id !in NodeIds(list) && ReachesPlus(nodes, edges, r1[i].id, to)
    {
      if i == |list| {
        assert r1[i] == r0[i] == l1[i] == m;
      } else if i < |r0| {
        assert r1[i] == r0[i];
        PlusToReaches(nodes, edges, r0[i].id, m.id);
        ReachesStep(nodes, edges, r0[i].id, m.id, to);
      }
    }
  }

  lemma UpRoot(nodes: seq<Node>, edges: seq<Edge>, list: seq<Node>, m: Node, r0: seq<Node>)
    requires Extends(list + [m], r0)
    requires UpDone(nodes, edges, NodeIds(r0) - NodeIds(list + [m]), NodeIds(r0))
    requires forall y :: y in Incomers(nodes, edges, m.id) ==> y.id in NodeIds(r0)
    ensures UpDone(nodes, edges, NodeIds(r0) - NodeIds(list), NodeIds(r0))
  {
    NodeIdsAppend(list, [m]);
    assert NodeIds([m]) == {m.id};
    forall x, y | x in NodeIds(r0) - NodeIds(list) && HasEdge(edges, y, x) && y in NodeIds(nodes)
      ensures y in NodeIds(r0)
    {
      if x == m.id {
        var n :| n in nodes && n.id == y;
        assert n in Incomers(nodes, edges, m.id);
      }
    }
  }

  lemma UpChain(nodes: seq<Node>, edges: seq<Edge>, v0: set<Id>, v1: set<Id>, v2: set<Id>)
    requires v0 <= v1 <= v2
    requires UpDone(nodes, edges, v1 - v0, v1) && UpDone(nodes, edges, v2 - v1, v2)
    ensures UpDone(nodes, edges, v2 - v0, v2)
  {
  }

  /**
   * `traverse`: for each incomer of `to` whose id is not yet in the list,
   * append it and walk its own incomers.
   */
  function Gather(nodes: seq<Node>, edges: seq<Edge>, ghost to: Id, ins: seq<Node>, list: seq<Node>): (r: seq<Node>)
    requires to in NodeIds(nodes)
    requires forall m :: m in ins ==> m in nodes && HasEdge(edges, m.id, to)
    decreases |NodeIds(nodes) - NodeIds(list)|, |ins|
    ensures Extends(list, r)
    ensures AddedUpstream(nodes, edges, list, r, to)
    ensures UniqueIds(list) ==> UniqueIds(r)
    ensures forall m :: m in ins ==> m.id in NodeIds(r)
    ensures UpDone(nodes, edges, NodeIds(r) - NodeIds(list), NodeIds(r))
  {
    if ins == [] then list
    else
      var m := ins[0];
      assert m in ins;
      if m.id in NodeIds(list) then
        var r := Gather(nodes, edges, to, ins[1..], list);
        ExtendsFacts(list, r);
        r
      else
        var l1 := list + [m];
        assert m.id in NodeIds(nodes);
        NodeIdsAppend(list, [m]);
        assert NodeIds([m]) == {m.id};
        Fewer(NodeIds(nodes), NodeIds(list), NodeIds(l1), m.id);
        var r0 := Gather(nodes, edges, m.id, Incomers(nodes, edges, m.id), l1);
        ExtendsFacts(l1, r0);
        FewerOrSame(NodeIds(nodes), NodeIds(l1), NodeIds(r0));
        var r1 := Gather(nodes, edges, to, ins[1..], r0);
        ExtendsFacts(r0, r1);
        AddedChain(nodes, edges, to, m, list, r0, r1);
        UpRoot(nodes, edges, list, m, r0);
        UpChain(nodes, edges, NodeIds(list), NodeIds(r0), NodeIds(r1));
        if UniqueIds(list) then
          UniqueAppend(list, m);
          r1
        else r1
  }

  // ---------------------------------------------------------------------
  // The parent-container chain

  /**
   * Following parent containers from `id` ends within `fuel` steps: the
   * first lookup is in `ns`, every later one in the store.
   */
  predicate ChainEnds(store: seq<Node>, ns: seq<Node>, id: Id, fuel: nat)
    decreases fuel
  {
    match FindNode(ns, id)
    case None => true
    case Some(cur) =>
      !HasParent(cur) || FindNode(ns, cur.parentId.value).None? ||
      (fuel > 0 && ChainEnds(store, store, cur.parentId.value, fuel - 1))
  }

  /**
   * `n` belongs to the branch before `id`: it is a strict ancestor of `id`
   * in `(ns, es)`, or it belongs to the branch before `id`'s parent
   * container in the store.
   */
  ghost predicate InBranch(store: seq<Node>, storeEdges: seq<Edge>, ns: seq<Node>, es: seq<Edge>, id: Id, n: Node, fuel: nat)
    decreases fuel, 1
  {
    (n in ns && ReachesPlus(ns, es, n.id, id)) || InParentBranch(store, storeEdges, ns, id, n, fuel)
  }

  ghost predicate InParentBranch(store: seq<Node>, storeEdges: seq<Edge>, ns: seq<Node>, id: Id, n: Node, fuel: nat)
    decreases fuel, 0
  {
    match FindNode(ns, id)
    case None => false
    case Some(cur) =>
      HasParent(cur) && FindNode(ns, cur.parentId.value).Some? && fuel > 0 &&
      InBranch(store, storeEdges, store, storeEdges, cur.parentId.value, n, fuel - 1)
  }

  /** The list the walk starts from: the result for the parent container, when there is one. */
  function ParentBranch(c: Constants, store: seq<Node>, storeEdges: seq<Edge>, ns: seq<Node>, id: Id, ghost fuel: nat): (r: seq<Node>)
    requires ChainEnds(store, ns, id, fuel)
    decreases fuel, 0
    ensures UniqueIds(r)
    ensures forall n :: n in r ==> n.kind in c.outputVarKinds
    ensures forall n :: n in r ==> InParentBranch(store, storeEdges, ns, id, n, fuel)
  {
    match FindNode(ns, id)
    case None => []
    case Some(cur) =>
      if HasParent(cur) then
        match FindNode(ns, cur.parentId.value)
        case None => []
        case Some(p) =>
          ChainStep(store, ns, id, cur, p, fuel);
          var r := FetchBefore(c, store, storeEdges, p.id, None, None, fuel - 1);
          ParentStep(store, storeEdges, ns, id, cur, p, fuel, r);
          r
      else []
  }

  lemma ChainStep(store: seq<Node>, ns: seq<Node>, id: Id, cur: Node, p: Node, fuel: nat)
    requires ChainEnds(store, ns, id, fuel)
    requires FindNode(ns, id) == Some(cur) && HasParent(cur)
    requires FindNode(ns, cur.parentId.value) == Some(p)
    ensures fuel > 0 && ChainEnds(store, store, p.id, fuel - 1)
  {
  }

  lemma ParentStep(store: seq<Node>, storeEdges: seq<Edge>, ns: seq<Node>, id: Id, cur: Node, p: Node, fuel: nat, r: seq<Node>)
    requires FindNode(ns, id) == Some(cur) && HasParent(cur)
    requires FindNode(ns, cur.parentId.value) == Some(p) && fuel > 0
    requires forall n :: n in r ==> InBranch(store, storeEdges, store, storeEdges, p.id, n, fuel - 1)
    ensures forall n :: n in r ==> InParentBranch(store, storeEdges, ns, id, n, fuel)
  {
  }

  /**
   * `fetchBeforeNodesInSameBranch(id, newNodes, newEdges)`: the parent
   * container's result, then the incomer walk from the node, once per id,
   * reversed and filtered to the kinds that expose output variables.
   */
  function FetchBefore(c: Constants, store: seq<Node>, storeEdges: seq<Edge>, id: Id,
                       newNodes: Option<seq<Node>>, newEdges: Option<seq<Edge>>, ghost fuel: nat): (r: seq<Node>)
    requires ChainEnds(store, newNodes.GetOr(store), id, fuel)
    decreases fuel, 1
    ensures id !in NodeIds(newNodes.GetOr(store)) ==> r == []
    ensures UniqueIds(r)
    ensures forall n :: n in r ==> n.kind in c.outputVarKinds
    ensures forall n :: n in r ==>
              InBranch(store, storeEdges, newNodes.GetOr(store), newEdges.GetOr(storeEdges), id, n, fuel)
    ensures forall n :: n in ParentBranch(c, store, storeEdges, newNodes.GetOr(store), id, fuel) ==> n in r
  {
    var ns := newNodes.GetOr(store);
    var es := newEdges.GetOr(storeEdges);
    match FindNode(ns, id)
    case None => []
    case Some(cur) =>
      var list0 := ParentBranch(c, store, storeEdges, ns, id, fuel);
      var list := Gather(ns, es, cur.id, Incomers(ns, es, cur.id), list0);
      var r := if list != [] then Filter(Reverse(UniqBy(list, (n: Node) => n.id)), (n: Node) => n.kind in c.outputVarKinds) else [];
      Finish(c, store, storeEdges, ns, es, id, fuel, list0, list, r);
      r
  }

  lemma ReverseFacts(s: seq<Node>)
    ensures forall x :: x in Reverse(s) <==> x in s
    ensures UniqueIds(s) ==> UniqueIds(Reverse(s))
  {
    var t := Reverse(s);
    forall x | x in s
      ensures x in t
    {
      var i :| 0 <= i < |s| && s[i] == x;
      assert t[|s| - 1 - i] == x;
    }
    if UniqueIds(s) {
      forall i, j | 0 <= i < j < |t|
        ensures t[i].id != t[j].id
      {
        assert t[i] == s[|s| - 1 - i] && t[j] == s[|s| - 1 - j];
      }
    }
  }

  /** With unique ids, `uniqBy` keeps every node. */
  lemma UniqKeeps(s: seq<Node>, n: Node)
    requires UniqueIds(s) && n in s
    ensures n in UniqBy(s, (m: Node) => m.id)
  {
    var key := (m: Node) => m.id;
    var u := UniqBy(s, key);
    assert HasKey(u, key, key(n));
    var y :| y in u && y.id == n.id;
    Fetch.SameId(s, y, n);
  }

  /** The final `uniqBy`, `reverse` and `filter` keep the walk's guarantees. */
  lemma Finish(c: Constants, store: seq<Node>, storeEdges: seq<Edge>, ns: seq<Node>, es: seq<Edge>, id: Id, fuel: nat,
               list0: seq<Node>, list: seq<Node>, r: seq<Node>)
    requires UniqueIds(list0)
    requires forall n :: n in list0 ==> n.kind in c.outputVarKinds && InParentBranch(store, storeEdges, ns, id, n, fuel)
    requires Extends(list0, list) && AddedUpstream(ns, es, list0, list, id)
    requires UniqueIds(list0) ==> UniqueIds(list)
    requires r == if list != [] then Filter(Reverse(UniqBy(list, (n: Node) => n.id)), (n: Node) => n.kind in c.outputVarKinds) else []
    ensures UniqueIds(r)
    ensures forall n :: n in r ==> n.kind in c.outputVarKinds
    ensures forall n :: n in r ==> InBranch(store, storeEdges, ns, es, id, n, fuel)
    ensures forall n :: n in list0 ==> n in r
    ensures forall n :: n in list && n.kind in c.outputVarKinds ==> n in r
  {
    var u := UniqBy(list, (n: Node) => n.id);
    ReverseFacts(u);
    Fetch.FilterKeepsUniqueIds(Reverse(u), (n: Node) => n.kind in c.outputVarKinds);
    ExtendsFacts(list0, list);
    forall n | n in r
      ensures InBranch(store, storeEdges, ns, es, id, n, fuel)
    {
      var i :| 0 <= i < |list| && list[i] == n;
      if i < |list0| {
        assert list0[i] == n;
      }
    }
    forall n | n in list && n.kind in c.outputVarKinds
      ensures n in r
    {
      UniqKeeps(list, n);
    }
  }

  // ---------------------------------------------------------------------
  // Completeness

  /** `a` reaches `b` in one step or more, every node before `b` lying outside `avoid`. */
  ghost predicate ReachesOutside(nodes: seq<Node>, edges: seq<Edge>, a: Id, b: Id, avoid: set<Id>)
  {
    exists p :: Walk(nodes, edges, p) && |p| >= 2 && p[0] == a && p[|p| - 1] == b &&
                forall k :: 0 <= k < |p| - 1 ==> p[k] !in avoid
  }

  /** A walk into `goal` that avoids `base` starts at an id the incomer walk added. */
  lemma {:induction false} OutsideGathered(nodes: seq<Node>, edges: seq<Edge>, goal: Id, base: set<Id>, seen: set<Id>, p: seq<Id>)
    requires Walk(nodes, edges, p) && |p| >= 2 && p[|p| - 1] == goal
    requires forall k :: 0 <= k < |p| - 1 ==> p[k] !in base
    requires forall y :: y in Incomers(nodes, edges, goal) ==> y.id in seen
    requires UpDone(nodes, edges, seen - base, seen)
    ensures p[0] in seen - base
  {
    var k := |p| - 2;
    assert HasEdge(edges, p[k], p[k + 1]) && p[k] in NodeIds(nodes);
    var y :| y in nodes && y.id == p[k];
    assert y in Incomers(nodes, edges, goal);
    while k > 0
      invariant 0 <= k <= |p| - 2
      invariant p[k] in seen - base
    {
      assert HasEdge(edges, p[k - 1], p[k]) && p[k - 1] in NodeIds(nodes);
      k := k - 1;
    }
  }

  /**
   * Every node of a supported kind that reaches the node without passing
   * through an id already taken from the parent container is returned.
   */
  lemma BeforeComplete(c: Constants, store: seq<Node>, storeEdges: seq<Edge>, id: Id,
                       newNodes: Option<seq<Node>>, newEdges: Option<seq<Edge>>, fuel: nat, m: Node)
    requires ChainEnds(store, newNodes.GetOr(store), id, fuel)
    requires UniqueIds(newNodes.GetOr(store))
    requires m in newNodes.GetOr(store) && m.kind in c.outputVarKinds
    requires ReachesOutside(newNodes.GetOr(store), newEdges.GetOr(storeEdges), m.id, id,
                            NodeIds(ParentBranch(c, store, storeEdges, newNodes.GetOr(store), id, fuel)))
    ensures m in FetchBefore(c, store, storeEdges, id, newNodes, newEdges, fuel)
  {
    var ns := newNodes.GetOr(store);
    var es := newEdges.GetOr(storeEdges);
    var list0 := ParentBranch(c, store, storeEdges, ns, id, fuel);
    var p :| Walk(ns, es, p) && |p| >= 2 && p[0] == m.id && p[|p| - 1] == id &&
             forall k :: 0 <= k < |p| - 1 ==> p[k] !in NodeIds(list0);
    assert id in NodeIds(ns);
    var cur := FindNode(ns, id).value;
    var list := Gather(ns, es, cur.id, Incomers(ns, es, cur.id), list0);
    OutsideGathered(ns, es, id, NodeIds(list0), NodeIds(list), p);
    AddedMember(ns, es, id, list0, list, m);
    var r := if list != [] then Filter(Reverse(UniqBy(list, (n: Node) => n.id)), (n: Node) => n.kind in c.outputVarKinds) else [];
    Finish(c, store, storeEdges, ns, es, id, fuel, list0, list, r);
  }

  /** A node whose id the incomer walk added is itself in the gathered list. */
  lemma AddedMember(ns: seq<Node>, es: seq<Edge>, id: Id, list0: seq<Node>, list: seq<Node>, m: Node)
    requires UniqueIds(ns) && m in ns
    requires Extends(list0, list) && AddedUpstream(ns, es, list0, list, id)
    requires m.id in NodeIds(list) - NodeIds(list0)
    ensures m in list
  {
    var y :| y in list && y.id == m.id;
    var i :| 0 <= i < |list| && list[i] == y;
    assert i < |list0| ==> y in list0;
    assert list[i] in ns;
    Fetch.SameId(ns, y, m);
  }

  /**
   * For a node outside any container, the result is exactly the strict
   * ancestors of a supported kind.
   */
  lemma BeforeTopLevel(c: Constants, store: seq<Node>, storeEdges: seq<Edge>, id: Id,
                       newNodes: Option<seq<Node>>, newEdges: Option<seq<Edge>>, fuel: nat, m: Node)
    requires ChainEnds(store, newNodes.GetOr(store), id, fuel)
    requires UniqueIds(newNodes.GetOr(store))
    requires FindNode(newNodes.GetOr(store), id).Some? ==> !HasParent(FindNode(newNodes.GetOr(store), id).value)
    ensures m in FetchBefore(c, store, storeEdges, id, newNodes, newEdges, fuel) <==>
            (m in newNodes.GetOr(store) && m.kind in c.outputVarKinds &&
             ReachesPlus(newNodes.GetOr(store), newEdges.GetOr(storeEdges), m.id, id))
  {
    var ns := newNodes.GetOr(store);
    var es := newEdges.GetOr(storeEdges);
    TopLevelHasNoParentBranch(c, store, storeEdges, ns, id, fuel, m);
    if m in ns && m.kind in c.outputVarKinds && ReachesPlus(ns, es, m.id, id) {
      var p :| Walk(ns, es, p) && |p| >= 2 && p[0] == m.id && p[|p| - 1] == id;
      assert ReachesOutside(ns, es, m.id, id, NodeIds([]));
      BeforeComplete(c, store, storeEdges, id, newNodes, newEdges, fuel, m);
    }
  }

  lemma TopLevelHasNoParentBranch(c: Constants, store: seq<Node>, storeEdges: seq<Edge>, ns: seq<Node>, id: Id, fuel: nat, m: Node)
    requires ChainEnds(store, ns, id, fuel)
    requires FindNode(ns, id).Some? ==> !HasParent(FindNode(ns, id).value)
    ensures ParentBranch(c, store, storeEdges, ns, id, fuel) == []
    ensures !InParentBranch(store, storeEdges, ns, id, m, fuel)
  {
  }

  // ---------------------------------------------------------------------
  // `fetchBeforeNodesInSameBranchIncludeParent`

  /** The store node whose id is the node's `parentId`, looking the node up in the store. */
  function StoreParent(store: seq<Node>, id: Id): (r: Option<Node>)
    ensures r.Some? ==> r.value in store
    ensures r.Some? <==> (id in NodeIds(store) && FindNode(store, id).value.parentId.Some? &&
                          FindNode(store, id).value.parentId.value in NodeIds(store))
    ensures r.Some? ==> Some(r.value.id) == FindNode(store, id).value.parentId
  {
    match FindNode(store, id)
    case None => None
    case Some(n) =>
      if n.parentId.Some? then FindNode(store, n.parentId.value) else None
  }

  /** The list before the node, followed by its parent container when the store has one. */
  function FetchBeforeIncludeParent(c: Constants, store: seq<Node>, storeEdges: seq<Edge>, id: Id,
                                    newNodes: Option<seq<Node>>, newEdges: Option<seq<Edge>>, ghost fuel: nat): (r: seq<Node>)
    requires ChainEnds(store, newNodes.GetOr(store), id, fuel)
    ensures var before := FetchBefore(c, store, storeEdges, id, newNodes, newEdges, fuel);
            Extends(before, r) && |r| <= |before| + 1
    ensures var before := FetchBefore(c, store, storeEdges, id, newNodes, newEdges, fuel);
            |r| == |before| + 1 <==> StoreParent(store, id).Some?
    ensures var before := FetchBefore(c, store, storeEdges, id, newNodes, newEdges, fuel);
            |r| == |before| + 1 ==> r[|before|] in store && Some(r[|before|].id) == FindNode(store, id).value.parentId
  {
    var before := FetchBefore(c, store, storeEdges, id, newNodes, newEdges, fuel);
    match StoreParent(store, id)
    case None => before
    case Some(p) => before + [p]
  }
}

=== FILE: wrappers.dfy ===
/** Optional values: `undefined`/`null` in the workflow editor become `None`. */
module Wrappers {

  datatype Option<+T> = None | Some(value: T) {

    /** The wrapped value, or `default` when absent (the `??` operator). */
    function GetOr(default: T): T
    {
      match this
      case Some(v) => v
      case None => default
    }
  }
}
